=== FILE: README.md ===
# celaeno layered layout, modelled in Dafny

A model of the C++ header library celaeno's layered-graph-layout core, with proofs about it:

- the traversals: breadth-first search, depth-first search and Kahn's topological sort;
- the layering stages: `views::depth` (longest-path levels), `balance` (long edges split by
  chains of pseudo vertices), `red_card` and its fixpoint in `hook.hpp` (out-degree halving
  through pseudo vertices), and `views::breadth` (column assignment);
- the ordering metrics: `matrix_realization` (incidence matrices between adjacent layers),
  `imatrix_crossings` and `crossings::run` (crossing counts), and `barycenter::row`/`col`;
- the coarsening stages: `hvm` (heavy-vertex matching), `hem` (heavy-edge matching) and
  `coarsening` (re-enumeration of a map);
- `cantor_pairing` in both directions.

Every stage works through a graph view, `Graphs.Graph`. It holds an edge set and the ordered
predecessor and successor lists that the caller's `pred`/`succ` callbacks return. `Valid` says
the lists and the edge set agree and no list repeats a vertex. The `link` and `unlink` callbacks
become `Graphs.Link` (append to both lists) and `Graphs.Unlink` (remove from both lists).

Callbacks that only read (`get_adjacent`, `get_weight`, `has_edge`, `get_layer`, the search
callbacks) become pure function parameters. The traversals are methods with loop invariants.
The graph rewrites are pure functions over an explicit vertex order, and lemmas prove what they
leave behind.

Files:

| file | module | models |
|---|---|---|
| seqs.dfy | Seqs | sequence helpers (`NoDup`, `Filter`, `Remove`, `Fresh`, `Sum`) and `Option` |
| graph.dfy | Graphs | the graph view, `link`/`unlink`, reachability, the reversed graph |
| bfs.dfy | Bfs | `bfs.hpp` |
| dfs.dfy | Dfs | `dfs.hpp` |
| kahn.dfy | Kahn | `kahn.hpp` |
| depth.dfy | Depth | `views/depth.hpp` |
| balance.dfy | Balance | `balance.hpp` |
| breadth.dfy | Breadth | `views/breadth.hpp` |
| redcard.dfy | RedCard | `red-card.hpp` |
| hook.dfy | Hook | `hook.hpp` |
| matrix.dfy | MatrixRealization | `matrix-realization.hpp` |
| crossings.dfy | Crossings | `imatrix-crossings.hpp`, `crossings.hpp` |
| barycenter.dfy | Barycenter | `barycenter.hpp` |
| hvm.dfy | Hvm | `hvm.hpp` |
| hem.dfy | Hem | `hem.hpp` |
| coarsening.dfy | Coarsening | `coarsening.hpp` |
| cantor.dfy | Cantor | `math/cantor-pairing.hpp` |

Interpretations of the code:

- `views::depth` loops forever when a vertex can never be levelled. `Depth.Depth` returns
  `Diverges(stuck)` in that case, and `Depth.StuckHoldsCycle` shows that the stuck vertices hold
  a directed cycle. `balance` and `breadth` then return `None`.
- `balance.hpp` and `views/breadth.hpp` call `depth(root, pred, succ)`, but `depth`'s parameters
  are `(root, get_successors, get_predecessors)`. The levels are therefore those of the reversed
  graph. For both, the as-written and the corrected call are modelled (see Findings):
  `Balance.BalanceAsWritten` and `Balance.Balance`, `Breadth.Breadth` and `Breadth.BreadthCorrected`.
  The tests of both build their own levels with `depth(0, succ, pred)` (balance.cpp:53-56,
  breadth.cpp:66-69 and 102-105).
- The matrix-realization test calls `depth(1, pred, succ)` too (matrix-realization.cpp:116, 190). Its expected matrices match the levels of `depth(1, succ, pred)`. Both are modelled: `MatrixRealization.TestRealization` and `TestRealizationOdd` on the intended layers, `TestRealizationSwapped` on the layers the call yields (see Findings).
- `red-card.hpp` and `hook.hpp` iterate `for (v : bfs)` over the value `bfs::bfs` returns, which
  is a single vertex. The model iterates over every vertex the search visits, in visiting order.
  Both files search from the literal 0 and never read `root`.
- In `hvm`, the partner in step 2.2 is the first vertex of greatest cardinality in adjacency-list
  order (`max_element` over a filtered list). Step 5 picks the least id of greatest cardinality
  (`max_element` over an ascending `std::set`).

## Model

| member | source | states |
|---|---|---|
| Seqs.Fresh | include/celaeno/graph/bfs.hpp:51-55 | the neighbours the search queues are exactly the unmarked ones, each once even when the list repeats one |
| Graphs.Link | include/celaeno/graph/balance.hpp:102-103 | `link` adds one edge and appends it to both lists when it is new; nothing else changes, and the view stays consistent |
| Graphs.Unlink | include/celaeno/graph/balance.hpp:115 | `unlink` removes one edge from the set and from both lists; each list shrinks by one exactly when the edge existed; nothing else changes |
| Graphs.Reverse | include/celaeno/graph/balance.hpp:63-66 | swapping the two callbacks gives the reversed graph: each list becomes the other list, and every edge is turned round |
| Graphs.Neighbours | include/celaeno/graph/kahn.hpp:71 | the neighbour callback lists the predecessors and then the successors |
| Bfs.Bfs | include/celaeno/graph/bfs.hpp:21-62 | the visits start at the root and never repeat a vertex; every visit is reachable; the callback is false on every visit before the last; the returned vertex is the last visit; if the callback never fires, every reachable vertex is visited; the visits are the leading entries of the FIFO queue `Queue` (the root, then each popped vertex's unmarked neighbours in list order), and all of it when the callback never fires |
| Bfs.Queue | include/celaeno/graph/bfs.hpp:39-59 | the queue over its whole life starts with the root |
| Bfs.Pop | include/celaeno/graph/bfs.hpp:42-55 | one turn pops the head, keeps the loop invariant, and extends the visits and the queue along `Queue`; the measure decreases |
| Bfs.QueueStep | include/celaeno/graph/bfs.hpp:42-55 | popping the head and appending its fresh neighbours keeps visits-then-queue equal to `Queue` at the next length |
| Bfs.QueuePrefix | include/celaeno/graph/bfs.hpp:39-59 | the visits so far are a prefix of `Queue`, and all of it once the queue is empty |
| Dfs.Dfs | include/celaeno/graph/dfs.hpp:42-65 | the same guarantees as the search above, plus LIFO order: when the last-listed neighbour of a visit is still unvisited, it is the next visit |
| Kahn.Release | include/celaeno/graph/kahn.hpp:99-108 | the inner loop adds exactly the out-edges of `c` to the removed set; it queues exactly those successors whose every in-edge is now removed |
| Kahn.Sources | include/celaeno/graph/kahn.hpp:83-85 | the search meets exactly the vertices reachable from the root, in the FIFO order of `Bfs.Queue` over the neighbour callback; the initial queue is those without predecessors, in that order |
| Kahn.Kahn | include/celaeno/graph/kahn.hpp:68-111 | the result has no repeats and only reachable vertices; every predecessor of a result vertex comes before it; sources come first, in the order the breadth-first search met them (the ghost `order` is that search order, `SearchLeads`); the callback is false before the last vertex; a run the callback does not stop leaves every reachable vertex whose predecessors are all sorted sorted too |
| Kahn.PrefixKept | include/celaeno/graph/kahn.hpp:89-107 | popping the front of the deque into the result and pushing released successors at the back keeps the initial sources a prefix of result-then-deque |
| Kahn.LeadsFromPrefix | include/celaeno/graph/kahn.hpp:83-93 | when the sources are a prefix of result-then-deque, the result agrees with the sources, in search order, wherever both have an entry |
| Kahn.OnCycleNeverSorted | include/celaeno/graph/kahn.hpp:87-109 | a vertex on a directed cycle never enters the result |
| Kahn.DownstreamOfCycleNeverSorted | include/celaeno/graph/kahn.hpp:87-109 | no vertex that a path from a cycle reaches enters the result either |
| Kahn.RankedAllSorted | include/celaeno/graph/kahn.hpp:87-110 | on a graph whose edges all go up some rank (acyclic), a completed run sorts every reachable vertex |
| Depth.InLevelOrder | include/celaeno/graph/balance.hpp:71-79 | walking the level multimap key by key meets exactly the vertices of its lists |
| Depth.LevelOrderOnce | include/celaeno/graph/balance.hpp:71-79 | walking the multimap of a level table meets every levelled vertex exactly once, and levels below `n` come first |
| Depth.Depth | include/celaeno/graph/views/depth.hpp:25-121 | when it returns, exactly the vertices reachable from the root are levelled; level 0 is the vertices without predecessors; every other level is one more than the highest predecessor level; the multimap lists each level once; when it never returns, the unlevelled vertices each wait on another of them |
| Depth.Passes | include/celaeno/graph/views/depth.hpp:72-119 | the repeated passes level exactly the swept vertices with the longest-path levels, or leave a non-empty blocked set |
| Depth.PassKeepsLevels | include/celaeno/graph/views/depth.hpp:89-118 | one pass levels its vertices at `k + 1` and keeps the table a longest-path layering of what it holds |
| Depth.PassKeepsLayers | include/celaeno/graph/views/depth.hpp:107-113 | one pass appends the list of vertices it levels, in sweep order, as the multimap's next level |
| Depth.StuckWhenNothingReady | include/celaeno/graph/views/depth.hpp:73-119 | a pass that levels nothing while vertices remain leaves a non-empty set in which every vertex waits on another, so the loop never ends |
| Depth.LayeredUnique | include/celaeno/graph/views/depth.hpp:55-119 | two layerings of the same vertices are equal, so the levels do not depend on the sweep order |
| Depth.LevelledOffCycles | include/celaeno/graph/views/depth.hpp:89-113 | no vertex on a directed cycle ever gets a level |
| Depth.StuckHoldsCycle | include/celaeno/graph/views/depth.hpp:73-119 | a set of vertices that each wait on another of them contains a directed cycle, followed backwards |
| Balance.SplitEdge | include/celaeno/graph/balance.hpp:89-136 | the inner loop on the graph keeps it consistent; counts ids down; leaves every other vertex's predecessors alone; has the edge-set effect of `SplitSet` |
| Balance.SplitIsChain | include/celaeno/graph/balance.hpp:89-136 | the inner loop replaces p -> v by the chain p -> c -> c-1 -> ... -> v through `distance - 1` fresh ids |
| Balance.ChainLeads | include/celaeno/graph/balance.hpp:98-126 | the chain is a path from p to v through the fresh ids c, c-1, ... in order |
| Balance.ChainTargets | include/celaeno/graph/balance.hpp:98-126 | no two edges of one chain end at the same vertex |
| Balance.ChainSources | include/celaeno/graph/balance.hpp:98-126 | no two edges of one chain leave the same vertex |
| Balance.ThreadSplit | include/celaeno/graph/balance.hpp:101-115 | replacing one old edge by its chain keeps every fresh id with at most one parent and at most one child |
| Balance.BackApart | include/celaeno/graph/balance.hpp:98-126 | two fresh paths that share an inner vertex reach it at the same step from the same start |
| Balance.OnApart | include/celaeno/graph/balance.hpp:98-126 | two fresh paths that share an inner vertex reach the same end the same number of steps later |
| Balance.BridgesApart | include/celaeno/graph/balance.hpp:76-139 | after a run, the bridges of two removed edges that share a fresh vertex belong to the same edge |
| Balance.ChainSpansOne | include/celaeno/graph/balance.hpp:89-136 | once the fresh ids are levelled one level apart, every chain edge goes down exactly one level |
| Balance.BalanceVertex | include/celaeno/graph/balance.hpp:83-137 | the middle loop over one vertex's predecessors keeps the graph consistent and the other predecessor lists unchanged |
| Balance.VertexProgress | include/celaeno/graph/balance.hpp:83-137 | the middle loop removes exactly the long edges into `v` and bridges each with its chain |
| Balance.AllProgress | include/celaeno/graph/balance.hpp:76-139 | the outer loops remove exactly the long edges into the vertices they walk and bridge each one |
| Balance.AllIdle | include/celaeno/graph/balance.hpp:84-89 | when no edge spans more than one level, the loops change nothing |
| Balance.Run | include/celaeno/graph/balance.hpp:76-139 | a run over every levelled vertex removes and bridges exactly the long original edges and keeps the others; every new edge touches a fresh id; every fresh id has at most one parent and one child, so no two bridges share one; every edge into a levelled or fresh vertex then goes down one level |
| Balance.Balance | include/celaeno/graph/balance.hpp:45-141 | with the levels of the graph as it is: `None` exactly when a directed cycle is reachable from the root; otherwise the rewrite `Run` describes |
| Balance.BalanceAsWritten | include/celaeno/graph/balance.hpp:45-141 | with the callbacks in the source's order: `None` exactly when the reversed graph has a reachable cycle; otherwise the graph comes back unchanged |
| Balance.AsWrittenIdle | include/celaeno/graph/balance.hpp:63-66 | with the reversed graph's levels every real edge goes up, so no edge is long and the loops change nothing |
| Balance.TriangleLevels | include/celaeno/graph/views/depth.hpp:89-116 | on the triangle 0 -> 1 -> 2 with shortcut 0 -> 2, the levels are 0, 1, 2 and the shortcut spans two levels |
| Balance.TriangleShortcutSplit | include/celaeno/graph/balance.hpp:63-66 | every result of the corrected run on the triangle has lost the shortcut 0 -> 2 |
| Breadth.Place | include/celaeno/graph/views/breadth.hpp:97-133 | a free counter column is kept; a taken one moves past every column already used on the level, stopping right after the counter or after a used column; the chosen column differs from every column placed on the level |
| Breadth.PushFront | include/celaeno/graph/views/breadth.hpp:136 | pushing each successor at the front puts them ahead of the deque, last first, losing nothing |
| Breadth.Step | include/celaeno/graph/views/breadth.hpp:83-137 | one turn keeps the sweep and placement invariants; it either places a new vertex or shortens the deque |
| Breadth.Columns | include/celaeno/graph/views/breadth.hpp:66-140 | every vertex reachable from the root gets exactly one column; the root gets column 0; columns are non-negative; no two vertices of one level share a column |
| Breadth.Breadth | include/celaeno/graph/views/breadth.hpp:47-141 | with the source's call to `depth`: `None` exactly when the reversed graph has a reachable cycle; otherwise the column table of `Columns`, apart on the reversed graph's levels |
| Breadth.BreadthCorrected | include/celaeno/graph/views/breadth.hpp:47-141 | with `depth`'s callbacks in their declared order: `None` exactly when a directed cycle is reachable from the root; otherwise every reachable vertex gets a column, the root column 0, and no two vertices of one of the graph's own levels share a column |
| Breadth.TriangleReversedLevels | include/celaeno/graph/views/breadth.hpp:62 | on the triangle 0 -> 1 -> 2 with shortcut 0 -> 2, the levels the source's call yields put the sink 2 at level 0 and the root 0 at level 2 |
| RedCard.Pairs | include/celaeno/graph/red-card.hpp:95-100 | `split_every(2, s)` with the short group dropped has half as many pairs as `s` has elements |
| RedCard.PairsFlat | include/celaeno/graph/red-card.hpp:95-100 | laid out again, the pairs are `s` without its odd last element |
| RedCard.PairsAt | include/celaeno/graph/red-card.hpp:95-100 | pair i holds the elements at 2i and 2i+1 |
| RedCard.DetachEdges | include/celaeno/graph/red-card.hpp:102-106 | the unlink loop removes exactly the edges from v to the paired children |
| RedCard.DetachSucc | include/celaeno/graph/red-card.hpp:102-106 | after the unlink loop, v's list is its unpaired tail; other successor lists are unchanged |
| RedCard.DetachPredCount | include/celaeno/graph/red-card.hpp:102-106 | each paired child loses exactly one parent |
| RedCard.HangIsLinks | include/celaeno/graph/red-card.hpp:111-113 | the three links for one pair put both children under a fresh s and s under v |
| RedCard.AttachSucc | include/celaeno/graph/red-card.hpp:109-115 | the link loop appends the pseudo ids start, start-1, ... to v's list and leaves other original lists alone |
| RedCard.AttachPred | include/celaeno/graph/red-card.hpp:109-115 | each paired child gains exactly one parent; other original predecessor lists are unchanged |
| RedCard.AttachPseudo | include/celaeno/graph/red-card.hpp:109-115 | the i-th pseudo id has v as its only parent and the i-th pair as its children |
| RedCard.PairVertex | include/celaeno/graph/red-card.hpp:93-115 | one vertex's iteration keeps the graph consistent; it uses |s| / 2 ids from `start` down, and the ids below them stay free |
| RedCard.VertexSucc | include/celaeno/graph/red-card.hpp:93-115 | v keeps its odd last child, if it has one, followed by the new pseudo ids; other original successor lists are unchanged |
| RedCard.VertexDegree | include/celaeno/graph/red-card.hpp:93-115 | the out-degree of v falls from k to ceil(k / 2) |
| RedCard.VertexPred | include/celaeno/graph/red-card.hpp:93-115 | every original vertex keeps its in-degree |
| RedCard.VertexPseudo | include/celaeno/graph/red-card.hpp:93-115 | the i-th new id has v as its only parent and s[2i], s[2i+1] as its children |
| RedCard.VertexShape | include/celaeno/graph/red-card.hpp:109-115 | every pseudo id one vertex's iteration uses ends with exactly one parent and two children |
| RedCard.PassSucc | include/celaeno/graph/red-card.hpp:89-120 | the pass leaves each visited vertex with ceil(k / 2) of its k children |
| RedCard.PassKeeps | include/celaeno/graph/red-card.hpp:89-120 | the pass leaves the successor list of every original vertex it does not visit unchanged |
| RedCard.PassPred | include/celaeno/graph/red-card.hpp:89-120 | the pass keeps the in-degree of every original vertex |
| RedCard.PassPseudo | include/celaeno/graph/red-card.hpp:89-120 | every pseudo vertex the pass creates has exactly one parent and two children |
| RedCard.VertexHung | include/celaeno/graph/red-card.hpp:93-115 | one vertex's iteration leaves v with its odd last child, if any, followed by the ids start, start-1, ...; the i-th of those has v as its only parent and s[2i], s[2i+1] as its children |
| RedCard.VertexPredKeep | include/celaeno/graph/red-card.hpp:102-115 | an original vertex that is not a child of v keeps its parent list exactly |
| RedCard.PassPredKeep | include/celaeno/graph/red-card.hpp:89-120 | an original vertex that no visited vertex has as a child keeps its parent list exactly |
| RedCard.PassNext | include/celaeno/graph/red-card.hpp:89-120 | the pass leaves the counter exactly `Used` ids below `start`: |s| / 2 for every visited vertex with children s |
| RedCard.HungFirst | include/celaeno/graph/red-card.hpp:89-120 | the later vertices of the pass leave the first visited vertex's new children and their pairs as its own iteration left them |
| RedCard.PassHung | include/celaeno/graph/red-card.hpp:89-120 | each visited vertex is hung under the ids that follow those of the vertices visited before it |
| RedCard.SearchHung | include/celaeno/graph/red-card.hpp:89-120 | over a search that visits exactly the vertices reachable from 0, each of them is hung under its own block of ids between the final counter and `start` |
| RedCard.RedCard | include/celaeno/graph/red-card.hpp:68-122 | every vertex reachable from 0 ends with ceil(k / 2) children: its odd last child, if any, then fresh ids each holding one consecutive pair of its old children under it as only parent; other original vertices keep their children; every original vertex keeps its in-degree; each new id has one parent and two children |
| Hook.Hook | include/celaeno/graph/hook.hpp:72-134 | on success no vertex reachable from 0 has more than four neighbours, and original in-degrees are kept; a root whose parents, plus one if it has children, exceed four can never pass |
| Hook.Quiet | include/celaeno/graph/hook.hpp:127-132 | a check search that ends on a quiet vertex met no crowded vertex anywhere it could reach |
| MatrixRealization.PairCount | include/celaeno/graph/matrix-realization.hpp:90-97 | the loop visits height - 1 layer pairs, or 2^64 - 1 when the unsigned height is 0 |
| MatrixRealization.Incidence | include/celaeno/graph/matrix-realization.hpp:103-121 | the matrix has 1 at [r][c] exactly when `has_edge` holds between the r-th and c-th vertices, and 0 elsewhere |
| MatrixRealization.Realize | include/celaeno/graph/matrix-realization.hpp:89-128 | matrix i is the incidence matrix of layers i and i + 1, for each of the `PairCount(height)` pairs |
| MatrixRealization.RealizedUnique | include/celaeno/graph/matrix-realization.hpp:103-121 | an incidence matrix is determined by its layers and edges |
| MatrixRealization.TestLayered | test/include/celaeno/graph/matrix-realization.cpp:88-107 | the levels 0 for 1, 2; 1 for 3 .. 6; 2 for 7 .. 10; 3 for 11 .. 13 are a longest-path layering of either test graph (the odd one stops at level 2) |
| MatrixRealization.TestLevels | include/celaeno/graph/views/depth.hpp:55-119 | every longest-path layering of a test graph, which `depth(1, succ, pred)` returns, has as many levels as the test's `height` and lists at level i exactly the vertices of `TestLayer(i)`, which `get_layer` sorts |
| MatrixRealization.SwappedLayered | test/include/celaeno/graph/matrix-realization.cpp:116 | the sinks at level 0, then their parents, up to 1 and 2 at the top, are a longest-path layering of the reversed test graph |
| MatrixRealization.SwappedLevels | test/include/celaeno/graph/matrix-realization.cpp:116 | the levels of `depth(1, pred, succ)`, that is of the reversed graph, put vertex 6 at level 0 and vertex 1 at the top, and list the sinks first: 6, 8, 11, 12, 13 (odd: 6 .. 10), then 7, 9, 10 (even only), then 3, 4, 5, then 1, 2 |
| MatrixRealization.SwappedM0 | test/include/celaeno/graph/matrix-realization.cpp:126-163 | between the first two swapped layers there is no edge, so their incidence matrix is the 5 x 3 matrix of zeros |
| MatrixRealization.TestRealizationSwapped | test/include/celaeno/graph/matrix-realization.cpp:116-163 | with the levels the test's call really yields, either subcase gets the expected number of matrices, but the first is the 5 x 3 zero matrix, not `m1` |
| MatrixRealization.TestRealization | test/include/celaeno/graph/matrix-realization.cpp:160-163 | on the four-layer test graph, with the layers of `depth(1, succ, pred)` (`TestLevels`), the result is exactly the three expected matrices |
| MatrixRealization.TestRealizationOdd | test/include/celaeno/graph/matrix-realization.cpp:234-236 | on the three-layer test graph's twelve edges (lines 170-182), with the layers of `depth(1, succ, pred)` and height 3, the result is exactly the first two expected matrices |
| Crossings.CountLoops | include/celaeno/graph/imatrix-crossings.hpp:79-91 | the four nested loops from row and column `lo` compute the crossing sum over lo <= j < k and lo <= a < b of m[j][b] * m[k][a] |
| Crossings.ImatrixCrossings | include/celaeno/graph/imatrix-crossings.hpp:54-101 | the full crossing count; zero with one row or at most one column; non-negative on a non-negative matrix |
| Crossings.CrossingsRun | include/celaeno/graph/crossings.hpp:77-124 | `run` counts from row and column 1; it equals the full count of the matrix without its first row and column, and is zero with at most two rows or columns |
| Crossings.CountShift | include/celaeno/graph/crossings.hpp:102-110 | counting from index 1 equals the full count of the trimmed matrix |
| Crossings.NarrowCountsZero | include/celaeno/graph/imatrix-crossings.hpp:79-91 | too few rows or columns past `lo` give a zero count |
| Crossings.CountNonNegative | include/celaeno/graph/imatrix-crossings.hpp:79-91 | non-negative entries give a non-negative count |
| Crossings.TestCounts | test/include/celaeno/graph/imatrix-crossings.cpp:80-85 | the full count on the six test matrices is 14, 10, 9, 9, 8 and 7 |
| Crossings.RunOnFirstTestMatrix | test/include/celaeno/graph/crossings.cpp:100-107 | `run` on the first test matrix counts 7 where the test expects 14, the full count |
| Barycenter.Column | include/celaeno/graph/barycenter.hpp:45-48 | column c read top to bottom has one entry per row, `m[i][c]` |
| Barycenter.Row | include/celaeno/graph/barycenter.hpp:24-38 | the weighted mean 1-based position of a row; a non-negative row gives a value between 1 and its length |
| Barycenter.Col | include/celaeno/graph/barycenter.hpp:40-59 | the same for a column; a non-negative column gives a value between 1 and the number of rows |
| Barycenter.ColIsRowOfTranspose | include/celaeno/graph/barycenter.hpp:24-59 | `col` of a matrix is `row` of its transpose |
| Barycenter.RowsOfTestMatrices | test/include/celaeno/graph/barycenter.cpp:47-64 | the exact row barycenters of both test matrices, which the test's rounded values approximate |
| Barycenter.ColumnsOfFirstTestMatrix | test/include/celaeno/graph/barycenter.cpp:47-55 | the exact column barycenters of the first test matrix |
| Barycenter.ColumnsOfSecondTestMatrix | test/include/celaeno/graph/barycenter.cpp:57-65 | the exact column barycenters of the second test matrix |
| Hvm.FirstMaxAt | include/celaeno/graph/hvm.hpp:90-91 | `max_element` under `card(x) < card(y)` yields the first element of greatest cardinality |
| Hvm.Best | include/celaeno/graph/hvm.hpp:130 | step 5 picks a vertex of `usat` of greatest cardinality, the least id among ties |
| Hvm.Pair | include/celaeno/graph/hvm.hpp:99-127 | a round saturates `v1`; a new recorded pair is (`v1`, a saturated neighbour of `v1`); earlier pairs are kept; a vertex saturated and not queued stays so |
| Hvm.Next | include/celaeno/graph/hvm.hpp:130-143 | step 5 moves the best vertex of `usat` into `sat` and keeps the pairs |
| Hvm.Run | include/celaeno/graph/hvm.hpp:97-145 | the do-while loop keeps every pair the first round records |
| Hvm.RunAdjacent | include/celaeno/graph/hvm.hpp:97-145 | every recorded pair joins a vertex to one of its neighbours |
| Hvm.RunReach | include/celaeno/graph/hvm.hpp:97-145 | both ends of every recorded pair are reachable from the root |
| Hvm.RunMatching | include/celaeno/graph/hvm.hpp:97-145 | from sound bookkeeping the loop records a matching: no vertex in two pairs, none paired with itself |
| Hvm.HvmAsWritten | include/celaeno/graph/hvm.hpp:55-148 | `hvm` as written records pairs of neighbours reachable from the root |
| Hvm.Hvm | include/celaeno/graph/hvm.hpp:55-148 | with the root saturated like every later `v1`, the result is a matching of neighbours reachable from the root; in every round the partner of `v1`, if it gets one, has the greatest cardinality among the neighbours of `v1` not taken before that round (`HeavyFrom` over the rounds' `v1` sequence `HvmRounds`) |
| Hvm.PairIdle | include/celaeno/graph/hvm.hpp:99-127 | a round that records no pair for `v1` found every neighbour of `v1` already saturated and out of `usat` |
| Hvm.HeavyHere | include/celaeno/graph/hvm.hpp:107-117 | the pair a round records for `v1` has a partner of greatest cardinality among the neighbours not yet taken by an earlier round |
| Hvm.NextAccounted | include/celaeno/graph/hvm.hpp:112-141 | every saturated vertex is an earlier `v1`, the current `v1` or a recorded partner, and every recorded key is an earlier `v1`; step 5 keeps this |
| Hvm.RunFresh | include/celaeno/graph/hvm.hpp:97-145 | every key the loop adds to the pairs from now on is the current `v1` or a vertex not yet saturated |
| Hvm.HeavyLast | include/celaeno/graph/hvm.hpp:130-134 | when `usat` is empty after a round, that last round follows the heavy-vertex rule |
| Hvm.RunHeavy | include/celaeno/graph/hvm.hpp:97-145 | every round of the do-while loop from `v1` on follows the heavy-vertex rule against the final result |
| Hvm.PairTakes | include/celaeno/graph/hvm.hpp:112-121 | once the partner is known, a round saturates both ends, queues the partner's unsaturated neighbours and records the pair unless `v1` has one |
| Hvm.RootMatchedTwice | include/celaeno/graph/hvm.hpp:95-117 | on a graph whose root lists itself, the source pairs 0 with 1 and then 2 with 0, so its result is not a matching |
| Hem.Unmarked | include/celaeno/graph/hem.hpp:55-59 | `remove_if` keeps exactly the neighbours that are not saturated |
| Hem.ScanAsWritten | include/celaeno/graph/hem.hpp:64-73 | the scan as written keeps one of the candidates, the only one when there is one |
| Hem.HeaviestAt | include/celaeno/graph/hem.hpp:63-73 | the intended scan keeps the first candidate of greatest weight |
| Hem.Choose | include/celaeno/graph/hem.hpp:61-73 | the partner is a candidate; under the corrected rule it is one of greatest weight |
| Hem.Visit | include/celaeno/graph/hem.hpp:46-81 | a saturated vertex, or one whose neighbours are all saturated, changes nothing; otherwise it is saturated with one unsaturated neighbour, recorded against it, and nothing else is |
| Hem.Sweep | include/celaeno/graph/hem.hpp:43-82 | the loop only grows the saturated set and keeps every recorded pair |
| Hem.SweepGood | include/celaeno/graph/hem.hpp:43-82 | the loop keeps the pairs disjoint, with the saturated set exactly their ends |
| Hem.SweepAdjacent | include/celaeno/graph/hem.hpp:43-82 | every recorded pair joins neighbours |
| Hem.SweepKeys | include/celaeno/graph/hem.hpp:80 | every new key is a vertex the loop visited |
| Hem.SweepSettles | include/celaeno/graph/hem.hpp:43-82 | after the loop every visited vertex is saturated or has only saturated neighbours |
| Hem.EveryVertexVisited | include/celaeno/graph/hem.hpp:38-40 | a shuffle of 0 .. size-1 holds every vertex |
| Hem.Match | include/celaeno/graph/hem.hpp:24-84 | the pairs are disjoint, join neighbours, have keys in 0 .. size-1, and are maximal: every vertex is matched or has only matched neighbours; under the corrected scan every vertex matched on its turn has a partner at least as heavy as each neighbour still free at that turn |
| Hem.SweepSplit | include/celaeno/graph/hem.hpp:43-82 | sweeping two lists in a row is sweeping their concatenation |
| Hem.SweepAt | include/celaeno/graph/hem.hpp:43-82 | the final state is the sweep of the tail after the turn of `order[i]` from the state the head left |
| Hem.SaturatedBefore | include/celaeno/graph/hem.hpp:43-82 | a vertex saturated before the turn of `order[i]` is an end of a pair recorded against an earlier vertex |
| Hem.NotLater | include/celaeno/graph/hem.hpp:38-43 | a shuffled vertex occurs neither before nor after its own turn |
| Hem.HeavyAt | include/celaeno/graph/hem.hpp:61-80 | if `order[i]` is matched, each neighbour free at its turn weighs at most its partner |
| Hem.SweepHeavy | include/celaeno/graph/hem.hpp:43-82 | the corrected loop follows the heavy-edge rule at every turn |
| Hem.HemAsWritten | include/celaeno/graph/hem.hpp:24-84 | `hem` as written returns a maximal matching: disjoint pairs of neighbours with keys in 0 .. size-1, every vertex matched or with only matched neighbours |
| Hem.Hem | include/celaeno/graph/hem.hpp:24-84 | `hem` with the weight comparison corrected returns a maximal matching of neighbours with keys in 0 .. size-1 in which every vertex matched on its turn has a partner at least as heavy as each neighbour not already an end of an earlier pair |
| Hem.LighterPartner | include/celaeno/graph/hem.hpp:64-73 | with neighbours 1 (weight 10) and 2 (weight 5), `hem` as written matches 0 with the lighter 2 |
| Hem.HeavierPartner | include/celaeno/graph/hem.hpp:64-73 | on the same graph the corrected `hem` matches 0 with the heavier 1 |
| Coarsening.Coarsen | include/celaeno/graph/coarsening.hpp:22-38 | the new map has keys 0 .. n-1, and key i holds the i-th entry of the input in iteration order, unchanged |
| Cantor.Pair | include/celaeno/math/cantor-pairing.hpp:40-42 | the pair maps into the block of its diagonal k1 + k2: from Tri(k1 + k2) up to, but not including, Tri(k1 + k2 + 1) |
| Cantor.ISqrt | include/celaeno/math/cantor-pairing.hpp:32 | the integer square root: r * r <= n < (r + 1) * (r + 1) |
| Cantor.Diagonal | include/celaeno/math/cantor-pairing.hpp:32 | floor((sqrt(8z + 1) - 1) / 2) is the diagonal w with Tri(w) <= z < Tri(w + 1) |
| Cantor.Unpair | include/celaeno/math/cantor-pairing.hpp:32-36 | unpairing gives two naturals whose diagonal holds z |
| Cantor.DiagonalUnique | include/celaeno/math/cantor-pairing.hpp:32 | exactly one diagonal holds each natural |
| Cantor.UnpairPair | test/include/celaeno/math/cantor-pairing.cpp:29-35 | unpairing a paired id gives back the pair, for every pair of naturals |
| Cantor.PairUnpair | test/include/celaeno/math/cantor-pairing.cpp:41-47 | pairing an unpaired id gives back the id, for every natural |

## Left out

- Console output (`std::cout` in red-card.hpp, `std::cerr` in crossings.hpp and imatrix-crossings.hpp) is not modelled.
- `a-star.hpp` is not part of this model; it lies outside the layout core.
- Floating point is not modelled. The barycenters divide exactly as reals, not as `double`. `cantor_pairing` uses exact integers, with an integer square root in place of `std::sqrt` and `std::floor`. The model therefore does not show rounding errors of the source for large ids.
- `hem`'s `std::shuffle` with a random device becomes the parameter `order`, any permutation of 0 .. size-1. `size` is a `nat`; a negative `size` is not modelled.
- `depth`'s endless loop is the result `Diverges(stuck)`, not a non-terminating computation.
- Hook.Hook: the `while (true)` fixpoint takes a `fuel` bound and returns `None` when the bound runs out. Termination of the source's loop is not modelled, and indeed it can run for ever.
- RedCard.RedCard: requires that no id at or below `start` is used yet (`Below`). The source does not check this; with a clash, its `link` would attach edges to an existing vertex.
- Balance.Balance: requires that no id at or below `counter` is used and that the root lies above it, for the same reason.
- Hook.Hook: requires the same freshness of `start` as `RedCard.RedCard`.
- Kahn.Kahn, RedCard.RedCard, Balance.Balance, Hook.Hook: require `Valid`, that is, `pred` and `succ` callbacks that agree with each other and never repeat a vertex. The source assumes this of its graph and does not check it.
- Breadth.Columns: requires that every reachable vertex has a level. The source's `map_vl.at` would throw `std::out_of_range` otherwise; the model has no exceptions.
- Crossings.ImatrixCrossings: requires a non-empty rectangular matrix. An empty matrix makes the source throw at `m.at(0)` outside its `try`. The loops read only columns below row 0's width (imatrix-crossings.hpp:73, 83-87), and the last row only below that width minus one. So a row longer than row 0 is read only up to row 0's width and never throws. A shorter row throws only where a loop reads past its end, and the `catch` then returns the partial count. Neither ragged case is modelled.
- Crossings.CrossingsRun: requires a non-empty rectangular matrix, for the same reasons (crossings.hpp:96, 106-110).
- Crossings.CountLoops: requires a non-empty rectangular matrix, for the same reasons.
- Barycenter.Row: requires a non-zero row sum. The source divides by zero and yields NaN or infinity.
- Barycenter.Row: requires the row index to be in range. The source's `m.at(i_row)` throws `std::out_of_range` otherwise, and the model has no exception path for it.
- Barycenter.Col: requires a non-zero column sum, for the same reason.
- Barycenter.Col: requires the column index to be in range for every row. The source's `row.at(i_col)` throws `std::out_of_range` otherwise.
- Barycenter.Column: requires the column index to be in range for every row, for the same reason as `Col`.
- Hvm.HvmAsWritten: states adjacency and reachability only. On graphs where the root lists itself the result need not be a matching (see Findings). The heavy-vertex rule is proved only for `Hvm.Hvm`, whose bookkeeping starts with the root saturated.
- Hvm.Next: hvm.hpp:139-142 erases `*v` from `usat` and then reads `*v` again for `sat.insert(*v)` and `v1 = *v`, through an iterator the erase has invalidated, which is undefined behaviour. The model reads the chosen vertex before the erase, as evidently intended.
- Cantor.Unpair: takes a natural. The source's `z` is a signed `int32_t` or `int64_t` (cantor-pairing.hpp:26-27); for a negative `z`, `8 * z + 1` is negative and `std::sqrt` at line 32 returns NaN. Negative ids are not modelled.
- Hem.HemAsWritten: does not state that the partner is the heaviest neighbour, because as written it need not be (see Findings).
- Integer widths are not modelled, except where they change behaviour. The unsigned `height - 1` wrap of `matrix_realization` is modelled, and so is the `q - 1` wrap of the crossing loops on a matrix without columns. The 64-bit overflow of a crossing sum or a pseudo-id counter is not modelled.
- `dfs.hpp` binds `auto&& c{s.top()}` and then pops, leaving a dangling reference. The model reads the value before the pop.
- The order of the graph library's lists is not part of this model. `Graphs.Link` appends to both lists, and `Graphs.Unlink` removes in place. The pairing in `red_card` and the partner order in `hvm` depend on that order.
- `coarsening` takes the input map as the sequence of its entries in iteration order. The iteration order of an `unordered_map` is not modelled.

## Findings

| source | as written | input that shows it | evidently intended | confidence | as-written member | corrected member |
|---|---|---|---|---|---|---|
| include/celaeno/graph/balance.hpp:63-66 | `depth(root, pred, succ)` passes `pred` where `depth` expects the successor callback, so the levels are those of the reversed graph and no edge ever counts as long | the triangle 0 -> 1, 1 -> 2, 0 -> 2 from root 0: the graph comes back unchanged, keeping the shortcut 0 -> 2 across two levels | levels of the graph itself, so 0 -> 2 is replaced by a chain through one pseudo vertex | medium, not executed | Balance.BalanceAsWritten, Balance.AsWrittenIdle | Balance.Balance, Balance.TriangleShortcutSplit |
| include/celaeno/graph/crossings.hpp:102-106 | the row loop and the column loop start at 1, so row 0 and column 0 never count | the first matrix of its own test: `run` counts 7 where the test expects 14 | loops from 0, as in `imatrix_crossings` | high, not executed | Crossings.CrossingsRun, Crossings.RunOnFirstTestMatrix | Crossings.ImatrixCrossings, Crossings.TestCounts |
| include/celaeno/graph/hem.hpp:68 | compares `get_weight(va)` with the vertex id `va_max` | 0 with neighbours 1 (weight 10) and 2 (weight 5), visited in order 0, 1, 2: 5 > 1, so 0 is matched with 2 | compare with `get_weight(va_max)`, matching 0 with 1 | high, not executed | Hem.HemAsWritten, Hem.LighterPartner | Hem.Hem, Hem.HeavierPartner |
| include/celaeno/graph/hvm.hpp:100-102 | the root is not saturated before its first round, unlike every later `v1` (line 141), so a root that lists itself joins `usat` and is matched again later | the graph 0 - 0, 0 - 1, 0 - 2, 1 - 3, 1 - 4, 1 - 5, 2 - 6, 2 - 7, 2 - 8 from 0: the result holds 0 -> 1 and 2 -> 0 | the root saturated like every later `v1`; the result is a matching | low, not executed | Hvm.HvmAsWritten, Hvm.RootMatchedTwice | Hvm.Hvm, Hvm.RunMatching |
| test/include/celaeno/graph/matrix-realization.cpp:116 | `depth(1, pred, succ)` passes `pred` where `depth` expects the successor callback (views/depth.hpp:27-31), so the levels, and the layers `get_layer` returns, are those of the reversed graph | the test's own graphs: level 0 is the sinks 6, 8, 11, 12, 13 (odd subcase, line 190: 6 .. 10), so the first matrix is the 5 x 3 zero matrix, not `m1` | `depth(1, succ, pred)`, whose layers give exactly `m1`, `m2`, `m3` | medium, not executed | MatrixRealization.SwappedLevels, MatrixRealization.TestRealizationSwapped | MatrixRealization.TestLevels, MatrixRealization.TestRealization, MatrixRealization.TestRealizationOdd |
| include/celaeno/graph/views/breadth.hpp:62 | `depth(root, pred, succ)` passes `pred` where `depth` expects the successor callback, so the columns are kept apart on the reversed graph's levels | the triangle 0 -> 1, 1 -> 2, 0 -> 2 from root 0: the levels are 2, 1, 0 for 0, 1, 2, with the root at the top | levels of the graph itself, 0, 1, 2, as the breadth test builds them with `depth(0, succ, pred)` | medium, not executed | Breadth.Breadth, Breadth.TriangleReversedLevels | Breadth.BreadthCorrected, Balance.TriangleLevels |

=== FILE: balance.dfy ===
/**
 * Edge balancing (`celaeno::graph::balance::balance`): after levelling, every edge p -> v
 * whose ends lie more than one level apart is replaced by a chain of fresh vertices
 * p -> c -> c-1 -> ... -> v, one per skipped level, with ids drawn from a counter that
 * counts down. The graph callbacks `link` and `unlink` are `Link` and `Unlink`.
 */
module Balance {
  import opened Seqs
  import opened Graphs
  import Depth

  /** `vertex_depth[x]`: the level of `x`, or 0 for a vertex without one (`operator[]` inserts 0). */
  function LevelOf(level: map<int, int>, x: int): int {
    if x in level then level[x] else 0
  }

  /** How many levels the edge `e` goes down, read through `LevelOf`. */
  function Span(level: map<int, int>, e: (int, int)): int {
    LevelOf(level, e.1) - LevelOf(level, e.0)
  }

  /** The edges of the chain p -> c -> c-1 -> ... -> c-n+1 -> v through `n` fresh vertices. */
  function ChainEdges(p: int, v: int, c: int, n: nat): set<(int, int)>
    decreases n
  {
    if n == 0 then {(p, v)} else {(p, c)} + ChainEdges(c, v, c - 1, n - 1)
  }

  /**
   * The edge set and the next free id after the inner `while (distance > 1)` loop for
   * p -> v: each turn adds p -> c and c -> v, drops p -> v, and goes on from c with c - 1.
   */
  function SplitSet(edges: set<(int, int)>, p: int, v: int, distance: int, c: int): (r: (set<(int, int)>, int))
    decreases distance
  {
    if distance <= 1 then (edges, c)
    else SplitSet(edges + {(p, c), (c, v)} - {(p, v)}, c, v, distance - 1, c - 1)
  }

  /** The inner loop on the graph itself, through `link` and `unlink`; returns the graph and the next id. */
  function SplitEdge(g: Graph, p: int, v: int, distance: int, c: int): (r: (Graph, int))
    requires Valid(g)
    ensures Valid(r.0) && (r.0.edges, r.1) == SplitSet(g.edges, p, v, distance, c)
    ensures r.1 <= c && forall w :: w != v && w > c ==> Pred(r.0, w) == Pred(g, w)
    decreases distance
  {
    if distance <= 1 then (g, c)
    else
      var g' := Unlink(Link(Link(g, p, c), c, v), p, v);
      assert g'.edges == g.edges + {(p, c), (c, v)} - {(p, v)};
      SplitEdge(g', c, v, distance - 1, c - 1)
  }

  /**
   * On an edge p -> v between old vertices, the inner loop hands out `distance - 1` ids and
   * replaces the edge by the chain through them.
   */
  lemma {:induction false} SplitIsChain(edges: set<(int, int)>, p: int, v: int, distance: int, c: int)
    requires distance > 1 && Below(edges, c) && (p, v) in edges
    ensures SplitSet(edges, p, v, distance, c)
      == ((edges - {(p, v)}) + ChainEdges(p, v, c, distance - 1), c - (distance - 1))
    decreases distance
  {
    var e' := edges + {(p, c), (c, v)} - {(p, v)};
    assert (c, v) !in edges && (p, c) != (p, v);
    if distance == 2 {
      assert SplitSet(e', c, v, 1, c - 1) == (e', c - 1);
      assert e' == (edges - {(p, v)}) + {(p, c), (c, v)};
      assert ChainEdges(c, v, c - 1, 0) == {(c, v)};
      assert ChainEdges(p, v, c, 1) == {(p, c), (c, v)};
    } else {
      assert Below(e', c - 1);
      SplitIsChain(e', c, v, distance - 1, c - 1);
      assert SplitSet(edges, p, v, distance, c) == SplitSet(e', c, v, distance - 1, c - 1);
      assert ChainEdges(p, v, c, distance - 1) == {(p, c)} + ChainEdges(c, v, c - 1, distance - 2);
      assert e' - {(c, v)} == (edges - {(p, v)}) + {(p, c)};
      assert (e' - {(c, v)}) + ChainEdges(c, v, c - 1, distance - 2)
        == (edges - {(p, v)}) + ChainEdges(p, v, c, distance - 1);
    }
  }

  /** Every chain edge stays above c - n and has an end among the fresh ids c-n+1 .. c. */
  lemma {:induction false} ChainFresh(p: int, v: int, c: int, n: nat)
    requires p > c && v > c
    ensures forall e :: e in ChainEdges(p, v, c, n) ==>
      e.0 > c - n && e.1 > c - n && (n > 0 ==> e.0 <= c || e.1 <= c) && (e.1 == v || e.1 <= c) && (e.0 == p || e.0 <= c)
    decreases n
  {
    if n > 0 {
      ChainFresh(c, v, c - 1, n - 1);
    }
  }

  /** No two chain edges share a target: the targets are c, c-1, ..., c-n+1, v. */
  lemma {:induction false} ChainTargets(p: int, v: int, c: int, n: nat)
    requires p > c && v > c
    ensures forall e1, e2 :: e1 in ChainEdges(p, v, c, n) && e2 in ChainEdges(p, v, c, n) && e1.1 == e2.1 ==> e1 == e2
    decreases n
  {
    if n > 0 {
      ChainTargets(c, v, c - 1, n - 1);
      ChainFresh(c, v, c - 1, n - 1);
    }
  }

  /** No two chain edges share a source: the sources are p, c, c-1, ..., c-n+1. */
  lemma {:induction false} ChainSources(p: int, v: int, c: int, n: nat)
    requires p > c && v > c
    ensures forall e1, e2 :: e1 in ChainEdges(p, v, c, n) && e2 in ChainEdges(p, v, c, n) && e1.0 == e2.0 ==> e1 == e2
    decreases n
  {
    if n > 0 {
      ChainSources(c, v, c - 1, n - 1);
      ChainFresh(c, v, c - 1, n - 1);
    }
  }

  /** The ids a chain of `n` fresh vertices from `c` down takes. */
  function ChainIds(c: int, n: nat): (ids: set<int>)
    ensures forall x :: x in ids <==> c - n < x <= c
    decreases n
  {
    if n == 0 then {} else {c} + ChainIds(c - 1, n - 1)
  }

  /** The levels the fresh vertices of a chain leaving level `base` take: c at base+1, c-1 at base+2, ... */
  function ChainLevels(c: int, n: nat, base: int): (m: map<int, int>)
    ensures forall x :: x in m <==> c - n < x <= c
    ensures forall x :: x in m ==> m[x] == base + 1 + (c - x)
  {
    map x | x in ChainIds(c, n) :: base + 1 + (c - x)
  }

  /** Under levels that give the fresh vertices their chain levels, every chain edge goes down exactly one level. */
  lemma {:induction false} ChainSpansOne(p: int, v: int, c: int, n: nat, m: map<int, int>)
    requires p > c && v > c
    requires forall x :: c - n < x <= c ==> x in m && m[x] == LevelOf(m, p) + 1 + (c - x)
    requires LevelOf(m, v) == LevelOf(m, p) + n + 1
    ensures forall e :: e in ChainEdges(p, v, c, n) ==> Span(m, e) == 1
    decreases n
  {
    if n > 0 {
      assert LevelOf(m, c) == LevelOf(m, p) + 1;
      ChainSpansOne(c, v, c - 1, n - 1, m);
    }
  }

  /** The chain is a path from p to v. */
  lemma {:induction false} ChainLeads(p: int, v: int, c: int, n: nat) returns (path: seq<int>)
    ensures |path| == n + 2 && path[0] == p && path[|path| - 1] == v
    ensures forall i :: 0 < i < |path| - 1 ==> path[i] == c - (i - 1)
    ensures forall i :: 0 <= i < |path| - 1 ==> (path[i], path[i + 1]) in ChainEdges(p, v, c, n)
    decreases n
  {
    if n == 0 {
      path := [p, v];
    } else {
      var rest := ChainLeads(c, v, c - 1, n - 1);
      path := [p] + rest;
      forall i | 0 <= i < |path| - 1
        ensures (path[i], path[i + 1]) in ChainEdges(p, v, c, n)
      {
        if i > 0 {
          assert path[i] == rest[i - 1] && path[i + 1] == rest[i];
        }
      }
      forall i | 0 < i < |path| - 1
        ensures path[i] == c - (i - 1)
      {
        assert path[i] == rest[i - 1];
      }
    }
  }

  /** The edge set and next id after the middle loop for one vertex `v` over the snapshot `preds`. */
  function VertexSet(edges: set<(int, int)>, level: map<int, int>, v: int, preds: seq<int>, c: int): (r: (set<(int, int)>, int))
    requires v in level
    decreases |preds|
  {
    if |preds| == 0 then (edges, c)
    else
      var s := SplitSet(edges, preds[0], v, level[v] - LevelOf(level, preds[0]), c);
      VertexSet(s.0, level, v, preds[1..], s.1)
  }

  /** The middle loop for one vertex `v`: every predecessor in the snapshot `preds`, in order. */
  function BalanceVertex(g: Graph, level: map<int, int>, v: int, preds: seq<int>, c: int): (r: (Graph, int))
    requires Valid(g) && v in level
    ensures Valid(r.0) && r.1 <= c && (r.0.edges, r.1) == VertexSet(g.edges, level, v, preds, c)
    ensures forall w :: w != v && w > c ==> Pred(r.0, w) == Pred(g, w)
    decreases |preds|
  {
    if |preds| == 0 then (g, c)
    else
      var s := SplitEdge(g, preds[0], v, level[v] - LevelOf(level, preds[0]), c);
      BalanceVertex(s.0, level, v, preds[1..], s.1)
  }

  /** The outer loops: every vertex of `order` in turn, its predecessor list read just before. */
  function BalanceAll(g: Graph, level: map<int, int>, order: seq<int>, c: int): (r: (Graph, int))
    requires Valid(g) && forall v :: v in order ==> v in level
    ensures Valid(r.0) && r.1 <= c
    decreases |order|
  {
    if |order| == 0 then (g, c)
    else
      var s := BalanceVertex(g, level, order[0], Pred(g, order[0]), c);
      BalanceAll(s.0, level, order[1..], s.1)
  }

  /** The edge has an end among the ids handed out so far, c+1 .. c0. */
  ghost predicate FreshEnd(e: (int, int), c: int, c0: int) {
    c < e.0 <= c0 || c < e.1 <= c0
  }

  /** `ext` gives a level to exactly the ids handed out so far. */
  ghost predicate ExtIs(ext: map<int, int>, c: int, c0: int) {
    forall x :: x in ext <==> c < x <= c0
  }

  /** Of the original edges, exactly those in `removed` are gone. */
  ghost predicate KeepsRest(e0: set<(int, int)>, edges: set<(int, int)>, removed: set<(int, int)>) {
    forall e :: e in e0 ==> (e in edges <==> e !in removed)
  }

  /** Every edge added so far has a fresh end, ends at a vertex `m` levels, and goes down exactly one level. */
  ghost predicate AddedShort(e0: set<(int, int)>, edges: set<(int, int)>, m: map<int, int>, c: int, c0: int) {
    forall e :: e in edges && e !in e0 ==> FreshEnd(e, c, c0) && e.1 in m && Span(m, e) == 1
  }

  /** `path` runs along `edges` and every vertex strictly inside it is a fresh id (at most `c0`). */
  ghost predicate FreshPath(edges: set<(int, int)>, path: seq<int>, c0: int) {
    && |path| >= 3
    && (forall i :: 0 < i < |path| - 1 ==> path[i] <= c0)
    && (forall i :: 0 <= i < |path| - 1 ==> (path[i], path[i + 1]) in edges)
  }

  /**
   * No vertex at or below `c0`, that is no fresh vertex, has two edges in or two edges out, so
   * it lies on one bridge only (`BridgesApart`).
   */
  ghost predicate Threaded(edges: set<(int, int)>, c0: int) {
    && (forall x, a, b :: x <= c0 && (a, x) in edges && (b, x) in edges ==> a == b)
    && (forall x, a, b :: x <= c0 && (x, a) in edges && (x, b) in edges ==> a == b)
  }

  /** `e` is bridged in `edges` by a path of `n` edges through fresh vertices. */
  ghost predicate Bridge(edges: set<(int, int)>, e: (int, int), n: int, c0: int) {
    exists path :: FreshPath(edges, path, c0) && path[0] == e.0 && path[|path| - 1] == e.1 && |path| == n + 1
  }

  /** Two bridges through the same fresh vertex agree on everything before it, back to the same start. */
  lemma {:induction false} BackApart(edges: set<(int, int)>, c0: int, path1: seq<int>, path2: seq<int>, i: int, j: int)
    requires Threaded(edges, c0) && FreshPath(edges, path1, c0) && FreshPath(edges, path2, c0)
    requires path1[0] > c0 && path2[0] > c0
    requires 0 < i < |path1| - 1 && 0 < j < |path2| - 1 && path1[i] == path2[j]
    ensures i == j && path1[0] == path2[0]
    decreases i
  {
    assert (path1[i - 1], path1[i]) in edges && (path2[j - 1], path2[j]) in edges;
    if i > 1 && j > 1 {
      BackApart(edges, c0, path1, path2, i - 1, j - 1);
    }
  }

  /** ... and on everything after it, up to the same end. */
  lemma {:induction false} OnApart(edges: set<(int, int)>, c0: int, path1: seq<int>, path2: seq<int>, i: int, j: int)
    requires Threaded(edges, c0) && FreshPath(edges, path1, c0) && FreshPath(edges, path2, c0)
    requires path1[|path1| - 1] > c0 && path2[|path2| - 1] > c0
    requires 0 < i < |path1| - 1 && 0 < j < |path2| - 1 && path1[i] == path2[j]
    ensures |path1| - i == |path2| - j && path1[|path1| - 1] == path2[|path2| - 1]
    decreases |path1| - i
  {
    assert (path1[i], path1[i + 1]) in edges && (path2[j], path2[j + 1]) in edges;
    if i + 1 < |path1| - 1 && j + 1 < |path2| - 1 {
      OnApart(edges, c0, path1, path2, i + 1, j + 1);
    }
  }

  /** Every removed edge p -> v is bridged by a chain as long as its span. */
  ghost predicate Bridged(edges: set<(int, int)>, level: map<int, int>, removed: set<(int, int)>, c0: int) {
    forall e {:trigger Bridge(edges, e, Span(level, e), c0)} :: e in removed ==> Bridge(edges, e, Span(level, e), c0)
  }

  /**
   * How a run that started from the edges `e0` with counter `c0` stands at `edges` with next
   * id `c`, where `ext` levels the ids handed out and `removed` lists the original edges dropped.
   */
  ghost predicate Progress(e0: set<(int, int)>, level: map<int, int>, c0: int,
                           edges: set<(int, int)>, c: int, ext: map<int, int>, removed: set<(int, int)>)
  {
    && Below(e0, c0) && Below(edges, c) && c <= c0
    && ExtIs(ext, c, c0)
    && removed <= e0
    && KeepsRest(e0, edges, removed)
    && AddedShort(e0, edges, level + ext, c, c0)
    && Bridged(edges, level, removed, c0)
    && Threaded(edges, c0)
  }

  /** The long edges among p -> v for `p` in `preds`. */
  function LongInto(level: map<int, int>, v: int, preds: seq<int>): set<(int, int)> {
    set p | p in preds && Span(level, (p, v)) > 1 :: (p, v)
  }

  /** Two level maps that agree above `c` give the same span to every edge above `c`. */
  lemma SpanAbove(m1: map<int, int>, m2: map<int, int>, c: int, e: (int, int))
    requires forall x :: x > c ==> (x in m1 <==> x in m2) && (x in m1 ==> m1[x] == m2[x])
    requires e.0 > c && e.1 > c
    ensures Span(m1, e) == Span(m2, e)
  {
  }

  /** Splitting one long original edge keeps the run's bookkeeping. */
  lemma SplitLong(e0: set<(int, int)>, level: map<int, int>, c0: int, edges: set<(int, int)>, c: int,
                  ext: map<int, int>, removed: set<(int, int)>, p: int, v: int) returns (ext': map<int, int>)
    requires Progress(e0, level, c0, edges, c, ext, removed)
    requires (p, v) in e0 && (p, v) !in removed && v in level
    requires level[v] - LevelOf(level, p) > 1
    ensures var s := SplitSet(edges, p, v, level[v] - LevelOf(level, p), c);
      Progress(e0, level, c0, s.0, s.1, ext', removed + {(p, v)})
  {
    var d := level[v] - LevelOf(level, p);
    var n := d - 1;
    assert p > c0 && v > c0 && (p, v) in edges;
    SplitIsChain(edges, p, v, d, c);
    var chain := ChainEdges(p, v, c, n);
    var s := SplitSet(edges, p, v, d, c);
    assert s.0 == (edges - {(p, v)}) + chain && s.1 == c - n;
    ext' := ext + ChainLevels(c, n, LevelOf(level, p));
    var m := level + ext';
    assert LevelOf(m, p) == LevelOf(level, p) && LevelOf(m, v) == level[v];
    ChainSpansOne(p, v, c, n, m);
    ChainFresh(p, v, c, n);
    assert Below(s.0, s.1);
    assert ExtIs(ext', s.1, c0);
    assert KeepsRest(e0, s.0, removed + {(p, v)}) by {
      forall e | e in e0
        ensures e in s.0 <==> e !in removed + {(p, v)}
      {
        assert e.0 > c0 && e.1 > c0;
      }
    }
    assert AddedShort(e0, s.0, m, s.1, c0) by {
      forall e | e in s.0 && e !in e0
        ensures FreshEnd(e, s.1, c0) && e.1 in m && Span(m, e) == 1
      {
        if e !in chain {
          assert e in edges;
          SpanAbove(m, level + ext, c, e);
        }
      }
    }
    assert Bridged(s.0, level, removed + {(p, v)}, c0) by {
      BridgeSplit(e0, level, c0, edges, removed, p, v, c, n);
    }
    assert Threaded(s.0, c0) by {
      ThreadSplit(edges, c0, p, v, c, n);
    }
  }

  /** Splitting p -> v threads each new id on its chain and leaves the earlier fresh vertices as they were. */
  lemma ThreadSplit(edges: set<(int, int)>, c0: int, p: int, v: int, c: int, n: nat)
    requires Threaded(edges, c0) && Below(edges, c) && p > c0 && v > c0 && c <= c0
    ensures Threaded((edges - {(p, v)}) + ChainEdges(p, v, c, n), c0)
  {
    ThreadIn(edges, c0, p, v, c, n);
    ThreadOut(edges, c0, p, v, c, n);
  }

  /** After the split no fresh vertex has two edges in: the old ones are off the chain, the new ones off the old edges. */
  lemma ThreadIn(edges: set<(int, int)>, c0: int, p: int, v: int, c: int, n: nat)
    requires Threaded(edges, c0) && Below(edges, c) && p > c0 && v > c0 && c <= c0
    ensures var edges' := (edges - {(p, v)}) + ChainEdges(p, v, c, n);
      forall x, a, b :: x <= c0 && (a, x) in edges' && (b, x) in edges' ==> a == b
  {
    var chain := ChainEdges(p, v, c, n);
    var edges' := (edges - {(p, v)}) + chain;
    ChainTargets(p, v, c, n);
    ChainFresh(p, v, c, n);
    forall x, a, b | x <= c0 && (a, x) in edges' && (b, x) in edges'
      ensures a == b
    {
      if x > c {
        assert (a, x) !in chain && (b, x) !in chain;
      } else {
        assert (a, x) !in edges && (b, x) !in edges;
      }
    }
  }

  /** After the split no fresh vertex has two edges out. */
  lemma ThreadOut(edges: set<(int, int)>, c0: int, p: int, v: int, c: int, n: nat)
    requires Threaded(edges, c0) && Below(edges, c) && p > c0 && v > c0 && c <= c0
    ensures var edges' := (edges - {(p, v)}) + ChainEdges(p, v, c, n);
      forall x, a, b :: x <= c0 && (x, a) in edges' && (x, b) in edges' ==> a == b
  {
    var chain := ChainEdges(p, v, c, n);
    var edges' := (edges - {(p, v)}) + chain;
    ChainSources(p, v, c, n);
    ChainFresh(p, v, c, n);
    forall x, a, b | x <= c0 && (x, a) in edges' && (x, b) in edges'
      ensures a == b
    {
      if x > c {
        assert (x, a) !in chain && (x, b) !in chain;
      } else {
        assert (x, a) !in edges && (x, b) !in edges;
      }
    }
  }

  /** Splitting p -> v bridges it by its chain and keeps every earlier bridge, which uses no original edge. */
  lemma BridgeSplit(e0: set<(int, int)>, level: map<int, int>, c0: int, edges: set<(int, int)>,
                    removed: set<(int, int)>, p: int, v: int, c: int, n: nat)
    requires Bridged(edges, level, removed, c0) && Below(e0, c0) && (p, v) in e0
    requires c <= c0 && v in level && n >= 1 && n == level[v] - LevelOf(level, p) - 1
    ensures Bridged((edges - {(p, v)}) + ChainEdges(p, v, c, n), level, removed + {(p, v)}, c0)
  {
    var edges' := (edges - {(p, v)}) + ChainEdges(p, v, c, n);
    forall e | e in removed + {(p, v)}
      ensures Bridge(edges', e, Span(level, e), c0)
    {
      if e == (p, v) {
        var path := ChainLeads(p, v, c, n);
        assert FreshPath(edges', path, c0);
      } else {
        assert Bridge(edges, e, Span(level, e), c0);
        var path :| FreshPath(edges, path, c0) && path[0] == e.0 && path[|path| - 1] == e.1
          && |path| == Span(level, e) + 1;
        forall i | 0 <= i < |path| - 1
          ensures (path[i], path[i + 1]) in edges'
        {
          assert i > 0 ==> path[i] <= c0;
          assert i == 0 ==> path[i + 1] <= c0;
        }
        assert FreshPath(edges', path, c0);
      }
    }
  }

  /** One turn of the middle loop keeps the run's bookkeeping and drops p -> v exactly when it is long. */
  lemma SplitProgress(e0: set<(int, int)>, level: map<int, int>, c0: int, edges: set<(int, int)>, c: int,
                      ext: map<int, int>, removed: set<(int, int)>, p: int, v: int) returns (ext': map<int, int>)
    requires Progress(e0, level, c0, edges, c, ext, removed)
    requires (p, v) in e0 && (p, v) !in removed && v in level
    ensures var s := SplitSet(edges, p, v, level[v] - LevelOf(level, p), c);
      Progress(e0, level, c0, s.0, s.1, ext', removed + LongInto(level, v, [p]))
  {
    if level[v] - LevelOf(level, p) <= 1 {
      ext' := ext;
      assert LongInto(level, v, [p]) == {};
    } else {
      assert LongInto(level, v, [p]) == {(p, v)};
      ext' := SplitLong(e0, level, c0, edges, c, ext, removed, p, v);
    }
  }

  /** The first turn of the middle loop leaves the rest of `preds` ready for the next. */
  lemma VertexStep(e0: set<(int, int)>, level: map<int, int>, c0: int, edges: set<(int, int)>, c: int,
                   ext: map<int, int>, removed: set<(int, int)>, v: int, preds: seq<int>)
    returns (ext': map<int, int>)
    requires Progress(e0, level, c0, edges, c, ext, removed) && v in level
    requires |preds| > 0 && NoDup(preds)
    requires forall p :: p in preds ==> (p, v) in e0 && (p, v) !in removed
    ensures var s := SplitSet(edges, preds[0], v, level[v] - LevelOf(level, preds[0]), c);
      var removed' := removed + LongInto(level, v, [preds[0]]);
      && Progress(e0, level, c0, s.0, s.1, ext', removed')
      && NoDup(preds[1..])
      && (forall p :: p in preds[1..] ==> (p, v) in e0 && (p, v) !in removed')
  {
    var p := preds[0];
    ext' := SplitProgress(e0, level, c0, edges, c, ext, removed, p, v);
    assert forall q :: q in preds[1..] ==> q != p && q in preds;
  }

  /** The middle loop keeps the bookkeeping and drops exactly the long edges into `v`. */
  lemma {:induction false} VertexProgress(e0: set<(int, int)>, level: map<int, int>, c0: int,
                                          edges: set<(int, int)>, c: int, ext: map<int, int>,
                                          removed: set<(int, int)>, v: int, preds: seq<int>)
    returns (ext': map<int, int>)
    requires Progress(e0, level, c0, edges, c, ext, removed) && v in level
    requires NoDup(preds)
    requires forall p :: p in preds ==> (p, v) in e0 && (p, v) !in removed
    ensures var s := VertexSet(edges, level, v, preds, c);
      Progress(e0, level, c0, s.0, s.1, ext', removed + LongInto(level, v, preds))
    decreases |preds|
  {
    if |preds| == 0 {
      ext' := ext;
      assert LongInto(level, v, preds) == {};
    } else {
      var p := preds[0];
      var s := SplitSet(edges, p, v, level[v] - LevelOf(level, p), c);
      var removed1 := removed + LongInto(level, v, [p]);
      var ext1 := VertexStep(e0, level, c0, edges, c, ext, removed, v, preds);
      ext' := VertexProgress(e0, level, c0, s.0, s.1, ext1, removed1, v, preds[1..]);
      RemovedCons(removed, level, v, preds);
    }
  }

  lemma RemovedCons(removed: set<(int, int)>, level: map<int, int>, v: int, preds: seq<int>)
    requires |preds| > 0
    ensures removed + LongInto(level, v, preds)
      == (removed + LongInto(level, v, [preds[0]])) + LongInto(level, v, preds[1..])
  {
    LongIntoCons(level, v, preds);
  }

  lemma LongIntoCons(level: map<int, int>, v: int, preds: seq<int>)
    requires |preds| > 0
    ensures LongInto(level, v, preds) == LongInto(level, v, [preds[0]]) + LongInto(level, v, preds[1..])
  {
    assert forall q :: q in preds <==> q == preds[0] || q in preds[1..];
  }

  /** The original edges into a vertex of `order` that go down more than one level. */
  function LongEdges(e0: set<(int, int)>, level: map<int, int>, order: seq<int>): set<(int, int)> {
    set e | e in e0 && e.1 in order && Span(level, e) > 1
  }

  /** Read at the first vertex of `order`, the long edges into it are those among its predecessors. */
  lemma LongEdgesCons(g0: Graph, level: map<int, int>, order: seq<int>)
    requires Valid(g0) && |order| > 0
    ensures LongEdges(g0.edges, level, order)
      == LongInto(level, order[0], Pred(g0, order[0])) + LongEdges(g0.edges, level, order[1..])
  {
    assert forall w :: w in order <==> w == order[0] || w in order[1..];
  }

  lemma RemovedEdgesCons(removed: set<(int, int)>, g0: Graph, level: map<int, int>, order: seq<int>)
    requires Valid(g0) && |order| > 0
    ensures removed + LongEdges(g0.edges, level, order)
      == (removed + LongInto(level, order[0], Pred(g0, order[0]))) + LongEdges(g0.edges, level, order[1..])
  {
    LongEdgesCons(g0, level, order);
  }

  /**
   * The edge set and next id after the outer loops, reading each vertex's predecessors from
   * `g0`: the lists a run reads are still the original ones (`AllIsSet`).
   */
  function AllSet(g0: Graph, edges: set<(int, int)>, level: map<int, int>, order: seq<int>, c: int): (r: (set<(int, int)>, int))
    requires forall v :: v in order ==> v in level
    decreases |order|
  {
    if |order| == 0 then (edges, c)
    else
      var s := VertexSet(edges, level, order[0], Pred(g0, order[0]), c);
      AllSet(g0, s.0, level, order[1..], s.1)
  }

  /** While a vertex waits its turn its predecessor list is untouched, so the run reads the original lists. */
  lemma {:induction false} AllIsSet(g0: Graph, g: Graph, level: map<int, int>, order: seq<int>, c: int)
    requires Valid(g) && NoDup(order) && forall v :: v in order ==> v in level && v > c
    requires forall v :: v in order ==> Pred(g, v) == Pred(g0, v)
    ensures var r := BalanceAll(g, level, order, c);
      (r.0.edges, r.1) == AllSet(g0, g.edges, level, order, c)
    decreases |order|
  {
    if |order| > 0 {
      var v := order[0];
      var s := BalanceVertex(g, level, v, Pred(g, v), c);
      assert forall w :: w in order[1..] ==> w != v && w in order;
      AllIsSet(g0, s.0, level, order[1..], s.1);
    }
  }

  /** The first turn of the outer loop leaves the rest of `order` ready for the next. */
  lemma AllStep(g0: Graph, level: map<int, int>, c0: int, edges: set<(int, int)>, c: int,
                ext: map<int, int>, removed: set<(int, int)>, order: seq<int>) returns (ext': map<int, int>)
    requires Valid(g0) && Progress(g0.edges, level, c0, edges, c, ext, removed)
    requires |order| > 0 && NoDup(order) && forall v :: v in order ==> v in level
    requires forall e :: e in removed ==> e.1 !in order
    ensures var s := VertexSet(edges, level, order[0], Pred(g0, order[0]), c);
      var removed' := removed + LongInto(level, order[0], Pred(g0, order[0]));
      && Progress(g0.edges, level, c0, s.0, s.1, ext', removed')
      && NoDup(order[1..]) && (forall v :: v in order[1..] ==> v in level)
      && (forall e :: e in removed' ==> e.1 !in order[1..])
  {
    var v := order[0];
    var preds := Pred(g0, v);
    assert NoDup(preds);
    ext' := VertexProgress(g0.edges, level, c0, edges, c, ext, removed, v, preds);
    assert forall w :: w in order[1..] ==> w != v && w in order;
  }

  /** The outer loops keep the bookkeeping and drop exactly the long edges into `order`. */
  lemma {:induction false} AllProgress(g0: Graph, level: map<int, int>, c0: int, edges: set<(int, int)>, c: int,
                                       ext: map<int, int>, removed: set<(int, int)>,
                                       order: seq<int>) returns (ext': map<int, int>)
    requires Valid(g0) && Progress(g0.edges, level, c0, edges, c, ext, removed)
    requires NoDup(order) && forall v :: v in order ==> v in level
    requires forall e :: e in removed ==> e.1 !in order
    ensures var s := AllSet(g0, edges, level, order, c);
      Progress(g0.edges, level, c0, s.0, s.1, ext', removed + LongEdges(g0.edges, level, order))
    decreases |order|
  {
    if |order| == 0 {
      ext' := ext;
      assert LongEdges(g0.edges, level, order) == {};
    } else {
      var v := order[0];
      var s := VertexSet(edges, level, v, Pred(g0, v), c);
      var removed1 := removed + LongInto(level, v, Pred(g0, v));
      var ext1 := AllStep(g0, level, c0, edges, c, ext, removed, order);
      ext' := AllProgress(g0, level, c0, s.0, s.1, ext1, removed1, order[1..]);
      RemovedEdgesCons(removed, g0, level, order);
    }
  }

  /** Before the first turn nothing is removed and no id is handed out. */
  lemma ProgressStart(e0: set<(int, int)>, level: map<int, int>, c0: int)
    requires Below(e0, c0)
    ensures Progress(e0, level, c0, e0, c0, map[], {})
  {
  }

  /**
   * What `balance` leaves, read against the original edges `e0` and the levels: fresh ids
   * are at most `c0`; of the original edges exactly the long ones into levelled vertices are
   * gone, each bridged by a path through fresh vertices as long as its span; every new edge
   * touches a fresh vertex; edges into other old vertices are untouched; and once `ext`
   * levels the fresh vertices, every edge into a levelled or fresh vertex goes down exactly one level.
   */
  ghost predicate Rewritten(e0: set<(int, int)>, level: map<int, int>, c0: int,
                            edges: set<(int, int)>, ext: map<int, int>)
  {
    && (forall x :: x in ext ==> x <= c0)
    && (forall e :: e in e0 ==> (e in edges <==> !(e.1 in level && Span(level, e) > 1)))
    && (forall e :: e in e0 && e !in edges ==> Bridge(edges, e, Span(level, e), c0))
    && (forall e :: e in edges && e !in e0 ==> e.0 in ext || e.1 in ext)
    && (forall e: (int, int) :: e.1 !in level && e.1 > c0 ==> (e in edges <==> e in e0))
    && (forall e :: e in edges && (e.1 in level || e.1 in ext) ==> Span(level + ext, e) == 1)
    && Threaded(edges, c0)
  }

  /**
   * Bridges of two removed edges never share a fresh vertex: a vertex strictly inside the
   * bridge of `e1` and inside the bridge of `e2` means `e1` and `e2` are the same edge.
   */
  lemma BridgesApart(e0: set<(int, int)>, level: map<int, int>, c0: int, edges: set<(int, int)>, ext: map<int, int>,
                     e1: (int, int), e2: (int, int), path1: seq<int>, path2: seq<int>, i: int, j: int)
    requires Rewritten(e0, level, c0, edges, ext) && Below(e0, c0) && e1 in e0 && e2 in e0
    requires FreshPath(edges, path1, c0) && path1[0] == e1.0 && path1[|path1| - 1] == e1.1
    requires FreshPath(edges, path2, c0) && path2[0] == e2.0 && path2[|path2| - 1] == e2.1
    requires 0 < i < |path1| - 1 && 0 < j < |path2| - 1 && path1[i] == path2[j]
    ensures e1 == e2
  {
    BackApart(edges, c0, path1, path2, i, j);
    OnApart(edges, c0, path1, path2, i, j);
  }

  /**
   * A run over every levelled vertex of a layered graph: long edges into levelled vertices are
   * gone and bridged, short ones kept, edges elsewhere untouched, and every edge into a levelled
   * or fresh vertex goes down exactly one level once the fresh ids are levelled by `ext`.
   */
  lemma Finished(g0: Graph, level: map<int, int>, c0: int, edges: set<(int, int)>, c: int,
                 ext: map<int, int>, order: seq<int>)
    requires Valid(g0) && Depth.Layered(g0, level) && forall v :: v in order <==> v in level
    requires Progress(g0.edges, level, c0, edges, c, ext, LongEdges(g0.edges, level, order))
    ensures Rewritten(g0.edges, level, c0, edges, ext)
  {
    var m := level + ext;
    forall e | e in edges && (e.1 in level || e.1 in ext)
      ensures Span(m, e) == 1
    {
      if e in g0.edges {
        assert e.0 in Pred(g0, e.1);
        assert e.0 > c0 && e.1 > c0;
      }
    }
  }

  /** Level order meets every levelled vertex once, and every one of them is an old vertex. */
  lemma LevelOrderFacts(g: Graph, root: int, level: map<int, int>, layers: seq<seq<int>>, counter: int)
    requires Valid(g) && Below(g.edges, counter) && root > counter && Depth.Lists(layers, level)
    requires forall v :: v in level <==> Reachable(Neighbours(g), root, v)
    ensures var order := Depth.InLevelOrder(layers);
      NoDup(order) && (forall v :: v in order <==> v in level) && forall v :: v in order ==> v > counter
  {
    var order := Depth.InLevelOrder(layers);
    Depth.LevelOrderOnce(layers, level, |layers|);
    assert layers[..|layers|] == layers;
    forall v | v in order
      ensures v > counter
    {
      ReachableBelow(g, root, v, counter);
    }
  }

  /** The rewrite over the levelled vertices in `order`, and what it leaves. */
  lemma Run(g: Graph, level: map<int, int>, order: seq<int>, counter: int) returns (ext: map<int, int>)
    requires Valid(g) && Below(g.edges, counter) && Depth.Layered(g, level)
    requires NoDup(order) && (forall v :: v in order <==> v in level) && forall v :: v in order ==> v > counter
    ensures Rewritten(g.edges, level, counter, BalanceAll(g, level, order, counter).0.edges, ext)
  {
    var s := BalanceAll(g, level, order, counter);
    AllIsSet(g, g, level, order, counter);
    ProgressStart(g.edges, level, counter);
    ext := AllProgress(g, level, counter, g.edges, counter, map[], {}, order);
    Finished(g, level, counter, s.0.edges, s.1, ext, order);
  }

  /**
   * `balance(root, pred, succ, link, unlink, counter)`, with the levels taken from `depth` on the
   * graph as it is: `None` when the levelling never ends, which happens exactly when a directed
   * cycle is reachable from `root`. `level` and `ext` are the levels of the old and the fresh vertices.
   */
  method Balance(g: Graph, root: int, counter: int)
    returns (r: Option<Graph>, ghost level: map<int, int>, ghost ext: map<int, int>)
    requires Valid(g) && Below(g.edges, counter) && root > counter
    ensures r.None? <==> exists w :: Depth.PredCycle(g, w) && Reachable(Neighbours(g), root, w[0])
    ensures r.Some? ==> Valid(r.value) && Depth.Layered(g, level)
    ensures r.Some? ==> forall v :: v in level <==> Reachable(Neighbours(g), root, v)
    ensures r.Some? ==> Rewritten(g.edges, level, counter, r.value.edges, ext)
  {
    var o := Depth.Depth(g, root);
    if o.Diverges? {
      var w := Depth.StuckHoldsCycle(g, o.stuck);
      assert w[0] in o.stuck;
      r, level, ext := None, map[], map[];
      return;
    }
    level := o.level;
    NoReachableCycle(g, root, level);
    var order := Depth.InLevelOrder(o.layers);
    LevelOrderFacts(g, root, level, o.layers, counter);
    ext := Run(g, level, order, counter);
    var s := BalanceAll(g, o.level, order, counter);
    r := Some(s.0);
  }

  /** When no edge into a vertex of `order` spans more than one level, the rewrite changes nothing. */
  lemma {:induction false} AllIdle(g: Graph, level: map<int, int>, order: seq<int>, c: int)
    requires Valid(g) && forall v :: v in order ==> v in level
    requires forall v, p :: v in order && p in Pred(g, v) ==> Span(level, (p, v)) <= 1
    ensures BalanceAll(g, level, order, c) == (g, c)
    decreases |order|
  {
    if |order| > 0 {
      VertexIdle(g, level, order[0], Pred(g, order[0]), c);
      AllIdle(g, level, order[1..], c);
    }
  }

  lemma {:induction false} VertexIdle(g: Graph, level: map<int, int>, v: int, preds: seq<int>, c: int)
    requires Valid(g) && v in level
    requires forall p :: p in preds ==> Span(level, (p, v)) <= 1
    ensures BalanceVertex(g, level, v, preds, c) == (g, c)
    decreases |preds|
  {
    if |preds| > 0 {
      VertexIdle(g, level, v, preds[1..], c);
    }
  }

  /** A set of exactly the vertices reachable from `root` holds every successor of its members. */
  lemma ReachableHoldsSuccs(g: Graph, root: int, level: map<int, int>)
    requires forall v :: v in level <==> Reachable(Neighbours(g), root, v)
    ensures forall v, p :: v in level && p in Succ(g, v) ==> p in level
  {
    forall v, p | v in level && p in Succ(g, v)
      ensures p in level
    {
      assert p in Adj(Neighbours(g), v);
      ReachableStep(Neighbours(g), root, v, p);
    }
  }

  /**
   * Levels computed on the reversed graph run against the edges: a predecessor of a levelled
   * vertex is levelled strictly higher.
   */
  lemma ReversedLevels(g: Graph, level: map<int, int>)
    requires Valid(g) && Depth.PredsLower(Reverse(g), level)
    requires forall v, p :: v in level && p in Succ(Reverse(g), v) ==> p in level
    ensures forall v, p :: v in level && p in Pred(g, v) ==> p in level && level[p] > level[v]
  {
    forall v, p | v in level && p in Pred(g, v)
      ensures p in level && level[p] > level[v]
    {
      assert p in Succ(Reverse(g), v);
      assert (p, v) in g.edges;
      assert v in Pred(Reverse(g), p);
    }
  }

  /** A levelling that reaches every vertex reachable from `root` leaves no cycle reachable. */
  lemma NoReachableCycle(g: Graph, root: int, level: map<int, int>)
    requires Depth.Layered(g, level) && forall v :: v in level <==> Reachable(Neighbours(g), root, v)
    ensures !exists w :: Depth.PredCycle(g, w) && Reachable(Neighbours(g), root, w[0])
  {
    forall w | Depth.PredCycle(g, w)
      ensures !Reachable(Neighbours(g), root, w[0])
    {
      Depth.LevelledOffCycles(g, level, w);
    }
  }

  lemma LevelOrderLevelled(layers: seq<seq<int>>, level: map<int, int>)
    requires Depth.Lists(layers, level)
    ensures forall v :: v in Depth.InLevelOrder(layers) ==> v in level
  {
    Depth.LevelOrderOnce(layers, level, |layers|);
    assert layers[..|layers|] == layers;
  }

  /** With the reversed graph's levels, the rewrite over level order changes nothing. */
  lemma AsWrittenIdle(g: Graph, root: int, level: map<int, int>, layers: seq<seq<int>>, counter: int)
    requires Valid(g) && Depth.PredsLower(Reverse(g), level) && Depth.Lists(layers, level)
    requires forall v :: v in level <==> Reachable(Neighbours(Reverse(g)), root, v)
    ensures var order := Depth.InLevelOrder(layers);
      (forall v :: v in order ==> v in level) && BalanceAll(g, level, order, counter) == (g, counter)
  {
    LevelOrderLevelled(layers, level);
    ReachableHoldsSuccs(Reverse(g), root, level);
    ReversedLevels(g, level);
    AllIdle(g, level, Depth.InLevelOrder(layers), counter);
  }

  /**
   * `balance` as written: it hands `pred` to `depth` where `depth` expects the successor
   * callback, so the levels are those of the reversed graph. Every edge then goes up, none
   * is long, and the graph comes back unchanged.
   */
  method BalanceAsWritten(g: Graph, root: int, counter: int) returns (r: Option<Graph>)
    requires Valid(g)
    ensures r.None? <==> exists w :: Depth.PredCycle(Reverse(g), w) && Reachable(Neighbours(Reverse(g)), root, w[0])
    ensures r.Some? ==> r.value == g
  {
    var rev := Reverse(g);
    var o := Depth.Depth(rev, root);
    if o.Diverges? {
      var w := Depth.StuckHoldsCycle(rev, o.stuck);
      assert w[0] in o.stuck;
      r := None;
      return;
    }
    NoReachableCycle(rev, root, o.level);
    var order := Depth.InLevelOrder(o.layers);
    AsWrittenIdle(g, root, o.level, o.layers, counter);
    r := Some(BalanceAll(g, o.level, order, counter).0);
  }

  /** The graph 0 -> 1 -> 2 with the shortcut 0 -> 2, built by linking the three edges in that order. */
  function Triangle(): (t: Graph)
    ensures Valid(t) && t.edges == {(0, 1), (1, 2), (0, 2)}
    ensures Pred(t, 0) == [] && Pred(t, 1) == [0] && Pred(t, 2) == [1, 0]
  {
    Link(Link(Link(Empty(), 0, 1), 1, 2), 0, 2)
  }

  /** On the triangle, the levels from 0 are 0, 1, 2, so the shortcut 0 -> 2 is long. */
  lemma TriangleLevels(level: map<int, int>)
    requires Depth.Layered(Triangle(), level) && 0 in level && 1 in level && 2 in level
    ensures level[0] == 0 && level[1] == 1 && level[2] == 2 && Span(level, (0, 2)) == 2
  {
    var t := Triangle();
    assert Depth.TightAt(t, level, 1);
    assert Depth.TightAt(t, level, 2);
  }

  /**
   * The discrepancy on the triangle: any result the corrected `Balance(Triangle(), 0, -1)` may
   * return has lost the shortcut 0 -> 2, while `BalanceAsWritten` returns the triangle itself.
   */
  lemma TriangleShortcutSplit(level: map<int, int>, edges: set<(int, int)>, ext: map<int, int>)
    requires Depth.Layered(Triangle(), level) && 0 in level && 1 in level && 2 in level
    requires Rewritten(Triangle().edges, level, -1, edges, ext)
    ensures (0, 2) in Triangle().edges && (0, 2) !in edges
  {
    TriangleLevels(level);
  }
}

=== FILE: barycenter.dfy ===
/**
 * Barycenters of an incidence matrix (`celaeno::graph::barycenter::row` and `col`): the
 * mean 1-based position of a row's (or column's) entries, weighted by the entries. The
 * source divides as `double`; the model divides exactly.
 */
module Barycenter {
  import opened Seqs

  /** Σ (k + 1) · v[k]: each entry weighted by its 1-based position. */
  function PositionSum(v: seq<int>): int {
    if |v| == 0 then 0 else PositionSum(v[..|v| - 1]) + |v| * v[|v| - 1]
  }

  /** The weighted mean position of the entries of `v`. */
  function Mean(v: seq<int>): real
    requires Sum(v) != 0
  {
    (PositionSum(v) as real) / (Sum(v) as real)
  }

  /** Column `c` of `m`, read top to bottom. */
  function Column(m: seq<seq<int>>, c: nat): (col: seq<int>)
    requires forall i :: 0 <= i < |m| ==> c < |m[i]|
    ensures |col| == |m| && forall i :: 0 <= i < |m| ==> col[i] == m[i][c]
  {
    seq(|m|, i requires 0 <= i < |m| => m[i][c])
  }

  /** `row(m, i)`: the barycenter of row `i`; a non-negative row lies between 1 and its length. */
  function Row(m: seq<seq<int>>, i: nat): (r: real)
    requires i < |m| && Sum(m[i]) != 0
    ensures (forall k :: 0 <= k < |m[i]| ==> m[i][k] >= 0) ==> 1.0 <= r <= |m[i]| as real
  {
    MeanBounds(m[i]);
    Mean(m[i])
  }

  /** `col(m, c)`: the barycenter of column `c`; a non-negative column lies between 1 and |m|. */
  function Col(m: seq<seq<int>>, c: nat): (r: real)
    requires forall i :: 0 <= i < |m| ==> c < |m[i]|
    requires Sum(Column(m, c)) != 0
    ensures (forall i :: 0 <= i < |m| ==> m[i][c] >= 0) ==> 1.0 <= r <= |m| as real
  {
    MeanBounds(Column(m, c));
    Mean(Column(m, c))
  }

  /** The transpose of a matrix whose rows all have `w` entries. */
  function Transpose(m: seq<seq<int>>, w: nat): (t: seq<seq<int>>)
    requires forall i :: 0 <= i < |m| ==> |m[i]| == w
    ensures |t| == w
    ensures forall c, i :: 0 <= c < w && 0 <= i < |m| ==> |t[c]| == |m| && t[c][i] == m[i][c]
  {
    seq(w, c requires 0 <= c < w => Column(m, c))
  }

  /** `col` is `row` of the transpose. */
  lemma ColIsRowOfTranspose(m: seq<seq<int>>, w: nat, c: nat)
    requires forall i :: 0 <= i < |m| ==> |m[i]| == w
    requires c < w && Sum(Column(m, c)) != 0
    ensures Sum(Transpose(m, w)[c]) != 0 && Col(m, c) == Row(Transpose(m, w), c)
  {
    assert Transpose(m, w)[c] == Column(m, c);
  }

  /** With non-negative entries and a positive sum, the mean lies in [1, |v|]. */
  lemma MeanBounds(v: seq<int>)
    requires Sum(v) != 0
    ensures (forall k :: 0 <= k < |v| ==> v[k] >= 0) ==> 1.0 <= Mean(v) <= |v| as real
  {
    if forall k :: 0 <= k < |v| ==> v[k] >= 0 {
      PositionSumBounds(v);
      var s := Sum(v) as real;
      var p := PositionSum(v) as real;
      assert s > 0.0;
      assert s <= p <= (|v| as real) * s;
      DivBounds(p, s, |v| as real);
    }
  }

  lemma DivBounds(p: real, s: real, n: real)
    requires s > 0.0 && s <= p <= n * s
    ensures 1.0 <= p / s <= n
  {
    var q := p / s;
    assert q * s == p;
    assert (q - 1.0) * s == p - s;
    assert (n - q) * s == n * s - p;
  }

  /** Σ v <= Σ (k + 1) · v[k] <= |v| · Σ v for non-negative entries, and Σ v >= 0. */
  lemma {:induction false} PositionSumBounds(v: seq<int>)
    requires forall k :: 0 <= k < |v| ==> v[k] >= 0
    ensures 0 <= Sum(v) <= PositionSum(v) <= |v| * Sum(v)
  {
    if |v| > 0 {
      var n := |v|;
      var init := v[..n - 1];
      PositionSumBounds(init);
      assert Sum(v) == Sum(init) + v[n - 1];
      assert PositionSum(v) == PositionSum(init) + n * v[n - 1];
      assert (n - 1) * Sum(init) <= n * Sum(init) by {
        assert n * Sum(init) == (n - 1) * Sum(init) + Sum(init);
      }
      assert n * Sum(v) == n * Sum(init) + n * v[n - 1];
      assert v[n - 1] <= n * v[n - 1];
    }
  }

  /** The first matrix of the barycenter test. */
  const M0: seq<seq<int>> := [[1, 1, 0, 0, 0], [1, 0, 0, 1, 1], [0, 1, 0, 1, 1], [1, 0, 1, 0, 1]]

  /** The second matrix of the barycenter test. */
  const M1: seq<seq<int>> := [[1, 1, 0, 1, 0], [0, 1, 1, 0, 0], [0, 1, 0, 1, 1], [0, 0, 1, 1, 1]]

  /** Both sums of a vector of four entries, written out. */
  lemma Sums4(v: seq<int>)
    requires |v| == 4
    ensures Sum(v) == v[0] + v[1] + v[2] + v[3]
    ensures PositionSum(v) == v[0] + 2 * v[1] + 3 * v[2] + 4 * v[3]
  {
    assert v[..1][..0] == [] && Sum(v[..1]) == v[0] && PositionSum(v[..1]) == v[0];
    assert v[..2][..1] == v[..1] && Sum(v[..2]) == v[0] + v[1];
    assert PositionSum(v[..2]) == v[0] + 2 * v[1];
    assert v[..3][..2] == v[..2] && Sum(v[..3]) == v[0] + v[1] + v[2];
    assert PositionSum(v[..3]) == v[0] + 2 * v[1] + 3 * v[2];
  }

  /** Both sums of a vector of five entries, written out. */
  lemma Sums5(v: seq<int>)
    requires |v| == 5
    ensures Sum(v) == v[0] + v[1] + v[2] + v[3] + v[4]
    ensures PositionSum(v) == v[0] + 2 * v[1] + 3 * v[2] + 4 * v[3] + 5 * v[4]
  {
    Sums4(v[..4]);
    assert v[..4][..3] == v[..3];
  }

  /** Row barycenters of the test matrices, exact (the test compares them rounded). */
  lemma RowsOfTestMatrices()
    ensures forall i :: 0 <= i < 4 ==> Sum(M0[i]) > 0 && Sum(M1[i]) > 0
    ensures Row(M0, 0) == 3.0 / 2.0 && Row(M0, 1) == 10.0 / 3.0
    ensures Row(M0, 2) == 11.0 / 3.0 && Row(M0, 3) == 3.0
    ensures Row(M1, 0) == 7.0 / 3.0 && Row(M1, 1) == 5.0 / 2.0
    ensures Row(M1, 2) == 11.0 / 3.0 && Row(M1, 3) == 4.0
  {
    Sums5(M0[0]); Sums5(M0[1]); Sums5(M0[2]); Sums5(M0[3]);
    Sums5(M1[0]); Sums5(M1[1]); Sums5(M1[2]); Sums5(M1[3]);
  }

  /** Column barycenters of the first test matrix, exact. */
  lemma ColumnsOfFirstTestMatrix()
    ensures forall c :: 0 <= c < 5 ==> Sum(Column(M0, c)) > 0
    ensures Col(M0, 0) == 7.0 / 3.0 && Col(M0, 1) == 2.0 && Col(M0, 2) == 4.0
    ensures Col(M0, 3) == 5.0 / 2.0 && Col(M0, 4) == 3.0
  {
    Sums4(Column(M0, 0)); Sums4(Column(M0, 1)); Sums4(Column(M0, 2));
    Sums4(Column(M0, 3)); Sums4(Column(M0, 4));
  }

  /** Column barycenters of the second test matrix, exact. */
  lemma ColumnsOfSecondTestMatrix()
    ensures forall c :: 0 <= c < 5 ==> Sum(Column(M1, c)) > 0
    ensures Col(M1, 0) == 1.0 && Col(M1, 1) == 2.0 && Col(M1, 2) == 3.0
    ensures Col(M1, 3) == 8.0 / 3.0 && Col(M1, 4) == 7.0 / 2.0
  {
    Sums4(Column(M1, 0)); Sums4(Column(M1, 1)); Sums4(Column(M1, 2));
    Sums4(Column(M1, 3)); Sums4(Column(M1, 4));
  }
}

=== FILE: bfs.dfy ===
/**
 * Breadth-first search (`celaeno::graph::bfs::bfs`): a FIFO worklist with a visited set
 * marked on push, and a callback that may stop the search. The model returns the sequence
 * of vertices handed to the callback together with the vertex the source returns.
 */
module Bfs {
  import opened Seqs
  import opened Graphs

  /**
   * Runs the search from `root` over the neighbour lists `a`; `stop` is the callback.
   * `visits` is the callback's input sequence, `last` the returned vertex.
   */
  method Bfs(a: Adjacency, root: int, stop: int -> bool) returns (visits: seq<int>, last: int)
    ensures |visits| >= 1 && visits[0] == root && last == visits[|visits| - 1]
    ensures NoDup(visits)
    ensures forall i :: 0 <= i < |visits| - 1 ==> !stop(visits[i])
    ensures forall v :: v in visits ==> Reachable(a, root, v)
    ensures !stop(last) ==> forall v :: Reachable(a, root, v) ==> v in visits
    ensures FifoPrefix(a, root, visits, !stop(last))
  {
    // The source marks the root on its first pop; nothing reads the mark before that pop.
    var q := [root];
    var vs := {root};
    visits := [];
    last := root;
    ghost var U := CoverOf(a, root);
    InitInv(a, root, U);
    while q != []
      invariant Inv(a, root, U, visits, q, vs) && Covers(a, U)
      invariant NoneStops(stop, visits)
      invariant visits + q == Queue(a, root, |visits|)
      decreases |U - vs|, |q|
    {
      // The callback has declined every vertex so far; stated first, in the smallest context.
      assert NoneStops(stop, visits);
      var node, q', vs' := Pop(a, root, U, visits, q, vs);
      visits := visits + [node];
      q := q';
      vs := vs';
      if stop(node) {
        last := node;
        FinishEarly(a, root, U, visits, q, vs);
        QueuePrefix(a, root, visits, q, false);
        return;
      }
      NoneStopsAppend(stop, visits[..|visits| - 1], node);
    }
    assert NoneStops(stop, visits);
    FinishExhausted(a, root, U, visits, vs);
    // The source returns `node`, the vertex popped last.
    last := visits[|visits| - 1];
    QueuePrefix(a, root, visits, q, !stop(last));
  }

  /** One turn of the loop: pop the head, mark it and queue its unmarked neighbours in list order. */
  method Pop(a: Adjacency, ghost root: int, ghost U: set<int>, ghost visits: seq<int>, q: seq<int>, vs: set<int>)
    returns (node: int, q': seq<int>, vs': set<int>)
    requires Inv(a, root, U, visits, q, vs) && Covers(a, U) && q != []
    requires visits + q == Queue(a, root, |visits|)
    ensures node == q[0]
    ensures Inv(a, root, U, visits + [node], q', vs')
    ensures (visits + [node]) + q' == Queue(a, root, |visits + [node]|)
    ensures (vs' == vs && |q'| < |q|) || |U - vs'| < |U - vs|
  {
    node := q[0];
    var found := Fresh(Adj(a, node), vs);
    vs' := vs + Elems(Adj(a, node));
    StepKeepsInv(a, root, U, visits, q, vs, node, found, vs');
    QueueStep(a, root, visits, q, vs, node, found);
    q' := q[1..] + found;
  }

  /**
   * The source's queue over its whole life, after `n` pops: the root, then for each popped
   * entry in turn its neighbours not yet queued, in list order. A search that pops `n`
   * vertices visits exactly the first `n` entries.
   */
  ghost function Queue(a: Adjacency, root: int, n: nat): (l: seq<int>)
    ensures |l| >= 1 && l[0] == root
    decreases n
  {
    if n == 0 then [root]
    else
      var l := Queue(a, root, n - 1);
      if n - 1 < |l| then l + Fresh(Adj(a, l[n - 1]), Elems(l)) else l
  }

  /** `visits` are the first entries of the queue over its whole life, and all of it when `whole`. */
  ghost predicate FifoPrefix(a: Adjacency, root: int, visits: seq<int>, whole: bool) {
    var l := Queue(a, root, |visits|);
    |visits| <= |l| && (whole ==> |l| == |visits|) && forall i :: 0 <= i < |visits| ==> visits[i] == l[i]
  }

  /** The popped vertices are the front of the queue; once nothing waits, they are all of it. */
  lemma QueuePrefix(a: Adjacency, root: int, visits: seq<int>, q: seq<int>, whole: bool)
    requires visits + q == Queue(a, root, |visits|) && (whole ==> q == [])
    ensures FifoPrefix(a, root, visits, whole)
  {
    var l := Queue(a, root, |visits|);
    forall i | 0 <= i < |visits|
      ensures visits[i] == l[i]
    {
      assert l[i] == (visits + q)[i];
    }
  }

  /** Popping the head of the queue and pushing its fresh neighbours follows `Queue` one step. */
  lemma QueueStep(a: Adjacency, root: int, visits: seq<int>, q: seq<int>, vs: set<int>, node: int, found: seq<int>)
    requires visits + q == Queue(a, root, |visits|)
    requires q != [] && node == q[0] && vs == Elems(visits + q) && found == Fresh(Adj(a, node), vs)
    ensures (visits + [node]) + (q[1..] + found) == Queue(a, root, |visits + [node]|)
  {
    var l := visits + q;
    assert l[|visits|] == node;
    var w := visits + [node];
    assert w + q[1..] == l by {
      assert [node] + q[1..] == q;
      assert w + q[1..] == visits + ([node] + q[1..]);
    }
    assert w + (q[1..] + found) == (w + q[1..]) + found;
    assert |visits + [node]| - 1 == |visits| < |l|;
  }

  /** The loop invariant: what has been popped, what is queued, and the visited set. */
  ghost predicate Inv(a: Adjacency, root: int, U: set<int>, visits: seq<int>, q: seq<int>, vs: set<int>)
  {
    && |visits| + |q| >= 1 && (visits + q)[0] == root
    && NoDup(visits + q)
    && vs == Elems(visits + q)
    && vs <= U
    && (forall v :: v in vs ==> Reachable(a, root, v))
    && (forall x, y :: x in visits && y in Adj(a, x) ==> y in vs)
  }

  lemma InitInv(a: Adjacency, root: int, U: set<int>)
    requires root in U
    ensures Inv(a, root, U, [], [root], {root})
  {
    ReachableRefl(a, root);
    assert [] + [root] == [root];
  }

  lemma StepKeepsInv(a: Adjacency, root: int, U: set<int>, visits: seq<int>, q: seq<int>, vs: set<int>,
                     node: int, found: seq<int>, vs': set<int>)
    requires Inv(a, root, U, visits, q, vs) && q != [] && Covers(a, U)
    requires node == q[0] && found == Fresh(Adj(a, node), vs) && vs' == vs + Elems(Adj(a, node))
    ensures Inv(a, root, U, visits + [node], q[1..] + found, vs')
    ensures vs' == vs ==> |q[1..] + found| < |q|
    ensures vs' != vs ==> |U - vs'| < |U - vs|
  {
    StepShape(visits, q, vs, node, found, Adj(a, node));
    StepReaches(a, root, vs, node, found);
    StepCloses(a, visits, vs, node);
    StepDecreases(U, vs, vs', q, found, Adj(a, node));
  }

  /** The newly queued neighbours of a reachable vertex are reachable. */
  lemma StepReaches(a: Adjacency, root: int, vs: set<int>, node: int, found: seq<int>)
    requires forall v :: v in vs ==> Reachable(a, root, v)
    requires node in vs && forall c :: c in found ==> c in Adj(a, node)
    ensures forall v :: v in vs + Elems(found) ==> Reachable(a, root, v)
  {
    forall c | c in found
      ensures Reachable(a, root, c)
    {
      ReachableStep(a, root, node, c);
    }
  }

  /** Once `node` is popped, all its neighbours are marked. */
  lemma StepCloses(a: Adjacency, visits: seq<int>, vs: set<int>, node: int)
    requires forall x, y :: x in visits && y in Adj(a, x) ==> y in vs
    ensures forall x, y :: x in visits + [node] && y in Adj(a, x) ==> y in vs + Elems(Adj(a, node))
  {
  }

  /** Popping `node` and queueing the unseen neighbours keeps the queue layout. */
  lemma StepShape(visits: seq<int>, q: seq<int>, vs: set<int>, node: int, found: seq<int>, adj: seq<int>)
    requires q != [] && node == q[0] && NoDup(visits + q) && vs == Elems(visits + q)
    requires found == Fresh(adj, vs)
    ensures visits + q == (visits + [node]) + q[1..]
    ensures ((visits + [node]) + (q[1..] + found))[0] == (visits + q)[0]
    ensures NoDup((visits + [node]) + (q[1..] + found))
    ensures Elems((visits + [node]) + (q[1..] + found)) == vs + Elems(adj)
  {
    var visits' := visits + [node];
    var q' := q[1..] + found;
    assert visits + q == visits' + q[1..];
    assert visits' + q' == (visits + q) + found;
    NoDupConcat(visits + q, found);
    assert Elems(visits' + q') == Elems(visits + q) + Elems(found);
  }

  /** The search measure: the unseen part of `U` shrinks, or it stays and the queue shrinks. */
  lemma StepDecreases(U: set<int>, vs: set<int>, vs': set<int>, q: seq<int>, found: seq<int>, adj: seq<int>)
    requires q != [] && vs <= U && Elems(adj) <= U
    requires found == Fresh(adj, vs) && vs' == vs + Elems(adj)
    ensures vs' == vs ==> |q[1..] + found| < |q|
    ensures vs' != vs ==> |U - vs'| < |U - vs|
  {
    if vs' != vs {
      ProperSubsetCard(U - vs', U - vs);
    } else {
      assert forall x :: x in found ==> x in Elems(adj) && x !in vs;
    }
  }

  lemma FinishEarly(a: Adjacency, root: int, U: set<int>, visits: seq<int>, q: seq<int>, vs: set<int>)
    requires Inv(a, root, U, visits, q, vs) && visits != []
    ensures visits[0] == root && NoDup(visits)
    ensures forall v :: v in visits ==> Reachable(a, root, v)
  {
    NoDupPrefix(visits, q);
    assert (visits + q)[0] == visits[0];
    assert forall v :: v in visits ==> v in Elems(visits + q);
  }

  lemma FinishExhausted(a: Adjacency, root: int, U: set<int>, visits: seq<int>, vs: set<int>)
    requires Inv(a, root, U, visits, [], vs)
    ensures visits != [] && visits[0] == root && NoDup(visits)
    ensures forall v :: v in visits ==> Reachable(a, root, v)
    ensures forall v :: Reachable(a, root, v) ==> v in visits
  {
    assert visits + [] == visits;
    forall v | Reachable(a, root, v)
      ensures v in visits
    {
      ClosedHoldsReachable(a, root, vs, v);
    }
  }
}

=== FILE: breadth.dfy ===
/**
 * Column assignment (`celaeno::graph::views::breadth::breadth`). A deque starts with the root;
 * each popped vertex that has not been seen gets a column: the running counter, unless a vertex
 * already placed on the same level holds that column, in which case one more than the largest
 * column among the placed vertices of that level (or the counter, if larger). Successors are
 * pushed at the front, predecessors at the back, and the counter moves on after every vertex
 * without successors. The levels come from `depth`, called with the predecessor callback in the
 * successor position, exactly as the source calls it.
 */
module Breadth {
  import opened Seqs
  import opened Graphs
  import Depth
  import Balance

  /** No two placed vertices on the same level share a column. */
  ghost predicate Apart(hash: map<int, int>, level: map<int, int>) {
    forall a, b :: a in hash && b in hash && a != b && a in level && b in level && level[a] == level[b] ==> hash[a] != hash[b]
  }

  /** Some vertex placed on level `l` holds column `c`: the `find_if` over the column table. */
  predicate Taken(hash: map<int, int>, level: map<int, int>, l: int, c: int) {
    exists e :: e in hash && e in level && level[e] == l && hash[e] == c
  }

  /**
   * The column of a vertex of level `l`, given the placed vertices `hash`: the counter when it
   * is free on that level, otherwise one past the largest of the counter and the columns placed
   * on that level. Either way it differs from every column placed on the level.
   */
  method Place(hash: map<int, int>, level: map<int, int>, l: int, column: int) returns (c: int)
    ensures c >= column
    ensures !Taken(hash, level, l, column) ==> c == column
    ensures Taken(hash, level, l, column) ==> c - 1 == column || Taken(hash, level, l, c - 1)
    ensures forall e :: e in hash && e in level && level[e] == l ==> hash[e] != c
    ensures Taken(hash, level, l, column) ==> forall e :: e in hash && e in level && level[e] == l ==> hash[e] < c
  {
    if !Taken(hash, level, l, column) {
      return column;
    }
    var rest := hash.Keys;
    var m := column;
    while exists s :: s in rest
      invariant rest <= hash.Keys && m >= column
      invariant m == column || Taken(hash, level, l, m)
      invariant forall e :: e in hash && e !in rest && e in level && level[e] == l ==> hash[e] <= m
      decreases |rest|
    {
      var s :| s in rest;
      if s in level && level[s] == l && hash[s] > m {
        m := hash[s];
      }
      rest := rest - {s};
    }
    c := m + 1;
  }

  /** `push_front` of each element in turn: the last one ends up first. */
  function PushFront(s: seq<int>, dq: seq<int>): (r: seq<int>)
    ensures |r| == |s| + |dq| && r[|s|..] == dq
    ensures forall x :: x in r <==> x in s || x in dq
  {
    if s == [] then dq
    else
      var r := PushFront(s[1..], [s[0]] + dq);
      assert forall x :: x in [s[0]] + dq <==> x == s[0] || x in dq;
      assert forall x :: x in s <==> x == s[0] || x in s[1..];
      r
  }

  /** What the loop has swept: every queued or placed vertex is reachable, and the placed ones are closed up to the queue. */
  ghost predicate Swept(g: Graph, root: int, U: set<int>, dq: seq<int>, hash: map<int, int>) {
    && (forall x :: x in dq ==> x in U && Reachable(Neighbours(g), root, x))
    && (forall x :: x in hash ==> x in U && Reachable(Neighbours(g), root, x))
    && (forall x, y :: x in hash && y in Adj(Neighbours(g), x) ==> y in hash || y in dq)
  }

  /** What the loop has placed: the root first at column 0, non-negative columns, levels apart. */
  ghost predicate Placed(root: int, level: map<int, int>, dq: seq<int>, hash: map<int, int>, column: int) {
    && (hash == map[] ==> dq == [root] && column == 0)
    && (hash != map[] ==> root in hash && hash[root] == 0)
    && Apart(hash, level)
    && column >= 0 && (forall x :: x in hash ==> hash[x] >= 0)
  }

  /**
   * The deque loop of `breadth` over the levels `level` (which `.at` requires to cover every
   * vertex the loop meets): every vertex reachable from `root` gets exactly one column, the
   * root column 0, and no two vertices of one level share a column.
   */
  method Columns(g: Graph, root: int, level: map<int, int>) returns (hash: map<int, int>)
    requires forall v :: Reachable(Neighbours(g), root, v) ==> v in level
    ensures forall v :: v in hash <==> Reachable(Neighbours(g), root, v)
    ensures root in hash && hash[root] == 0
    ensures forall v :: v in hash ==> hash[v] >= 0
    ensures Apart(hash, level)
  {
    var dq := [root];
    var column := 0;
    hash := map[];
    ghost var U := CoverOf(Neighbours(g), root);
    ReachableRefl(Neighbours(g), root);
    while dq != []
      invariant Swept(g, root, U, dq, hash)
      invariant Placed(root, level, dq, hash, column)
      invariant Covers(Neighbours(g), U)
      decreases |U - hash.Keys|, |dq|
    {
      dq, hash, column := Step(g, root, level, U, dq, hash, column);
    }
    Finish(g, root, U, level, hash, column);
  }

  /**
   * One turn of the loop: pop the front; a vertex seen before is skipped, a new one is placed,
   * its successors pushed at the front and its predecessors at the back, and the counter moves
   * on when it has no successors.
   */
  method Step(g: Graph, root: int, level: map<int, int>, ghost U: set<int>, dq: seq<int>,
              hash: map<int, int>, column: int)
    returns (dq': seq<int>, hash': map<int, int>, column': int)
    requires forall v :: Reachable(Neighbours(g), root, v) ==> v in level
    requires dq != [] && Swept(g, root, U, dq, hash) && Placed(root, level, dq, hash, column)
    requires Covers(Neighbours(g), U)
    ensures Swept(g, root, U, dq', hash') && Placed(root, level, dq', hash', column')
    ensures |U - hash'.Keys| < |U - hash.Keys| || (hash' == hash && |dq'| < |dq|)
  {
    var current := dq[0];
    var rest := dq[1..];
    assert dq == [current] + rest;
    if current in hash {
      Skip(g, root, U, level, current, rest, hash, column);
      return rest, hash, column;
    }
    var p := Pred(g, current);
    var s := Succ(g, current);
    InLevel(g, root, U, current, rest, hash, level);
    var c := Place(hash, level, level[current], column);
    GrowSwept(g, root, U, rest, hash, current, c);
    GrowPlaced(root, level, rest, hash, column, current, c, s == [], PushFront(s, rest + p));
    hash' := hash[current := c];
    dq' := PushFront(s, rest + p);
    column' := if s == [] then column + 1 else column;
  }

  /** A popped vertex that is already placed changes nothing but the deque. */
  lemma Skip(g: Graph, root: int, U: set<int>, level: map<int, int>, current: int, rest: seq<int>,
             hash: map<int, int>, column: int)
    requires Swept(g, root, U, [current] + rest, hash) && Placed(root, level, [current] + rest, hash, column)
    requires current in hash
    ensures Swept(g, root, U, rest, hash) && Placed(root, level, rest, hash, column)
  {
    forall x | x in rest
      ensures x in U && Reachable(Neighbours(g), root, x)
    {
      assert x in [current] + rest;
    }
    forall x, y | x in hash && y in Adj(Neighbours(g), x)
      ensures y in hash || y in rest
    {
      assert y in hash || y in [current] + rest;
    }
  }

  /** The popped vertex is reachable, so it has a level. */
  lemma InLevel(g: Graph, root: int, U: set<int>, current: int, rest: seq<int>, hash: map<int, int>,
                level: map<int, int>)
    requires forall v :: Reachable(Neighbours(g), root, v) ==> v in level
    requires Swept(g, root, U, [current] + rest, hash)
    ensures current in level
  {
    assert current in [current] + rest;
  }

  /** An empty deque leaves every reachable vertex placed. */
  lemma Finish(g: Graph, root: int, U: set<int>, level: map<int, int>, hash: map<int, int>, column: int)
    requires Swept(g, root, U, [], hash) && Placed(root, level, [], hash, column)
    ensures forall v :: v in hash <==> Reachable(Neighbours(g), root, v)
    ensures root in hash && hash[root] == 0
  {
    forall v | Reachable(Neighbours(g), root, v)
      ensures v in hash
    {
      ClosedHoldsReachable(Neighbours(g), root, hash.Keys, v);
    }
  }

  /** Placing a fresh vertex and queueing its neighbours keeps `Swept` and uses up one vertex of `U`. */
  lemma GrowSwept(g: Graph, root: int, U: set<int>, dq: seq<int>, hash: map<int, int>, current: int, c: int)
    requires Swept(g, root, U, [current] + dq, hash) && Covers(Neighbours(g), U) && current !in hash
    ensures |U - hash[current := c].Keys| < |U - hash.Keys|
    ensures Swept(g, root, U, PushFront(Succ(g, current), dq + Pred(g, current)), hash[current := c])
  {
    var h := hash[current := c];
    assert current in [current] + dq;
    assert U - h.Keys < U - hash.Keys by {
      assert current in U - hash.Keys && current !in U - h.Keys;
    }
    ProperSubsetCard(U - h.Keys, U - hash.Keys);
    GrowQueue(g, root, U, dq, hash, current);
    GrowClosed(g, root, dq, hash, current, c);
  }

  /** The queue after the pushes holds only reachable vertices of `U`. */
  lemma GrowQueue(g: Graph, root: int, U: set<int>, dq: seq<int>, hash: map<int, int>, current: int)
    requires Swept(g, root, U, [current] + dq, hash) && Covers(Neighbours(g), U)
    ensures forall x :: x in PushFront(Succ(g, current), dq + Pred(g, current)) ==>
      x in U && Reachable(Neighbours(g), root, x)
  {
    var N := Neighbours(g);
    assert current in [current] + dq;
    forall x | x in PushFront(Succ(g, current), dq + Pred(g, current))
      ensures x in U && Reachable(N, root, x)
    {
      if x in dq {
        assert x in [current] + dq;
      } else {
        assert x in Adj(N, current);
        ReachableStep(N, root, current, x);
      }
    }
  }

  /** Every neighbour of a placed vertex is placed or queued after the pushes. */
  lemma GrowClosed(g: Graph, root: int, dq: seq<int>, hash: map<int, int>, current: int, c: int)
    requires forall x, y :: x in hash && y in Adj(Neighbours(g), x) ==> y in hash || y in [current] + dq
    ensures forall x, y :: x in hash[current := c] && y in Adj(Neighbours(g), x) ==>
      y in hash[current := c] || y in PushFront(Succ(g, current), dq + Pred(g, current))
  {
    var h := hash[current := c];
    var dq' := PushFront(Succ(g, current), dq + Pred(g, current));
    forall x, y | x in h && y in Adj(Neighbours(g), x)
      ensures y in h || y in dq'
    {
      if x != current {
        assert y in hash || y in [current] + dq;
      }
    }
  }

  /** A column that is unused on its level, and 0 for the first vertex, keeps `Placed`. */
  lemma GrowPlaced(root: int, level: map<int, int>, dq: seq<int>, hash: map<int, int>, column: int,
                   current: int, c: int, leaf: bool, dq': seq<int>)
    requires Placed(root, level, [current] + dq, hash, column)
    requires current !in hash && c >= column && (hash == map[] ==> c == column)
    requires forall e :: e in hash && e in level && current in level && level[e] == level[current] ==> hash[e] != c
    ensures Placed(root, level, dq', hash[current := c], if leaf then column + 1 else column)
  {
    var h := hash[current := c];
    assert current in h;
    if hash == map[] {
      assert [current] + dq == [root];
      assert current == ([current] + dq)[0] == root;
      assert c == 0;
    } else {
      assert root != current && h[root] == hash[root];
    }
    ApartGrow(hash, level, current, c);
  }

  /** A column unused on its level keeps the levels apart. */
  lemma ApartGrow(hash: map<int, int>, level: map<int, int>, current: int, c: int)
    requires Apart(hash, level) && current !in hash
    requires forall e :: e in hash && e in level && current in level && level[e] == level[current] ==> hash[e] != c
    ensures Apart(hash[current := c], level)
  {
    var h := hash[current := c];
    forall a, b | a in h && b in h && a != b && a in level && b in level && level[a] == level[b]
      ensures h[a] != h[b]
    {
      if a != current && b != current {
        assert h[a] == hash[a] && h[b] == hash[b];
      }
    }
  }

  /** The same walks exist over two adjacencies whose lists hold the same vertices. */
  lemma {:induction false} ReachableAlike(a: Adjacency, b: Adjacency, from: int, to: int)
    requires forall v, x :: x in Adj(a, v) ==> x in Adj(b, v)
    requires Reachable(a, from, to)
    ensures Reachable(b, from, to)
  {
    var p :| IsPath(a, p) && p[0] == from && p[|p| - 1] == to;
    forall i | 0 <= i < |p| - 1
      ensures p[i + 1] in Adj(b, p[i])
    {
      assert p[i + 1] in Adj(a, p[i]);
    }
    assert IsPath(b, p);
  }

  /**
   * `breadth(root, pred, succ)`: levels from `depth` with the two callbacks in the order the source
   * passes them (so on the reversed graph), then the deque loop. `None` when that levelling never
   * ends, which happens exactly when a directed cycle is reachable from `root`.
   */
  method Breadth(g: Graph, root: int) returns (r: Option<map<int, int>>, ghost level: map<int, int>)
    ensures r.None? <==> exists w :: Depth.PredCycle(Reverse(g), w) && Reachable(Neighbours(Reverse(g)), root, w[0])
    ensures r.Some? ==> forall v :: v in r.value <==> Reachable(Neighbours(g), root, v)
    ensures r.Some? ==> root in r.value && r.value[root] == 0
    ensures r.Some? ==> Depth.Layered(Reverse(g), level) && Apart(r.value, level)
  {
    var o := Depth.Depth(Reverse(g), root);
    if o.Diverges? {
      var w := Depth.StuckHoldsCycle(Reverse(g), o.stuck);
      assert w[0] in o.stuck;
      r, level := None, map[];
      return;
    }
    level := o.level;
    Balance.NoReachableCycle(Reverse(g), root, level);
    forall v | Reachable(Neighbours(g), root, v)
      ensures v in level
    {
      ReachableAlike(Neighbours(g), Neighbours(Reverse(g)), root, v);
    }
    var hash := Columns(g, root, o.level);
    r := Some(hash);
  }

  /**
   * `breadth` with the two callbacks in the order `depth` declares them, as the breadth test
   * builds its own levels: the levels of the graph itself, with the sources at level 0.
   */
  method BreadthCorrected(g: Graph, root: int) returns (r: Option<map<int, int>>, ghost level: map<int, int>)
    ensures r.None? <==> exists w :: Depth.PredCycle(g, w) && Reachable(Neighbours(g), root, w[0])
    ensures r.Some? ==> forall v :: v in r.value <==> Reachable(Neighbours(g), root, v)
    ensures r.Some? ==> root in r.value && r.value[root] == 0
    ensures r.Some? ==> Depth.Layered(g, level) && Apart(r.value, level)
  {
    var o := Depth.Depth(g, root);
    if o.Diverges? {
      var w := Depth.StuckHoldsCycle(g, o.stuck);
      assert w[0] in o.stuck;
      r, level := None, map[];
      return;
    }
    level := o.level;
    Balance.NoReachableCycle(g, root, level);
    var hash := Columns(g, root, o.level);
    r := Some(hash);
  }

  /**
   * The levels `Breadth` works with on the triangle 0 -> 1 -> 2 with shortcut 0 -> 2: the
   * reversed graph's, so the sink 2 is at level 0 and the root 0 at the top, where the
   * graph's own levels (`Balance.TriangleLevels`) are 0, 1, 2.
   */
  lemma TriangleReversedLevels(level: map<int, int>)
    requires Depth.Layered(Reverse(Balance.Triangle()), level) && 0 in level && 1 in level && 2 in level
    ensures level[2] == 0 && level[1] == 1 && level[0] == 2
  {
    var t := Reverse(Balance.Triangle());
    assert Depth.TightAt(t, level, 1);
    assert Depth.TightAt(t, level, 0);
  }
}

=== FILE: cantor.dfy ===
/**
 * Cantor's pairing of two naturals into one and back (`celaeno::math::cantor_pairing`).
 * The source computes both directions in floating point (`sqrt`, `floor`, `pow`, `.5 *`);
 * here they are exact integer arithmetic: the square root is the integer square root.
 */
module Cantor {

  /** The triangular number w(w+1)/2. */
  function Tri(w: nat): nat {
    w * (w + 1) / 2
  }

  /** Pairs (k1, k2) into one natural: the diagonal k1 + k2 is skipped over, then k2 added. */
  function Pair(k1: nat, k2: nat): (z: nat)
    ensures Tri(k1 + k2) <= z < Tri(k1 + k2 + 1)
  {
    TriStep(k1 + k2);
    (k1 + k2) * (k1 + k2 + 1) / 2 + k2
  }

  lemma TriStep(w: nat)
    ensures Tri(w + 1) == Tri(w) + w + 1
  {
    assert (w + 1) * (w + 2) == w * (w + 1) + 2 * (w + 1);
  }

  /** The integer square root: the largest r with r * r <= n. */
  function ISqrt(n: nat): (r: nat)
    ensures r * r <= n < (r + 1) * (r + 1)
  {
    if n == 0 then 0
    else
      var r := ISqrt(n - 1);
      if (r + 1) * (r + 1) <= n then r + 1 else r
  }

  /** Unpairs `z`: w is the diagonal `z` lies on, k2 its offset along it, k1 the rest. */
  function Unpair(z: nat): (k: (int, int))
    ensures k.0 >= 0 && k.1 >= 0
    ensures Tri(k.0 + k.1) <= z < Tri(k.0 + k.1 + 1)
  {
    var w := Diagonal(z);
    var t := (w * w + w) / 2;
    assert w * w + w == w * (w + 1);
    var k2 := z - t;
    var k1 := w - k2;
    (k1, k2)
  }

  /**
   * The diagonal `z` lies on, by the source's formula floor((sqrt(8z + 1) - 1) / 2), with the
   * square root taken exactly: the largest w whose triangular number does not exceed `z`.
   */
  function Diagonal(z: nat): (w: nat)
    ensures Tri(w) <= z < Tri(w + 1)
  {
    var r := ISqrt(8 * z + 1);
    DiagonalOfRoot(z, r);
    (r - 1) / 2
  }

  /** From the integer square root r of 8z + 1, (r - 1) / 2 is the diagonal of `z`. */
  lemma DiagonalOfRoot(z: nat, r: nat)
    requires r * r <= 8 * z + 1 < (r + 1) * (r + 1)
    ensures (r - 1) / 2 >= 0 && Tri((r - 1) / 2) <= z < Tri((r - 1) / 2 + 1)
  {
    var n := 8 * z + 1;
    var w := (r - 1) / 2;
    SquareBounds(n, r, w);
    TriTimesEight(w);
    TriTimesEight(w + 1);
    var lo, hi := (2 * w + 1) * (2 * w + 1), (2 * w + 3) * (2 * w + 3);
    assert lo == 8 * Tri(w) + 1 && lo <= n;
    assert hi == 8 * Tri(w + 1) + 1 && n < hi by {
      assert 2 * (w + 1) + 1 == 2 * w + 3;
    }
  }

  /** An odd-centred square bracket around `n` from its integer square root. */
  lemma SquareBounds(n: nat, r: nat, w: int)
    requires r * r <= n < (r + 1) * (r + 1) && n % 2 == 1 && w == (r - 1) / 2
    ensures w >= 0
    ensures (2 * w + 1) * (2 * w + 1) <= n < (2 * w + 3) * (2 * w + 3)
  {
    assert r >= 1;
    assert 2 * w + 1 <= r <= 2 * w + 2;
    MulMono(2 * w + 1, r);
    MulMono(r + 1, 2 * w + 3);
  }

  lemma MulMono(a: nat, b: nat)
    requires a <= b
    ensures a * a <= b * b
  {
    assert a * a <= a * b <= b * b;
  }

  lemma TriTimesEight(w: nat)
    ensures (2 * w + 1) * (2 * w + 1) == 8 * Tri(w) + 1
  {
    var p := w * (w + 1);
    var h := ProductHalf(w);
    assert Tri(w) == h;
    assert (2 * w + 1) * (2 * w + 1) == 4 * p + 1 by {
      assert (2 * w + 1) * (2 * w + 1) == 4 * (w * w) + 4 * w + 1;
      assert p == w * w + w;
    }
  }

  /** w(w+1) is even: returns its half. */
  lemma ProductHalf(w: nat) returns (h: nat)
    ensures w * (w + 1) == 2 * h && w * (w + 1) / 2 == h
  {
    if w % 2 == 0 {
      var q := w / 2;
      assert w == 2 * q;
      h := q * (w + 1);
      assert w * (w + 1) == 2 * q * (w + 1);
    } else {
      var q := (w + 1) / 2;
      assert w + 1 == 2 * q;
      h := w * q;
      assert w * (w + 1) == w * (2 * q);
    }
  }

  /** Exactly one diagonal holds a given natural. */
  lemma {:induction false} DiagonalUnique(z: nat, v: nat, w: nat)
    requires Tri(v) <= z < Tri(v + 1) && Tri(w) <= z < Tri(w + 1)
    ensures v == w
  {
    if v < w {
      TriMono(v + 1, w);
    } else if w < v {
      TriMono(w + 1, v);
    }
  }

  lemma {:induction false} TriMono(a: nat, b: nat)
    requires a <= b
    ensures Tri(a) <= Tri(b)
  {
    if a < b {
      TriMono(a, b - 1);
      TriStep(b - 1);
    }
  }

  /** Pairing then unpairing gives back the pair. */
  lemma UnpairPair(k1: nat, k2: nat)
    ensures Unpair(Pair(k1, k2)) == (k1, k2)
  {
    var z := Pair(k1, k2);
    var k := Unpair(z);
    DiagonalUnique(z, k1 + k2, k.0 + k.1);
  }

  /** Unpairing then pairing gives back the natural. */
  lemma PairUnpair(z: nat)
    ensures var k := Unpair(z); Pair(k.0, k.1) == z
  {
  }
}

=== FILE: coarsening.dfy ===
/**
 * Re-enumeration of a map (`celaeno::graph::coarsening::coarsening`): every entry, in the
 * map's iteration order, is copied unchanged under a fresh key 0, 1, 2, ...
 * The input map is given as the sequence of its entries in iteration order.
 */
module Coarsening {

  /** The new map: built by inserting the entries one by one under a running counter. */
  function Coarsen<K, V>(entries: seq<(K, V)>): (r: map<int, (K, V)>)
    ensures forall i :: i in r <==> 0 <= i < |entries|
    ensures forall i :: 0 <= i < |entries| ==> r[i] == entries[i]
    ensures |r| == |entries|
  {
    if |entries| == 0 then map[]
    else
      var n := |entries| - 1;
      var before := Coarsen(entries[..n]);
      assert n !in before;
      before[n := entries[n]]
  }
}

=== FILE: crossings.dfy ===
/**
 * Edge-crossing counts of an incidence matrix between two adjacent layers: rows are the
 * upper layer's vertices, columns the lower layer's, and rows j < k cross wherever row j
 * reaches a column b to the right of a column a that row k reaches.
 * `celaeno::graph::imatrix_crossings::imatrix_crossings` counts over all rows and columns;
 * `celaeno::graph::crossings::run` runs the same four loops starting at index 1.
 */
module Crossings {

  /** Every row has `q` entries. */
  predicate Rect(m: seq<seq<int>>, q: nat) {
    forall i :: 0 <= i < |m| ==> |m[i]| == q
  }

  /** Σ_{b in [a+1, b)} x[b'] · y[a]: crossings of column `a` of the lower row with the upper row. */
  function SumB(x: seq<int>, y: seq<int>, a: nat, b: int): int
    requires a < |y| && b <= |x|
    decreases b
  {
    if b <= a + 1 then 0 else SumB(x, y, a, b - 1) + x[b - 1] * y[a]
  }

  /** Σ_{a' in [lo, a)} SumB(x, y, a', |x|). */
  function SumA(x: seq<int>, y: seq<int>, lo: nat, a: int): int
    requires |x| == |y| && (a <= lo || a <= |x|)
    decreases a
  {
    if a <= lo then 0 else SumA(x, y, lo, a - 1) + SumB(x, y, a - 1, |x|)
  }

  /** Crossings between an upper row `x` and a lower row `y`, columns from `lo` on. */
  function RowCross(x: seq<int>, y: seq<int>, lo: nat): int
    requires |x| == |y|
  {
    SumA(x, y, lo, |x| - 1)
  }

  /** Σ_{k' in [j+1, k)} RowCross(m[j], m[k'], lo). */
  function SumK(m: seq<seq<int>>, q: nat, lo: nat, j: nat, k: int): int
    requires Rect(m, q) && j < |m| && k <= |m|
    decreases k
  {
    if k <= j + 1 then 0 else SumK(m, q, lo, j, k - 1) + RowCross(m[j], m[k - 1], lo)
  }

  /** Σ_{j' in [lo, j)} SumK(m, q, lo, j', |m|). */
  function SumJ(m: seq<seq<int>>, q: nat, lo: nat, j: int): int
    requires Rect(m, q) && j <= |m|
    decreases j
  {
    if j <= lo then 0 else SumJ(m, q, lo, j - 1) + SumK(m, q, lo, j - 1, |m|)
  }

  /**
   * The crossing count of a rectangular matrix with `q` columns, rows and columns from `lo`
   * on: Σ over lo <= j < k < |m| and lo <= a < b < q of m[j][b] · m[k][a].
   */
  function Count(m: seq<seq<int>>, q: nat, lo: nat): int
    requires Rect(m, q)
  {
    SumJ(m, q, lo, |m| - 1)
  }

  /**
   * The four nested loops both source functions run, from row and column `lo`. A matrix
   * without columns makes the source's unsigned `q - 1` wrap; its loops then add nothing.
   */
  method CountLoops(m: seq<seq<int>>, lo: nat) returns (c: int)
    requires |m| > 0 && Rect(m, |m[0]|) && lo <= 1
    ensures c == Count(m, |m[0]|, lo)
  {
    var p := |m|;
    var q := |m[0]|;
    c := 0;
    var j := lo;
    while j < p - 1
      invariant lo <= j && (j == lo || j <= p - 1)
      invariant c == SumJ(m, q, lo, j)
    {
      var k := j + 1;
      ghost var cj := c;
      while k < p
        invariant j + 1 <= k <= p
        invariant c == cj + SumK(m, q, lo, j, k)
      {
        var a := lo;
        ghost var ck := c;
        while a < q - 1
          invariant lo <= a && (a == lo || a <= q - 1)
          invariant c == ck + SumA(m[j], m[k], lo, a)
        {
          var b := a + 1;
          ghost var ca := c;
          while b < q
            invariant a + 1 <= b <= q
            invariant c == ca + SumB(m[j], m[k], a, b)
          {
            c := c + m[j][b] * m[k][a];
            b := b + 1;
          }
          a := a + 1;
        }
        k := k + 1;
      }
      j := j + 1;
    }
  }

  /** `imatrix_crossings`: the full count; the source reads row 0 before its loops, so |m| > 0. */
  method ImatrixCrossings(m: seq<seq<int>>) returns (c: int)
    requires |m| > 0 && Rect(m, |m[0]|)
    ensures c == Count(m, |m[0]|, 0)
    ensures (|m| == 1 || |m[0]| <= 1) ==> c == 0
    ensures NonNegative(m) ==> c >= 0
  {
    c := CountLoops(m, 0);
    NarrowCountsZero(m, |m[0]|, 0);
    CountNonNegative(m, |m[0]|, 0);
  }

  /** `run`: the same loops from row 1 and column 1, so row 0 and column 0 never count. */
  method CrossingsRun(m: seq<seq<int>>) returns (c: int)
    requires |m| > 0 && Rect(m, |m[0]|)
    ensures c == Count(m, |m[0]|, 1)
    ensures (|m| <= 2 || |m[0]| <= 2) ==> c == 0
    ensures NonNegative(m) ==> c >= 0
    ensures |m[0]| >= 1 ==> c == Count(Trim(m), |m[0]| - 1, 0)
  {
    c := CountLoops(m, 1);
    NarrowCountsZero(m, |m[0]|, 1);
    CountNonNegative(m, |m[0]|, 1);
    if |m[0]| >= 1 {
      CountShift(m, |m[0]|);
    }
  }

  predicate NonNegative(m: seq<seq<int>>) {
    forall i, k :: 0 <= i < |m| && 0 <= k < |m[i]| ==> m[i][k] >= 0
  }

  /** The matrix without its first row and first column. */
  function Trim(m: seq<seq<int>>): (t: seq<seq<int>>)
    requires |m| > 0 && Rect(m, |m[0]|) && |m[0]| >= 1
    ensures |t| == |m| - 1 && Rect(t, |m[0]| - 1)
    ensures forall i :: 0 <= i < |t| ==> t[i] == m[i + 1][1..]
  {
    seq(|m| - 1, i requires 0 <= i < |m| - 1 => m[i + 1][1..])
  }

  // ----- zero on narrow matrices -----

  lemma {:induction false} SumANarrow(x: seq<int>, y: seq<int>, lo: nat, a: int)
    requires |x| == |y| && a <= |x| && |x| <= lo + 1
    ensures SumA(x, y, lo, a) == 0
  {
    if a > lo {
      SumANarrow(x, y, lo, a - 1);
    }
  }

  lemma {:induction false} SumKNarrow(m: seq<seq<int>>, q: nat, lo: nat, j: nat, k: int)
    requires Rect(m, q) && j < |m| && k <= |m| && q <= lo + 1
    ensures SumK(m, q, lo, j, k) == 0
  {
    if k > j + 1 {
      SumKNarrow(m, q, lo, j, k - 1);
      SumANarrow(m[j], m[k - 1], lo, q - 1);
    }
  }

  lemma {:induction false} SumJNarrow(m: seq<seq<int>>, q: nat, lo: nat, j: int)
    requires Rect(m, q) && j <= |m| && q <= lo + 1
    ensures SumJ(m, q, lo, j) == 0
  {
    if j > lo {
      SumJNarrow(m, q, lo, j - 1);
      SumKNarrow(m, q, lo, j - 1, |m|);
    }
  }

  /** Too few rows or columns past `lo` leave nothing to cross. */
  lemma NarrowCountsZero(m: seq<seq<int>>, q: nat, lo: nat)
    requires Rect(m, q)
    ensures (|m| <= lo + 1 || q <= lo + 1) ==> Count(m, q, lo) == 0
  {
    if q <= lo + 1 {
      SumJNarrow(m, q, lo, |m| - 1);
    }
  }

  // ----- non-negativity -----

  lemma {:induction false} SumBNonNegative(x: seq<int>, y: seq<int>, a: nat, b: int)
    requires a < |y| && b <= |x|
    requires forall i :: 0 <= i < |x| ==> x[i] >= 0
    requires y[a] >= 0
    ensures SumB(x, y, a, b) >= 0
  {
    if b > a + 1 {
      SumBNonNegative(x, y, a, b - 1);
    }
  }

  lemma {:induction false} SumANonNegative(x: seq<int>, y: seq<int>, lo: nat, a: int)
    requires |x| == |y| && a <= |x|
    requires forall i :: 0 <= i < |x| ==> x[i] >= 0 && y[i] >= 0
    ensures SumA(x, y, lo, a) >= 0
  {
    if a > lo {
      SumANonNegative(x, y, lo, a - 1);
      SumBNonNegative(x, y, a - 1, |x|);
    }
  }

  lemma {:induction false} SumKNonNegative(m: seq<seq<int>>, q: nat, lo: nat, j: nat, k: int)
    requires Rect(m, q) && j < |m| && k <= |m| && NonNegative(m)
    ensures SumK(m, q, lo, j, k) >= 0
  {
    if k > j + 1 {
      SumKNonNegative(m, q, lo, j, k - 1);
      SumANonNegative(m[j], m[k - 1], lo, q - 1);
    }
  }

  lemma {:induction false} SumJNonNegative(m: seq<seq<int>>, q: nat, lo: nat, j: int)
    requires Rect(m, q) && j <= |m| && NonNegative(m)
    ensures SumJ(m, q, lo, j) >= 0
  {
    if j > lo {
      SumJNonNegative(m, q, lo, j - 1);
      SumKNonNegative(m, q, lo, j - 1, |m|);
    }
  }

  /** Non-negative entries give a non-negative count. */
  lemma CountNonNegative(m: seq<seq<int>>, q: nat, lo: nat)
    requires Rect(m, q)
    ensures NonNegative(m) ==> Count(m, q, lo) >= 0
  {
    if NonNegative(m) {
      SumJNonNegative(m, q, lo, |m| - 1);
    }
  }

  // ----- starting at 1 is the full count of the trimmed matrix -----

  lemma {:induction false} SumBShift(x: seq<int>, y: seq<int>, a: nat, b: int)
    requires 1 <= a < |y| && b <= |x| && |x| >= 1
    ensures SumB(x, y, a, b) == SumB(x[1..], y[1..], a - 1, b - 1)
  {
    if b > a + 1 {
      SumBShift(x, y, a, b - 1);
    }
  }

  lemma {:induction false} SumAShift(x: seq<int>, y: seq<int>, a: int)
    requires |x| == |y| >= 1 && a <= |x|
    ensures SumA(x, y, 1, a) == SumA(x[1..], y[1..], 0, a - 1)
  {
    if a > 1 {
      SumAShift(x, y, a - 1);
      SumBShift(x, y, a - 1, |x|);
    }
  }

  lemma {:induction false} SumKShift(m: seq<seq<int>>, q: nat, j: nat, k: int)
    requires |m| > 0 && Rect(m, q) && q == |m[0]| && q >= 1 && 1 <= j < |m| && k <= |m|
    ensures SumK(m, q, 1, j, k) == SumK(Trim(m), q - 1, 0, j - 1, k - 1)
  {
    if k > j + 1 {
      SumKShift(m, q, j, k - 1);
      SumAShift(m[j], m[k - 1], q - 1);
    }
  }

  lemma {:induction false} SumJShift(m: seq<seq<int>>, q: nat, j: int)
    requires |m| > 0 && Rect(m, q) && q == |m[0]| && q >= 1 && j <= |m|
    ensures SumJ(m, q, 1, j) == SumJ(Trim(m), q - 1, 0, j - 1)
  {
    if j > 1 {
      SumJShift(m, q, j - 1);
      SumKShift(m, q, j - 1, |m|);
    }
  }

  /** Counting from row and column 1 is the full count of the matrix trimmed by one of each. */
  lemma CountShift(m: seq<seq<int>>, q: nat)
    requires |m| > 0 && Rect(m, q) && q == |m[0]| && q >= 1
    ensures Count(m, q, 1) == Count(Trim(m), q - 1, 0)
  {
    SumJShift(m, q, |m| - 1);
  }

  // ----- the test matrices -----

  const T0: seq<seq<int>> := [[1, 1, 0, 0, 0], [1, 0, 0, 1, 1], [0, 1, 0, 1, 1], [1, 0, 1, 0, 1]]
  const T1: seq<seq<int>> := [[1, 1, 0, 0, 0], [1, 0, 1, 0, 1], [1, 0, 0, 1, 1], [0, 0, 1, 1, 1]]
  const T2: seq<seq<int>> := [[1, 0, 1, 0, 0], [1, 1, 0, 1, 0], [1, 0, 0, 1, 1], [0, 0, 1, 1, 1]]
  const T3: seq<seq<int>> := [[0, 1, 1, 0, 0], [1, 1, 0, 1, 0], [0, 1, 0, 1, 1], [0, 0, 1, 1, 1]]
  const T4: seq<seq<int>> := [[1, 1, 0, 1, 0], [0, 1, 1, 0, 0], [0, 1, 0, 1, 1], [0, 0, 1, 1, 1]]
  const T5: seq<seq<int>> := [[1, 1, 1, 0, 0], [0, 1, 0, 1, 0], [0, 1, 1, 0, 1], [0, 0, 1, 1, 1]]

  /** SumB on five columns, written out. */
  lemma SumB5(x: seq<int>, y: seq<int>, a: nat)
    requires |x| == 5 && |y| == 5 && a < 5
    ensures SumB(x, y, a, 5) == (if a < 4 then x[4] * y[a] else 0) + (if a < 3 then x[3] * y[a] else 0)
                              + (if a < 2 then x[2] * y[a] else 0) + (if a < 1 then x[1] * y[a] else 0)
  {
    if a < 4 {
      assert SumB(x, y, a, 5) == SumB(x, y, a, 4) + x[4] * y[a];
      if a < 3 {
        assert SumB(x, y, a, 4) == SumB(x, y, a, 3) + x[3] * y[a];
        if a < 2 {
          assert SumB(x, y, a, 3) == SumB(x, y, a, 2) + x[2] * y[a];
        }
      }
    }
  }

  /** The crossings of two rows of five entries, written out, from column 0 and from column 1. */
  lemma RowCross5(x: seq<int>, y: seq<int>)
    requires |x| == 5 && |y| == 5
    ensures RowCross(x, y, 0) == x[1] * y[0] + x[2] * y[0] + x[3] * y[0] + x[4] * y[0] + x[2] * y[1] + x[3] * y[1] + x[4] * y[1] + x[3] * y[2] + x[4] * y[2] + x[4] * y[3]
    ensures RowCross(x, y, 1) == x[2] * y[1] + x[3] * y[1] + x[4] * y[1] + x[3] * y[2] + x[4] * y[2] + x[4] * y[3]
  {
    SumB5(x, y, 0); SumB5(x, y, 1); SumB5(x, y, 2); SumB5(x, y, 3);
    assert SumA(x, y, 0, 1) == SumB(x, y, 0, 5);
    assert SumA(x, y, 1, 2) == SumB(x, y, 1, 5);
  }

  /** The count of a four-row matrix as the sum over its row pairs, from index 0 and from 1. */
  lemma Count4(m: seq<seq<int>>)
    requires |m| == 4 && Rect(m, 5)
    ensures Count(m, 5, 0) == RowCross(m[0], m[1], 0) + RowCross(m[0], m[2], 0) + RowCross(m[0], m[3], 0) + RowCross(m[1], m[2], 0) + RowCross(m[1], m[3], 0) + RowCross(m[2], m[3], 0)
    ensures Count(m, 5, 1) == RowCross(m[1], m[2], 1) + RowCross(m[1], m[3], 1) + RowCross(m[2], m[3], 1)
  {
    assert SumK(m, 5, 0, 0, 2) == RowCross(m[0], m[1], 0);
    assert SumK(m, 5, 0, 1, 3) == RowCross(m[1], m[2], 0);
    assert SumK(m, 5, 1, 1, 3) == RowCross(m[1], m[2], 1);
    assert SumJ(m, 5, 0, 1) == SumK(m, 5, 0, 0, 4);
    assert SumJ(m, 5, 1, 2) == SumK(m, 5, 1, 1, 4);
  }

  /** The full count and the count from index 1 of a test matrix, by its entries. */
  lemma CountOf(m: seq<seq<int>>, full: int, fromOne: int)
    requires |m| == 4 && Rect(m, 5)
    requires full == m[0][1] * m[1][0] + m[0][2] * m[1][0] + m[0][3] * m[1][0] + m[0][4] * m[1][0] + m[0][2] * m[1][1] + m[0][3] * m[1][1] + m[0][4] * m[1][1] + m[0][3] * m[1][2] + m[0][4] * m[1][2] + m[0][4] * m[1][3] + m[0][1] * m[2][0] + m[0][2] * m[2][0] + m[0][3] * m[2][0] + m[0][4] * m[2][0] + m[0][2] * m[2][1] + m[0][3] * m[2][1] + m[0][4] * m[2][1] + m[0][3] * m[2][2] + m[0][4] * m[2][2] + m[0][4] * m[2][3] + m[0][1] * m[3][0] + m[0][2] * m[3][0] + m[0][3] * m[3][0] + m[0][4] * m[3][0] + m[0][2] * m[3][1] + m[0][3] * m[3][1] + m[0][4] * m[3][1] + m[0][3] * m[3][2] + m[0][4] * m[3][2] + m[0][4] * m[3][3] + m[1][1] * m[2][0] + m[1][2] * m[2][0] + m[1][3] * m[2][0] + m[1][4] * m[2][0] + m[1][2] * m[2][1] + m[1][3] * m[2][1] + m[1][4] * m[2][1] + m[1][3] * m[2][2] + m[1][4] * m[2][2] + m[1][4] * m[2][3] + m[1][1] * m[3][0] + m[1][2] * m[3][0] + m[1][3] * m[3][0] + m[1][4] * m[3][0] + m[1][2] * m[3][1] + m[1][3] * m[3][1] + m[1][4] * m[3][1] + m[1][3] * m[3][2] + m[1][4] * m[3][2] + m[1][4] * m[3][3] + m[2][1] * m[3][0] + m[2][2] * m[3][0] + m[2][3] * m[3][0] + m[2][4] * m[3][0] + m[2][2] * m[3][1] + m[2][3] * m[3][1] + m[2][4] * m[3][1] + m[2][3] * m[3][2] + m[2][4] * m[3][2] + m[2][4] * m[3][3]
    requires fromOne == m[1][2] * m[2][1] + m[1][3] * m[2][1] + m[1][4] * m[2][1] + m[1][3] * m[2][2] + m[1][4] * m[2][2] + m[1][4] * m[2][3] + m[1][2] * m[3][1] + m[1][3] * m[3][1] + m[1][4] * m[3][1] + m[1][3] * m[3][2] + m[1][4] * m[3][2] + m[1][4] * m[3][3] + m[2][2] * m[3][1] + m[2][3] * m[3][1] + m[2][4] * m[3][1] + m[2][3] * m[3][2] + m[2][4] * m[3][2] + m[2][4] * m[3][3]
    ensures Count(m, 5, 0) == full && Count(m, 5, 1) == fromOne
  {
    Expand(m);
  }

  /** The full count on the six test matrices gives the literals the tests expect. */
  lemma TestCounts()
    ensures Rect(T0, 5) && Count(T0, 5, 0) == 14
    ensures Rect(T1, 5) && Count(T1, 5, 0) == 10
    ensures Rect(T2, 5) && Count(T2, 5, 0) == 9
    ensures Rect(T3, 5) && Count(T3, 5, 0) == 9
    ensures Rect(T4, 5) && Count(T4, 5, 0) == 8
    ensures Rect(T5, 5) && Count(T5, 5, 0) == 7
  {
    TestCount0();
    TestCount1();
    TestCount2();
    TestCount3();
    TestCount4();
    TestCount5();
  }

  lemma TestCount0()
    ensures Rect(T0, 5) && Count(T0, 5, 0) == 14
  {
    CountOf(T0, 14, 7);
  }

  lemma TestCount1()
    ensures Rect(T1, 5) && Count(T1, 5, 0) == 10
  {
    CountOf(T1, 10, 6);
  }

  lemma TestCount2()
    ensures Rect(T2, 5) && Count(T2, 5, 0) == 9
  {
    CountOf(T2, 9, 4);
  }

  lemma TestCount3()
    ensures Rect(T3, 5) && Count(T3, 5, 0) == 9
  {
    CountOf(T3, 9, 5);
  }

  lemma TestCount4()
    ensures Rect(T4, 5) && Count(T4, 5, 0) == 8
  {
    CountOf(T4, 8, 4);
  }

  lemma TestCount5()
    ensures Rect(T5, 5) && Count(T5, 5, 0) == 7
  {
    CountOf(T5, 7, 5);
  }

  /** `run` on the first test matrix counts 7, where its test expects the full count 14. */
  lemma RunOnFirstTestMatrix()
    ensures Rect(T0, 5) && Count(T0, 5, 1) == 7 && Count(T0, 5, 0) == 14
  {
    CountOf(T0, 14, 7);
  }

  /** The count of a four-by-five matrix written out entry by entry, from index 0 and from 1. */
  lemma Expand(m: seq<seq<int>>)
    requires |m| == 4 && Rect(m, 5)
    ensures Count(m, 5, 0) == m[0][1] * m[1][0] + m[0][2] * m[1][0] + m[0][3] * m[1][0] + m[0][4] * m[1][0] + m[0][2] * m[1][1] + m[0][3] * m[1][1] + m[0][4] * m[1][1] + m[0][3] * m[1][2] + m[0][4] * m[1][2] + m[0][4] * m[1][3] + m[0][1] * m[2][0] + m[0][2] * m[2][0] + m[0][3] * m[2][0] + m[0][4] * m[2][0] + m[0][2] * m[2][1] + m[0][3] * m[2][1] + m[0][4] * m[2][1] + m[0][3] * m[2][2] + m[0][4] * m[2][2] + m[0][4] * m[2][3] + m[0][1] * m[3][0] + m[0][2] * m[3][0] + m[0][3] * m[3][0] + m[0][4] * m[3][0] + m[0][2] * m[3][1] + m[0][3] * m[3][1] + m[0][4] * m[3][1] + m[0][3] * m[3][2] + m[0][4] * m[3][2] + m[0][4] * m[3][3] + m[1][1] * m[2][0] + m[1][2] * m[2][0] + m[1][3] * m[2][0] + m[1][4] * m[2][0] + m[1][2] * m[2][1] + m[1][3] * m[2][1] + m[1][4] * m[2][1] + m[1][3] * m[2][2] + m[1][4] * m[2][2] + m[1][4] * m[2][3] + m[1][1] * m[3][0] + m[1][2] * m[3][0] + m[1][3] * m[3][0] + m[1][4] * m[3][0] + m[1][2] * m[3][1] + m[1][3] * m[3][1] + m[1][4] * m[3][1] + m[1][3] * m[3][2] + m[1][4] * m[3][2] + m[1][4] * m[3][3] + m[2][1] * m[3][0] + m[2][2] * m[3][0] + m[2][3] * m[3][0] + m[2][4] * m[3][0] + m[2][2] * m[3][1] + m[2][3] * m[3][1] + m[2][4] * m[3][1] + m[2][3] * m[3][2] + m[2][4] * m[3][2] + m[2][4] * m[3][3]
    ensures Count(m, 5, 1) == m[1][2] * m[2][1] + m[1][3] * m[2][1] + m[1][4] * m[2][1] + m[1][3] * m[2][2] + m[1][4] * m[2][2] + m[1][4] * m[2][3] + m[1][2] * m[3][1] + m[1][3] * m[3][1] + m[1][4] * m[3][1] + m[1][3] * m[3][2] + m[1][4] * m[3][2] + m[1][4] * m[3][3] + m[2][2] * m[3][1] + m[2][3] * m[3][1] + m[2][4] * m[3][1] + m[2][3] * m[3][2] + m[2][4] * m[3][2] + m[2][4] * m[3][3]
  {
    Count4(m);
    RowCross5(m[0], m[1]);
    RowCross5(m[0], m[2]);
    RowCross5(m[0], m[3]);
    RowCross5(m[1], m[2]);
    RowCross5(m[1], m[3]);
    RowCross5(m[2], m[3]);
  }
}

=== FILE: depth.dfy ===
/**
 * Longest-path levels (`celaeno::graph::view::depth::depth`). A first breadth-first sweep
 * over predecessors-then-successors from the root fixes the vertex order and gives level 0
 * to every vertex without predecessors; each further pass walks the same order and gives
 * the next level to every unlevelled vertex whose predecessors were all levelled before the
 * pass. The source stops once every swept vertex has a level; when a pass levels nothing it
 * repeats that pass forever, which the model reports as `Diverges`.
 */
module Depth {
  import opened Seqs
  import opened Graphs
  import Kahn

  /**
   * `Levelled(layers, level)`: the pair the source returns, the level -> vertices multimap
   * as one list per level (in insertion order) and the vertex -> level table.
   * `Diverges(stuck)`: the source never returns; `stuck` are the vertices left without a level.
   */
  datatype Outcome = Levelled(layers: seq<seq<int>>, level: map<int, int>) | Diverges(stuck: set<int>)

  /** Levels are natural numbers, and level 0 is exactly the vertices without predecessors. */
  ghost predicate ZeroIsSource(g: Graph, level: map<int, int>) {
    forall v :: v in level ==> level[v] >= 0 && (level[v] == 0 <==> Pred(g, v) == [])
  }

  /** Every predecessor of a levelled vertex is levelled, strictly lower. */
  ghost predicate PredsLower(g: Graph, level: map<int, int>) {
    forall v, p :: v in level && p in Pred(g, v) ==> p in level && level[p] < level[v]
  }

  /** Some predecessor of `v` is at level `j`. */
  ghost predicate PredAt(g: Graph, level: map<int, int>, v: int, j: int) {
    exists p :: p in Pred(g, v) && p in level && level[p] == j
  }

  /** A vertex above level 0 has a predecessor exactly one level lower. */
  ghost predicate TightAt(g: Graph, level: map<int, int>, v: int)
    requires v in level
  {
    level[v] > 0 ==> PredAt(g, level, v, level[v] - 1)
  }

  /**
   * Every levelled vertex is tight. (The trigger keeps the solver from chasing the lower
   * predecessor's own lower predecessor, and so on.)
   */
  ghost predicate Tight(g: Graph, level: map<int, int>) {
    forall v {:trigger TightAt(g, level, v)} :: v in level ==> TightAt(g, level, v)
  }

  /** The longest-path layering: together these say level(v) = 1 + max of its predecessors' levels. */
  ghost predicate Layered(g: Graph, level: map<int, int>) {
    ZeroIsSource(g, level) && PredsLower(g, level) && Tight(g, level)
  }

  /** Some predecessor of `v` is in `s`. */
  ghost predicate HasPredIn(g: Graph, v: int, s: set<int>) {
    exists p :: p in Pred(g, v) && p in s
  }

  /**
   * Every vertex of `s` waits on another vertex of `s`. (The trigger keeps the solver from
   * chasing that predecessor's own predecessor, and so on.)
   */
  ghost predicate Blocked(g: Graph, s: set<int>) {
    forall v {:trigger HasPredIn(g, v, s)} :: v in s ==> HasPredIn(g, v, s)
  }

  /** `p` steps from each vertex to one of its predecessors. */
  ghost predicate PredWalk(g: Graph, p: seq<int>) {
    forall i :: 0 <= i < |p| - 1 ==> p[i + 1] in Pred(g, p[i])
  }

  /** A closed walk against the edges: the vertices on it lie on a directed cycle. */
  ghost predicate PredCycle(g: Graph, p: seq<int>) {
    |p| >= 2 && p[0] == p[|p| - 1] && PredWalk(g, p)
  }

  /** The test of a pass: not yet levelled, and every predecessor levelled before the pass. */
  function Ready(table: map<int, int>, g: Graph): int -> bool {
    v => v !in table && forall p :: p in Pred(g, v) ==> p in table
  }

  /** The vertices of `order` at level `j`, in order. */
  function InLayer(table: map<int, int>, j: int): int -> bool {
    v => v in table && table[v] == j
  }

  /** `table` with every vertex of `added` put at level `k`. */
  function Assign(table: map<int, int>, added: seq<int>, k: int): (r: map<int, int>)
    ensures forall v :: v in r <==> v in table || v in added
    ensures forall v :: v in r ==> r[v] == if v in added then k else table[v]
  {
    map v | v in table.Keys + Elems(added) :: if v in added then k else table[v]
  }

  /**
   * `layers` is the level -> vertices multimap of `level`: one non-empty list per level
   * 0, 1, ..., listing each vertex of that level once.
   */
  ghost predicate Lists(layers: seq<seq<int>>, level: map<int, int>) {
    && |layers| >= 1
    && (forall j :: 0 <= j < |layers| ==> layers[j] != [] && NoDup(layers[j]))
    && (forall j, v :: 0 <= j < |layers| ==> (v in layers[j] <==> v in level && level[v] == j))
    && (forall v :: v in level ==> 0 <= level[v] < |layers|)
  }

  /** The multimap's values in key order: level 0's vertices, then level 1's, and so on. */
  function InLevelOrder(layers: seq<seq<int>>): (order: seq<int>)
    ensures forall v :: v in order <==> exists j :: 0 <= j < |layers| && v in layers[j]
  {
    if |layers| == 0 then [] else InLevelOrder(layers[..|layers| - 1]) + layers[|layers| - 1]
  }

  /** Walking the multimap of a level table meets every levelled vertex exactly once. */
  lemma {:induction false} LevelOrderOnce(layers: seq<seq<int>>, level: map<int, int>, n: nat)
    requires Lists(layers, level) && n <= |layers|
    ensures NoDup(InLevelOrder(layers[..n]))
    ensures forall v :: v in InLevelOrder(layers[..n]) <==> v in level && level[v] < n
  {
    if n > 0 {
      LevelOrderOnce(layers, level, n - 1);
      assert layers[..n][..n - 1] == layers[..n - 1];
      var front := InLevelOrder(layers[..n - 1]);
      assert InLevelOrder(layers[..n]) == front + layers[n - 1];
      forall x | x in front
        ensures x !in layers[n - 1]
      {
        assert level[x] < n - 1;
      }
      assert NoDup(layers[n - 1]);
      NoDupConcat(front, layers[n - 1]);
    }
  }

  /** `depth(root, succ, pred)` on the graph `g`: levels every vertex the sweep from `root` meets. */
  method Depth(g: Graph, root: int) returns (r: Outcome)
    ensures r.Levelled? ==> forall v :: v in r.level <==> Reachable(Neighbours(g), root, v)
    ensures r.Levelled? ==> Layered(g, r.level) && Lists(r.layers, r.level)
    ensures r.Diverges? ==> exists v :: v in r.stuck
    ensures r.Diverges? ==> forall v :: v in r.stuck ==> Reachable(Neighbours(g), root, v)
    ensures r.Diverges? ==> Blocked(g, r.stuck)
  {
    var order, sources := Kahn.Sources(g, root);
    PredsSwept(g, root, order);
    ReachableRefl(Neighbours(g), root);
    r := Passes(g, order, sources, root);
  }

  /** The passes after the first sweep, over the sweep's vertex order `order`. */
  method Passes(g: Graph, order: seq<int>, sources: seq<int>, ghost root: int) returns (r: Outcome)
    requires NoDup(order) && PredsIn(g, order) && root in order
    requires sources == Filter(order, v => Pred(g, v) == [])
    ensures r.Levelled? ==> forall v :: v in r.level <==> v in order
    ensures r.Levelled? ==> Layered(g, r.level) && Lists(r.layers, r.level)
    ensures r.Diverges? ==> exists v :: v in r.stuck
    ensures r.Diverges? ==> forall v :: v in r.stuck ==> v in order
    ensures r.Diverges? ==> Blocked(g, r.stuck)
  {
    var table := Assign(map[], sources, 0);
    var layers := [sources];
    var k := 0;
    InitLevels(g, order, sources, table);
    while |table| < |order|
      invariant Levels(g, order, table, k) == true
      invariant LayersAre(order, table, layers, k) == true
      decreases |order| - |table|
    {
      var added := Filter(order, Ready(table, g));
      if added == [] {
        var stuck := Elems(order) - table.Keys;
        KeysWithin(order, table);
        StuckWhenNothingReady(g, order, table, stuck);
        return Diverges(stuck);
      }
      var table' := Assign(table, added, k + 1);
      PassKeepsLevels(g, order, table, k, added, table');
      PassKeepsLayers(order, table, layers, k, Ready(table, g), added, table');
      GrowsTable(table, added, table');
      table, layers, k := table', layers + [added], k + 1;
    }
    FinishTable(order, table, k);
    FinishLayers(g, root, order, table, layers, k);
    return Levelled(layers, table);
  }

  /** The sweep's vertices are closed under predecessors. */
  ghost predicate PredsIn(g: Graph, order: seq<int>) {
    forall v, p :: v in order && p in Pred(g, v) ==> p in order
  }

  /**
   * The loop invariant after pass `k`: the table levels only swept vertices, at most at `k`,
   * as a layering; every swept vertex still without a level has a predecessor that is
   * unlevelled or was levelled in pass `k` itself.
   */
  ghost predicate Levels(g: Graph, order: seq<int>, table: map<int, int>, k: int) {
    && NoDup(order)
    && PredsIn(g, order)
    && (forall v :: v in table ==> v in order && table[v] <= k)
    && Layered(g, table)
    && (forall v :: v in order && v !in table ==> Waiting(g, table, v, k))
  }

  /** `v` has predecessors, and one of them was not levelled before pass `k`. */
  ghost predicate Waiting(g: Graph, table: map<int, int>, v: int, k: int) {
    Pred(g, v) != [] && exists p :: p in Pred(g, v) && (p !in table || table[p] == k)
  }

  /** The lists built so far are the table's levels 0..k, each in sweep order. */
  ghost predicate LayersAre(order: seq<int>, table: map<int, int>, layers: seq<seq<int>>, k: int) {
    && k >= 0 && |layers| == k + 1
    && (forall j :: 0 <= j <= k ==> layers[j] == Filter(order, InLayer(table, j)))
    && (forall j :: 1 <= j <= k ==> layers[j] != [])
  }

  lemma PredsSwept(g: Graph, root: int, order: seq<int>)
    requires forall v :: v in order <==> Reachable(Neighbours(g), root, v)
    ensures PredsIn(g, order)
  {
    forall v, p | v in order && p in Pred(g, v)
      ensures p in order
    {
      assert p in Adj(Neighbours(g), v);
      ReachableStep(Neighbours(g), root, v, p);
    }
  }

  lemma InitLevels(g: Graph, order: seq<int>, sources: seq<int>, table: map<int, int>)
    requires NoDup(order) && PredsIn(g, order)
    requires sources == Filter(order, v => Pred(g, v) == [])
    requires table == Assign(map[], sources, 0)
    ensures Levels(g, order, table, 0)
    ensures LayersAre(order, table, [sources], 0)
  {
    forall v | v in order && v !in table
      ensures Waiting(g, table, v, 0)
    {
      var p := Pred(g, v)[0];
      assert p in Pred(g, v);
    }
    FilterExt(order, v => Pred(g, v) == [], InLayer(table, 0));
  }

  /** One pass that levels `added` at `k + 1` keeps the invariant. */
  lemma PassKeepsLevels(g: Graph, order: seq<int>, table: map<int, int>, k: int,
                        added: seq<int>, table': map<int, int>)
    requires Levels(g, order, table, k) && k >= 0
    requires added == Filter(order, Ready(table, g))
    requires table' == Assign(table, added, k + 1)
    ensures Levels(g, order, table', k + 1)
  {
    AddedReady(g, order, table, k, added);
    AddedLayered(g, table, k, added, table');
    LeftWaiting(g, order, table, k, added, table');
  }

  /** The vertices a pass levels were waiting only on levelled vertices, one of them at `k`. */
  lemma AddedReady(g: Graph, order: seq<int>, table: map<int, int>, k: int, added: seq<int>)
    requires forall v :: v in order && v !in table ==> Waiting(g, table, v, k)
    requires added == Filter(order, Ready(table, g))
    ensures forall v :: v in added ==> v !in table && forall p :: p in Pred(g, v) ==> p in table
    ensures forall v :: v in added ==> Pred(g, v) != [] && PredAt(g, table, v, k)
  {
    forall v | v in added
      ensures v !in table && forall p :: p in Pred(g, v) ==> p in table
      ensures Pred(g, v) != [] && PredAt(g, table, v, k)
    {
      assert Ready(table, g)(v) && Waiting(g, table, v, k);
      var p :| p in Pred(g, v) && (p !in table || table[p] == k);
      assert p in table;
    }
  }

  /** A vertex a pass leaves out still waits on a vertex that is unlevelled or was just levelled. */
  lemma LeftWaiting(g: Graph, order: seq<int>, table: map<int, int>, k: int,
                    added: seq<int>, table': map<int, int>)
    requires forall v :: v in order && v !in table ==> Waiting(g, table, v, k)
    requires added == Filter(order, Ready(table, g))
    requires table' == Assign(table, added, k + 1)
    ensures forall v :: v in order && v !in table' ==> Waiting(g, table', v, k + 1)
  {
    forall v | v in order && v !in table'
      ensures Waiting(g, table', v, k + 1)
    {
      assert !Ready(table, g)(v) && Waiting(g, table, v, k);
      var p :| p in Pred(g, v) && p !in table;
      assert p !in table' || table'[p] == k + 1;
    }
  }

  /** Levelling vertices whose predecessors are all at most at `k`, one at exactly `k`, keeps a layering. */
  lemma AddedLayered(g: Graph, table: map<int, int>, k: int, added: seq<int>, table': map<int, int>)
    requires Layered(g, table) && k >= 0
    requires forall v :: v in table ==> table[v] <= k
    requires forall v :: v in added ==> v !in table
    requires forall v, p :: v in added && p in Pred(g, v) ==> p in table
    requires forall v :: v in added ==> Pred(g, v) != [] && PredAt(g, table, v, k)
    requires forall v :: v in table' <==> v in table || v in added
    requires forall v :: v in table' ==> table'[v] == if v in added then k + 1 else table[v]
    ensures Layered(g, table')
  {
    AddedZero(g, table, k, added, table');
    AddedLower(g, table, k, added, table');
    AddedTight(g, table, k, added, table');
  }

  lemma AddedZero(g: Graph, table: map<int, int>, k: int, added: seq<int>, table': map<int, int>)
    requires ZeroIsSource(g, table) && k >= 0
    requires forall v :: v in added ==> Pred(g, v) != []
    requires forall v :: v in table' <==> v in table || v in added
    requires forall v :: v in table' ==> table'[v] == if v in added then k + 1 else table[v]
    ensures ZeroIsSource(g, table')
  {
  }

  lemma AddedLower(g: Graph, table: map<int, int>, k: int, added: seq<int>, table': map<int, int>)
    requires PredsLower(g, table)
    requires forall v :: v in table ==> table[v] <= k
    requires forall v :: v in added ==> v !in table
    requires forall v, p :: v in added && p in Pred(g, v) ==> p in table
    requires forall v :: v in table' <==> v in table || v in added
    requires forall v :: v in table' ==> table'[v] == if v in added then k + 1 else table[v]
    ensures PredsLower(g, table')
  {
    forall v, p | v in table' && p in Pred(g, v)
      ensures p in table' && table'[p] < table'[v]
    {
      assert p in table;
      assert p !in added;
    }
  }

  lemma AddedTight(g: Graph, table: map<int, int>, k: int, added: seq<int>, table': map<int, int>)
    requires Tight(g, table)
    requires forall v :: v in added ==> v !in table
    requires forall v :: v in added ==> PredAt(g, table, v, k)
    requires forall v :: v in table' <==> v in table || v in added
    requires forall v :: v in table' ==> table'[v] == if v in added then k + 1 else table[v]
    ensures Tight(g, table')
  {
    forall v | v in table'
      ensures TightAt(g, table', v)
    {
      var j := table'[v] - 1;
      if v in added {
        assert PredAt(g, table, v, j);
        var p :| p in Pred(g, v) && p in table && table[p] == j;
        assert table'[p] == j;
      } else if table[v] > 0 {
        assert TightAt(g, table, v) && PredAt(g, table, v, j);
        var p :| p in Pred(g, v) && p in table && table[p] == j;
        assert table'[p] == j;
      }
      assert table'[v] > 0 ==> PredAt(g, table', v, j);
    }
  }

  lemma PassKeepsLayers(order: seq<int>, table: map<int, int>, layers: seq<seq<int>>, k: int,
                        ready: int -> bool, added: seq<int>, table': map<int, int>)
    requires forall v :: v in table ==> table[v] <= k
    requires LayersAre(order, table, layers, k)
    requires forall v :: ready(v) ==> v !in table
    requires added == Filter(order, ready) && added != []
    requires table' == Assign(table, added, k + 1)
    ensures LayersAre(order, table', layers + [added], k + 1)
  {
    var layers' := layers + [added];
    forall j | 0 <= j <= k
      ensures layers'[j] == Filter(order, InLayer(table', j))
    {
      forall x | x in order
        ensures InLayer(table, j)(x) == InLayer(table', j)(x)
      {
        if x in added {
          assert ready(x);
        } else {
          assert x in table' <==> x in table;
        }
      }
      FilterExt(order, InLayer(table, j), InLayer(table', j));
    }
    forall x | x in order
      ensures ready(x) == InLayer(table', k + 1)(x)
    {
      if x in table {
        assert x !in added;
      }
    }
    FilterExt(order, ready, InLayer(table', k + 1));
  }

  /** A pass that levels something grows the table. */
  lemma GrowsTable(table: map<int, int>, added: seq<int>, table': map<int, int>)
    requires added != [] && added[0] !in table
    requires forall v :: v in table' <==> v in table || v in added
    ensures |table'| > |table|
  {
    var x := added[0];
    forall v | v in table.Keys
      ensures v in table'.Keys
    {
      assert v in table;
    }
    assert x in table'.Keys - table.Keys;
    ProperSubsetCard(table.Keys, table'.Keys);
  }

  /** A table of swept vertices is no larger than the sweep, and as large only when it holds all of it. */
  lemma KeysWithin(order: seq<int>, table: map<int, int>)
    requires NoDup(order)
    requires forall v :: v in table ==> v in order
    ensures |table| >= |order| ==> forall v :: v in order ==> v in table
    ensures |table| < |order| ==> exists v :: v in order && v !in table
  {
    var K := table.Keys;
    var E := Elems(order);
    forall v | v in K
      ensures v in E
    {
    }
    NoDupCard(order);
    if K != E {
      ProperSubsetCard(K, E);
      assert exists v :: v in E && v !in K;
      var v :| v in E && v !in K;
      assert v in order && v !in table;
    }
  }

  /** A pass that levels nothing leaves vertices that each wait on another of them. */
  lemma StuckWhenNothingReady(g: Graph, order: seq<int>, table: map<int, int>, stuck: set<int>)
    requires PredsIn(g, order)
    requires exists v :: v in order && v !in table
    requires forall v :: v in order ==> !Ready(table, g)(v)
    requires stuck == Elems(order) - table.Keys
    ensures exists v :: v in stuck
    ensures forall v :: v in stuck ==> v in order
    ensures Blocked(g, stuck)
  {
    var w :| w in order && w !in table;
    assert w in stuck;
    forall v | v in stuck
      ensures HasPredIn(g, v, stuck)
    {
      assert !Ready(table, g)(v);
      var p :| p in Pred(g, v) && p !in table;
      assert p in order;
    }
  }

  /** At the loop's exit the table holds every swept vertex. */
  lemma FinishTable(order: seq<int>, table: map<int, int>, k: int)
    requires NoDup(order) && forall v :: v in table ==> v in order
    requires |table| >= |order|
    ensures forall v :: v in table <==> v in order
  {
    KeysWithin(order, table);
  }

  /** At the loop's exit the lists hold the levels 0..k, none of them empty. */
  lemma FinishLayers(g: Graph, root: int, order: seq<int>, table: map<int, int>, layers: seq<seq<int>>, k: int)
    requires Levels(g, order, table, k) && LayersAre(order, table, layers, k)
    requires root in table
    ensures Lists(layers, table)
  {
    LayerMembers(order, table, layers, k);
    var u := LevelZero(g, table, root);
    assert u in layers[0];
  }

  /** The lists hold exactly the table's levels, each vertex once. */
  lemma LayerMembers(order: seq<int>, table: map<int, int>, layers: seq<seq<int>>, k: int)
    requires NoDup(order)
    requires forall v :: v in table ==> v in order && table[v] <= k
    requires LayersAre(order, table, layers, k)
    ensures forall j, v :: 0 <= j < |layers| ==> (v in layers[j] <==> v in table && table[v] == j)
    ensures forall j :: 0 <= j < |layers| ==> NoDup(layers[j])
  {
    forall j, v | 0 <= j < |layers|
      ensures v in layers[j] <==> v in table && table[v] == j
    {
      assert layers[j] == Filter(order, InLayer(table, j));
    }
  }

  /** Following tight predecessors from any levelled vertex ends at level 0. */
  lemma LevelZero(g: Graph, table: map<int, int>, v: int) returns (u: int)
    requires Layered(g, table) && v in table
    ensures u in table && table[u] == 0
    decreases table[v]
  {
    if table[v] == 0 {
      u := v;
    } else {
      assert TightAt(g, table, v);
      var p :| p in Pred(g, v) && p in table && table[p] == table[v] - 1;
      u := LevelZero(g, table, p);
    }
  }

  /**
   * The layering is unique: two layerings of the same vertices agree. So the levels the
   * passes compute are the longest-path levels, whatever order the sweep visits vertices in.
   */
  lemma LayeredUnique(g: Graph, l1: map<int, int>, l2: map<int, int>)
    requires Layered(g, l1) && Layered(g, l2) && l1.Keys == l2.Keys
    ensures l1 == l2
  {
    forall v | v in l1
      ensures l1[v] == l2[v]
    {
      SameLevel(g, l1, l2, v);
    }
  }

  lemma {:induction false} SameLevel(g: Graph, l1: map<int, int>, l2: map<int, int>, v: int)
    requires Layered(g, l1) && Layered(g, l2) && l1.Keys == l2.Keys
    requires v in l1
    ensures l1[v] == l2[v]
    decreases l1[v]
  {
    if l1[v] > 0 {
      assert TightAt(g, l1, v) && PredAt(g, l1, v, l1[v] - 1);
      var p1 :| p1 in Pred(g, v) && p1 in l1 && l1[p1] == l1[v] - 1;
      SameLevel(g, l1, l2, p1);
      assert l2[v] >= l1[v];
      assert l2[v] > 0;
      assert TightAt(g, l2, v) && PredAt(g, l2, v, l2[v] - 1);
      var p2 :| p2 in Pred(g, v) && p2 in l2 && l2[p2] == l2[v] - 1;
      SameLevel(g, l1, l2, p2);
    }
  }

  /** Walking against the edges from a levelled vertex drops at least one level per step. */
  lemma {:induction false} WalkDescends(g: Graph, level: map<int, int>, w: seq<int>)
    requires Layered(g, level) && PredWalk(g, w)
    requires |w| >= 1 && w[0] in level
    ensures forall i :: 0 <= i < |w| ==> w[i] in level && level[w[i]] <= level[w[0]] - i
  {
    if |w| > 1 {
      var init := w[..|w| - 1];
      WalkDescends(g, level, init);
      var n := |w| - 1;
      assert init[n - 1] == w[n - 1];
      assert w[n] in Pred(g, w[n - 1]);
    }
  }

  /** A vertex with a level is on no cycle: had the source returned, no swept vertex lies on one. */
  lemma LevelledOffCycles(g: Graph, level: map<int, int>, w: seq<int>)
    requires Layered(g, level) && PredCycle(g, w)
    ensures w[0] !in level
  {
    if w[0] in level {
      WalkDescends(g, level, w);
      assert false;
    }
  }

  /**
   * Vertices that each wait on another of them hold a cycle (followed backwards), so a
   * divergent run always has one among the swept vertices.
   */
  lemma StuckHoldsCycle(g: Graph, stuck: set<int>) returns (w: seq<int>)
    requires exists v :: v in stuck
    requires Blocked(g, stuck)
    ensures PredCycle(g, w)
    ensures forall i :: 0 <= i < |w| ==> w[i] in stuck
  {
    var walk := LongWalk(g, stuck);
    var i, j := Repeat(walk, stuck);
    w := walk[i..j + 1];
    forall k | 0 <= k < |w| - 1
      ensures w[k + 1] in Pred(g, w[k])
    {
      assert w[k] == walk[i + k] && w[k + 1] == walk[i + k + 1];
    }
  }

  /** A walk inside `stuck` one vertex longer than `stuck` has elements. */
  lemma LongWalk(g: Graph, stuck: set<int>) returns (walk: seq<int>)
    requires exists v :: v in stuck
    requires Blocked(g, stuck)
    ensures |walk| == |stuck| + 1 && PredWalk(g, walk)
    ensures forall i :: 0 <= i < |walk| ==> walk[i] in stuck
  {
    var x :| x in stuck;
    walk := [x];
    while |walk| <= |stuck|
      invariant 1 <= |walk| <= |stuck| + 1 && PredWalk(g, walk)
      invariant forall i :: 0 <= i < |walk| ==> walk[i] in stuck
      decreases |stuck| + 1 - |walk|
    {
      var last := walk[|walk| - 1];
      assert HasPredIn(g, last, stuck);
      var p :| p in Pred(g, last) && p in stuck;
      PredWalkAppend(g, walk, p);
      walk := walk + [p];
    }
  }

  lemma PredWalkAppend(g: Graph, w: seq<int>, p: int)
    requires |w| >= 1 && PredWalk(g, w) && p in Pred(g, w[|w| - 1])
    ensures PredWalk(g, w + [p])
  {
    var w' := w + [p];
    forall i | 0 <= i < |w'| - 1
      ensures w'[i + 1] in Pred(g, w'[i])
    {
      if i < |w| - 1 {
        assert w'[i] == w[i] && w'[i + 1] == w[i + 1];
      }
    }
  }

  /** Pigeonhole: a sequence inside a set, longer than the set, repeats an element. */
  lemma Repeat(walk: seq<int>, s: set<int>) returns (i: nat, j: nat)
    requires |walk| > |s|
    requires forall k :: 0 <= k < |walk| ==> walk[k] in s
    ensures i < j < |walk| && walk[i] == walk[j]
  {
    if NoDup(walk) {
      NoDupCard(walk);
      assert Elems(walk) <= s;
      SubsetCardLe(Elems(walk), s);
      assert false;
    }
    i, j :| 0 <= i < j < |walk| && walk[i] == walk[j];
  }

  lemma SubsetCardLe(a: set<int>, b: set<int>)
    requires a <= b
    ensures |a| <= |b|
  {
    if a != b {
      ProperSubsetCard(a, b);
    }
  }
}

=== FILE: dfs.dfy ===
/**
 * Depth-first search (`celaeno::graph::dfs::dfs`): a LIFO worklist that pushes every
 * neighbour, marks a vertex visited when it is popped for the first time, and a callback,
 * called on that vertex before its neighbours are pushed, that may stop the search.
 * The model returns the sequence of vertices handed to the callback.
 */
module Dfs {
  import opened Seqs
  import opened Graphs

  /** The last entry of `a`'s list for `v`: the one pushed last, so popped first. */
  function LastAdj(a: Adjacency, v: int): int
    requires Adj(a, v) != []
  {
    Adj(a, v)[|Adj(a, v)| - 1]
  }

  /**
   * Visit `i + 1` follows visit `i` depth-first: when the last neighbour of visit `i` has
   * not been visited yet, it is the very next vertex visited.
   */
  ghost predicate DeepensAt(a: Adjacency, visits: seq<int>, i: nat)
    requires i + 1 < |visits|
  {
    Adj(a, visits[i]) != [] && LastAdj(a, visits[i]) !in visits[..i + 1] ==>
      visits[i + 1] == LastAdj(a, visits[i])
  }

  ghost predicate Deepens(a: Adjacency, visits: seq<int>) {
    forall i :: 0 <= i < |visits| - 1 ==> DeepensAt(a, visits, i)
  }

  /** Runs the search from `root` over the neighbour lists `a`; `stop` is the callback. */
  method Dfs(a: Adjacency, root: int, stop: int -> bool) returns (visits: seq<int>)
    ensures |visits| >= 1 && visits[0] == root
    ensures NoDup(visits)
    ensures forall i :: 0 <= i < |visits| - 1 ==> !stop(visits[i])
    ensures forall v :: v in visits ==> Reachable(a, root, v)
    ensures !stop(visits[|visits| - 1]) ==> forall v :: Reachable(a, root, v) ==> v in visits
    ensures Deepens(a, visits)
  {
    var s := [root];
    var t: set<int> := {};
    visits := [];
    ghost var U := CoverOf(a, root);
    InitInv(a, root, U);
    while s != []
      invariant Inv(a, root, U, visits, s, t) && Covers(a, U)
      invariant NoneStops(stop, visits)
      invariant Deepens(a, visits) && Pending(a, visits, s, t)
      decreases |U - t|, |s|
    {
      var c := s[|s| - 1];
      var rest := s[..|s| - 1];
      if c in t {
        PopSeen(a, root, U, visits, s, t, c, rest);
        s := rest;
      } else {
        var neighbours := Adj(a, c);
        VisitKeepsInv(a, root, U, visits, s, t, c, rest);
        VisitDeepens(a, visits, s, t, c);
        visits := visits + [c];
        t := t + {c};
        if stop(c) {
          return;
        }
        NoneStopsAppend(stop, visits[..|visits| - 1], c);
        s := rest + neighbours;
      }
    }
    FinishExhausted(a, root, U, visits, t);
  }

  /**
   * The loop invariant: `t` marks exactly the visited vertices, the stack holds only vertices
   * of `U` reachable from the root, and every neighbour of a visited vertex is marked or stacked.
   */
  ghost predicate Inv(a: Adjacency, root: int, U: set<int>, visits: seq<int>, s: seq<int>, t: set<int>)
  {
    && (visits == [] ==> s == [root])
    && (visits != [] ==> visits[0] == root)
    && NoDup(visits)
    && t == Elems(visits)
    && t <= U
    && (forall v :: v in s ==> v in U && Reachable(a, root, v))
    && (forall v :: v in t ==> Reachable(a, root, v))
    && (forall x, y :: x in t && y in Adj(a, x) ==> y in t || y in s)
  }

  /** Until it is visited, the last neighbour of the latest visit sits on top of the stack. */
  ghost predicate Pending(a: Adjacency, visits: seq<int>, s: seq<int>, t: set<int>) {
    visits != [] && Adj(a, visits[|visits| - 1]) != [] && LastAdj(a, visits[|visits| - 1]) !in t ==>
      s != [] && s[|s| - 1] == LastAdj(a, visits[|visits| - 1])
  }

  lemma InitInv(a: Adjacency, root: int, U: set<int>)
    requires root in U
    ensures Inv(a, root, U, [], [root], {})
  {
    ReachableRefl(a, root);
  }

  /** Popping a vertex that is already marked changes nothing but the stack. */
  lemma PopSeen(a: Adjacency, root: int, U: set<int>, visits: seq<int>, s: seq<int>, t: set<int>,
                c: int, rest: seq<int>)
    requires Inv(a, root, U, visits, s, t) && Pending(a, visits, s, t)
    requires s != [] && c == s[|s| - 1] && rest == s[..|s| - 1] && c in t
    ensures Inv(a, root, U, visits, rest, t) && Pending(a, visits, rest, t)
  {
    assert s == rest + [c];
  }

  /** Visiting a fresh vertex and pushing its neighbours keeps the invariant. */
  lemma VisitKeepsInv(a: Adjacency, root: int, U: set<int>, visits: seq<int>, s: seq<int>, t: set<int>,
                      c: int, rest: seq<int>)
    requires Inv(a, root, U, visits, s, t) && Covers(a, U)
    requires s != [] && c == s[|s| - 1] && rest == s[..|s| - 1] && c !in t
    ensures Inv(a, root, U, visits + [c], rest + Adj(a, c), t + {c})
    ensures |U - (t + {c})| < |U - t|
    ensures Pending(a, visits + [c], rest + Adj(a, c), t + {c})
  {
    assert s == rest + [c];
    VisitRecords(root, visits, t, c);
    VisitReaches(a, root, U, s, c, rest);
    VisitCloses(a, t, s, c, rest);
    VisitPending(a, visits, rest, t, c);
    ProperSubsetCard(U - (t + {c}), U - t);
  }

  /** The popped vertex's last neighbour ends up on top of the stack. */
  lemma VisitPending(a: Adjacency, visits: seq<int>, rest: seq<int>, t: set<int>, c: int)
    ensures Pending(a, visits + [c], rest + Adj(a, c), t + {c})
  {
    var v := visits + [c];
    assert v[|v| - 1] == c;
    if Adj(a, c) != [] {
      var s := rest + Adj(a, c);
      assert s[|s| - 1] == Adj(a, c)[|Adj(a, c)| - 1];
    }
  }

  /** Appending a fresh vertex to the visit record keeps it duplicate-free and rooted. */
  lemma VisitRecords(root: int, visits: seq<int>, t: set<int>, c: int)
    requires (visits == [] ==> c == root) && (visits != [] ==> visits[0] == root)
    requires NoDup(visits) && t == Elems(visits) && c !in t
    ensures NoDup(visits + [c]) && Elems(visits + [c]) == t + {c} && (visits + [c])[0] == root
  {
  }

  /** The popped vertex's neighbours are reachable through it and lie in `U`. */
  lemma VisitReaches(a: Adjacency, root: int, U: set<int>, s: seq<int>, c: int, rest: seq<int>)
    requires Covers(a, U) && s == rest + [c]
    requires forall v :: v in s ==> v in U && Reachable(a, root, v)
    ensures forall v :: v in rest + Adj(a, c) ==> v in U && Reachable(a, root, v)
  {
    assert c in s;
    forall v | v in rest + Adj(a, c)
      ensures v in U && Reachable(a, root, v)
    {
      if v in Adj(a, c) {
        ReachableStep(a, root, c, v);
      } else {
        assert v in s;
      }
    }
  }

  lemma VisitCloses(a: Adjacency, t: set<int>, s: seq<int>, c: int, rest: seq<int>)
    requires s == rest + [c]
    requires forall x, y :: x in t && y in Adj(a, x) ==> y in t || y in s
    ensures forall x, y :: x in t + {c} && y in Adj(a, x) ==> y in t + {c} || y in rest + Adj(a, c)
  {
    forall x, y | x in t + {c} && y in Adj(a, x)
      ensures y in t + {c} || y in rest + Adj(a, c)
    {
      if x != c && y != c && y !in t {
        assert y in s;
        assert y in rest;
      }
    }
  }

  /** The vertex just popped is the last neighbour of the previous visit whenever that is fresh. */
  lemma VisitDeepens(a: Adjacency, visits: seq<int>, s: seq<int>, t: set<int>, c: int)
    requires Deepens(a, visits) && Pending(a, visits, s, t) && t == Elems(visits)
    requires s != [] && c == s[|s| - 1] && c !in t
    ensures Deepens(a, visits + [c])
  {
    var v := visits + [c];
    forall i | 0 <= i < |v| - 1
      ensures DeepensAt(a, v, i)
    {
      assert v[..i + 1] == visits[..i + 1];
      if i < |visits| - 1 {
        assert DeepensAt(a, visits, i);
      } else {
        assert visits[..i + 1] == visits;
      }
    }
  }

  lemma FinishExhausted(a: Adjacency, root: int, U: set<int>, visits: seq<int>, t: set<int>)
    requires Inv(a, root, U, visits, [], t)
    ensures visits != [] && visits[0] == root
    ensures forall v :: Reachable(a, root, v) ==> v in visits
  {
    forall v | Reachable(a, root, v)
      ensures v in visits
    {
      ClosedHoldsReachable(a, root, t, v);
    }
  }
}

=== FILE: graph.dfy ===
/**
 * The graph view every stage works through: a finite edge set together with the ordered
 * predecessor and successor lists a caller's `pred`/`succ` callbacks return. `link` and
 * `unlink` become `Link` and `Unlink`, which keep the lists and the edge set in agreement.
 */
module Graphs {
  import opened Seqs

  /** Ordered neighbour lists; a vertex that is not a key has no neighbours. */
  type Adjacency = map<int, seq<int>>

  function Adj(a: Adjacency, v: int): seq<int> {
    if v in a then a[v] else []
  }

  datatype Graph = Graph(edges: set<(int, int)>, succ: Adjacency, pred: Adjacency)

  function Succ(g: Graph, v: int): seq<int> {
    Adj(g.succ, v)
  }

  function Pred(g: Graph, v: int): seq<int> {
    Adj(g.pred, v)
  }

  /** Both ordered lists describe exactly the edge set, and no list repeats a vertex. */
  ghost predicate Valid(g: Graph) {
    SuccAgrees(g) && PredAgrees(g) && ListsNoDup(g)
  }

  ghost predicate SuccAgrees(g: Graph) {
    forall u, v :: (u, v) in g.edges <==> v in Succ(g, u)
  }

  ghost predicate PredAgrees(g: Graph) {
    forall u, v :: (u, v) in g.edges <==> u in Pred(g, v)
  }

  ghost predicate ListsNoDup(g: Graph) {
    forall u :: NoDup(Succ(g, u)) && NoDup(Pred(g, u))
  }

  /** Every vertex on an edge of `edges` has an id greater than `c`: ids `c`, `c-1`, ... are fresh. */
  ghost predicate Below(edges: set<(int, int)>, c: int) {
    forall e :: e in edges ==> e.0 > c && e.1 > c
  }

  /** Adds the edge u -> v, appending to both ordered lists; no change when it exists. */
  function Link(g: Graph, u: int, v: int): (r: Graph)
    requires Valid(g)
    ensures Valid(r)
    ensures r.edges == g.edges + {(u, v)}
    ensures (u, v) !in g.edges ==> Succ(r, u) == Succ(g, u) + [v] && Pred(r, v) == Pred(g, v) + [u]
    ensures (u, v) in g.edges ==> r == g
    ensures forall x :: x != u ==> Succ(r, x) == Succ(g, x)
    ensures forall x :: x != v ==> Pred(r, x) == Pred(g, x)
  {
    if (u, v) in g.edges then g
    else
      var r := Graph(g.edges + {(u, v)}, g.succ[u := Succ(g, u) + [v]], g.pred[v := Pred(g, v) + [u]]);
      LinkKeepsValid(g, u, v, r);
      r
  }

  lemma LinkKeepsValid(g: Graph, u: int, v: int, r: Graph)
    requires Valid(g) && (u, v) !in g.edges
    requires r == Graph(g.edges + {(u, v)}, g.succ[u := Succ(g, u) + [v]], g.pred[v := Pred(g, v) + [u]])
    ensures Valid(r)
  {
    forall a, b
      ensures (a, b) in r.edges <==> b in Succ(r, a)
    {
      if a == u {
        assert Succ(r, a) == Succ(g, u) + [v];
      } else {
        assert Succ(r, a) == Succ(g, a);
      }
    }
    forall a, b
      ensures (a, b) in r.edges <==> a in Pred(r, b)
    {
      if b == v {
        assert Pred(r, b) == Pred(g, v) + [u];
      } else {
        assert Pred(r, b) == Pred(g, b);
      }
    }
    forall x
      ensures NoDup(Succ(r, x)) && NoDup(Pred(r, x))
    {
      assert NoDup(Succ(g, x)) && NoDup(Pred(g, x));
      if x == u {
        assert v !in Succ(g, u);
        NoDupAppend(Succ(g, u), v);
      }
      if x == v {
        assert u !in Pred(g, v);
        NoDupAppend(Pred(g, v), u);
      }
    }
  }

  /** Every successor list entry is an edge. */
  lemma SuccIsEdge(g: Graph, u: int, i: int)
    requires Valid(g) && 0 <= i < |Succ(g, u)|
    ensures (u, Succ(g, u)[i]) in g.edges
  {
    assert SuccAgrees(g);
    var x := Succ(g, u)[i];
    assert x in Succ(g, u);
    assert forall a, b :: b in Succ(g, a) ==> (a, b) in g.edges;
  }

  /** A new edge is a plain update of the two lists it belongs to. */
  lemma LinkFresh(g: Graph, u: int, v: int)
    requires Valid(g) && (u, v) !in g.edges
    ensures Link(g, u, v) == Graph(g.edges + {(u, v)}, g.succ[u := Succ(g, u) + [v]], g.pred[v := Pred(g, v) + [u]])
  {
  }

  lemma NoDupAppend(s: seq<int>, x: int)
    requires NoDup(s) && x !in s
    ensures NoDup(s + [x])
  {
  }

  /** Removes the edge u -> v from the set and from both lists; no change when it is absent. */
  function Unlink(g: Graph, u: int, v: int): (r: Graph)
    requires Valid(g)
    ensures Valid(r)
    ensures r.edges == g.edges - {(u, v)}
    ensures (u, v) in g.edges ==> Succ(r, u) == Remove(Succ(g, u), v) && Pred(r, v) == Remove(Pred(g, v), u)
    ensures (u, v) in g.edges ==> |Succ(r, u)| == |Succ(g, u)| - 1 && |Pred(r, v)| == |Pred(g, v)| - 1
    ensures (u, v) !in g.edges ==> r == g
    ensures forall x :: x != u ==> Succ(r, x) == Succ(g, x)
    ensures forall x :: x != v ==> Pred(r, x) == Pred(g, x)
  {
    if (u, v) !in g.edges then g
    else
      var r := Graph(g.edges - {(u, v)}, g.succ[u := Remove(Succ(g, u), v)], g.pred[v := Remove(Pred(g, v), u)]);
      UnlinkKeepsValid(g, u, v, r);
      r
  }

  lemma UnlinkKeepsValid(g: Graph, u: int, v: int, r: Graph)
    requires Valid(g) && (u, v) in g.edges
    requires r == Graph(g.edges - {(u, v)}, g.succ[u := Remove(Succ(g, u), v)], g.pred[v := Remove(Pred(g, v), u)])
    ensures Valid(r)
  {
    forall a, b
      ensures (a, b) in r.edges <==> b in Succ(r, a)
    {
      if a == u {
        assert Succ(r, a) == Remove(Succ(g, u), v);
      } else {
        assert Succ(r, a) == Succ(g, a);
      }
    }
    forall a, b
      ensures (a, b) in r.edges <==> a in Pred(r, b)
    {
      if b == v {
        assert Pred(r, b) == Remove(Pred(g, v), u);
      } else {
        assert Pred(r, b) == Pred(g, b);
      }
    }
    forall x
      ensures NoDup(Succ(r, x)) && NoDup(Pred(r, x))
    {
      assert NoDup(Succ(g, x)) && NoDup(Pred(g, x));
    }
  }

  /** The graph with no edges. */
  function Empty(): (r: Graph)
    ensures Valid(r) && r.edges == {}
  {
    Graph({}, map[], map[])
  }

  /** The same graph with every edge turned round: the successor and predecessor lists swap. */
  function Reverse(g: Graph): (r: Graph)
    ensures forall v :: Succ(r, v) == Pred(g, v) && Pred(r, v) == Succ(g, v)
    ensures forall u, v :: (u, v) in r.edges <==> (v, u) in g.edges
    ensures Valid(g) ==> Valid(r)
  {
    Graph(set e | e in g.edges :: (e.1, e.0), g.pred, g.succ)
  }

  /** The neighbour callback the traversals use: predecessors followed by successors. */
  function Neighbours(g: Graph): (a: Adjacency)
    ensures forall v :: Adj(a, v) == Pred(g, v) + Succ(g, v)
  {
    map v | v in g.succ.Keys + g.pred.Keys :: Pred(g, v) + Succ(g, v)
  }

  /** Every vertex that occurs in an adjacency, as a key or in a list. */
  function Universe(a: Adjacency): set<int> {
    a.Keys + set v, x | v in a && x in a[v] :: x
  }

  lemma AdjInUniverse(a: Adjacency, v: int)
    ensures forall x :: x in Adj(a, v) ==> x in Universe(a)
  {
  }

  /** Every vertex a list of `a` mentions is in `U`. */
  ghost predicate Covers(a: Adjacency, U: set<int>) {
    forall v, x :: x in Adj(a, v) ==> x in U
  }

  /** A finite set holding `root` and every vertex the lists of `a` mention. */
  lemma CoverOf(a: Adjacency, root: int) returns (U: set<int>)
    ensures Covers(a, U) && root in U
  {
    U := Universe(a) + {root};
    forall v ensures forall x :: x in Adj(a, v) ==> x in U {
      AdjInUniverse(a, v);
    }
  }

  /** A walk along adjacency lists. */
  ghost predicate IsPath(a: Adjacency, p: seq<int>) {
    |p| >= 1 && forall i :: 0 <= i < |p| - 1 ==> p[i + 1] in Adj(a, p[i])
  }

  ghost predicate Reachable(a: Adjacency, from: int, to: int) {
    exists p :: IsPath(a, p) && p[0] == from && p[|p| - 1] == to
  }

  lemma ReachableRefl(a: Adjacency, v: int)
    ensures Reachable(a, v, v)
  {
    assert IsPath(a, [v]);
  }

  lemma ReachableStep(a: Adjacency, from: int, x: int, y: int)
    requires Reachable(a, from, x) && y in Adj(a, x)
    ensures Reachable(a, from, y)
  {
    var p :| IsPath(a, p) && p[0] == from && p[|p| - 1] == x;
    var p' := p + [y];
    assert IsPath(a, p');
  }

  /** With every edge above `c`, whatever an id above `c` reaches along the neighbour lists is above `c`. */
  lemma ReachableBelow(g: Graph, from: int, to: int, c: int)
    requires Valid(g) && Below(g.edges, c) && from > c
    requires Reachable(Neighbours(g), from, to)
    ensures to > c
  {
    var ends := EndsAbove(g, from, c);
    ClosedHoldsReachable(Neighbours(g), from, ends, to);
  }

  /** `from` and the ends of every edge: a set closed under the neighbour lists, all above `c`. */
  lemma EndsAbove(g: Graph, from: int, c: int) returns (ends: set<int>)
    requires Valid(g) && Below(g.edges, c) && from > c
    ensures from in ends && forall x :: x in ends ==> x > c
    ensures forall x, y :: x in ends && y in Adj(Neighbours(g), x) ==> y in ends
  {
    ends := {from} + (set e | e in g.edges :: e.0) + (set e | e in g.edges :: e.1);
    forall x, y | x in ends && y in Adj(Neighbours(g), x)
      ensures y in ends
    {
      if y in Pred(g, x) {
        assert (y, x) in g.edges;
      } else {
        assert (x, y) in g.edges;
      }
    }
  }

  /** A set that holds `from` and is closed under adjacency holds everything reachable from it. */
  lemma {:induction false} ClosedHoldsReachable(a: Adjacency, from: int, s: set<int>, to: int)
    requires from in s
    requires forall x, y :: x in s && y in Adj(a, x) ==> y in s
    requires Reachable(a, from, to)
    ensures to in s
  {
    var p :| IsPath(a, p) && p[0] == from && p[|p| - 1] == to;
    var i := 0;
    while i < |p| - 1
      invariant 0 <= i <= |p| - 1
      invariant p[i] in s
    {
      var x, y := p[i], p[i + 1];
      assert x in s && y in Adj(a, x);
      i := i + 1;
    }
  }

  /** Both ends of every pair `k -> m[k]` a matching records. */
  function Ends(m: map<int, int>): set<int> {
    m.Keys + m.Values
  }

  /** No vertex is an end of two different recorded pairs. */
  predicate PairsDisjoint(m: map<int, int>) {
    forall k, j :: k in m && j in m && k != j ==> m[k] != m[j] && k != m[j]
  }

  /** Every recorded partner is a neighbour of the vertex it is recorded against. */
  ghost predicate Adjacent(a: Adjacency, m: map<int, int>) {
    forall k :: k in m ==> m[k] in Adj(a, k)
  }
}

=== FILE: hem.dfy ===
/**
 * Heavy-edge matching (`celaeno::graph::hem::hem`). The vertices 0 .. size-1 are visited in a
 * random order; a visited vertex that is not yet saturated looks at its neighbours that are not
 * saturated either and, if there is one, is matched with the one the scan over that list keeps;
 * both ends become saturated and the pair is recorded against the visited vertex.
 *
 * The shuffle becomes the parameter `order`, a permutation of 0 .. size-1. The scan in the
 * source compares the candidate's weight with the current choice's id rather than with its
 * weight; `Rule.AsWritten` models that and `Rule.Heaviest` the evidently intended comparison.
 * Every structural property below holds under either rule.
 */
module Hem {
  import opened Seqs
  import opened Graphs

  /** `order` holds each of 0 .. size-1 exactly once: what `iota` followed by `shuffle` yields. */
  predicate IsPermutation(order: seq<int>, size: nat) {
    && |order| == size
    && NoDup(order)
    && (forall i :: 0 <= i < |order| ==> 0 <= order[i] < size)
  }

  /** The neighbours of a vertex that are not saturated, in list order (the `remove_if` pass). */
  function Unmarked(s: seq<int>, saturated: set<int>): (r: seq<int>)
    ensures forall x :: x in r <==> x in s && x !in saturated
  {
    if |s| == 0 then []
    else if s[0] in saturated then Unmarked(s[1..], saturated)
    else [s[0]] + Unmarked(s[1..], saturated)
  }

  /** The scan as written: a later candidate replaces the choice when its weight exceeds the choice's id. */
  function ScanAsWritten(vas: seq<int>, weight: int -> int): (m: int)
    requires |vas| > 0
    ensures m in vas
    ensures |vas| == 1 ==> m == vas[0]
  {
    if |vas| == 1 then vas[0]
    else
      var m := ScanAsWritten(vas[..|vas| - 1], weight);
      if weight(vas[|vas| - 1]) > m then vas[|vas| - 1] else m
  }

  /** The intended scan: the position of the first candidate of greatest weight. */
  function HeaviestAt(vas: seq<int>, weight: int -> int): (i: nat)
    requires |vas| > 0
    ensures i < |vas|
    ensures forall j :: 0 <= j < |vas| ==> weight(vas[j]) <= weight(vas[i])
    ensures forall j :: 0 <= j < i ==> weight(vas[j]) < weight(vas[i])
  {
    if |vas| == 1 then 0
    else
      var i := HeaviestAt(vas[..|vas| - 1], weight);
      if weight(vas[i]) < weight(vas[|vas| - 1]) then |vas| - 1 else i
  }

  /** Which comparison the scan uses. */
  datatype Rule = AsWritten | Heaviest

  /** The partner the scan keeps among the candidates `vas`. */
  function Choose(rule: Rule, vas: seq<int>, weight: int -> int): (m: int)
    requires |vas| > 0
    ensures m in vas
    ensures rule == Heaviest ==> forall x :: x in vas ==> weight(x) <= weight(m)
  {
    match rule
    case AsWritten => ScanAsWritten(vas, weight)
    case Heaviest => vas[HeaviestAt(vas, weight)]
  }

  /** The saturated set and the recorded pairs. */
  datatype State = State(saturated: set<int>, edges: map<int, int>)

  /**
   * One pass of the loop body for the vertex `vx`: skipped when saturated; otherwise, when some
   * neighbour is unsaturated, matched with the scan's choice, both saturated, and the pair
   * inserted (`unordered_map::insert`, which keeps an existing entry).
   */
  function Visit(a: Adjacency, weight: int -> int, rule: Rule, vx: int, st: State): (r: State)
    ensures st.saturated <= r.saturated
    ensures forall k :: k in st.edges ==> k in r.edges && r.edges[k] == st.edges[k]
    ensures vx in st.saturated ==> r == st
    ensures (forall u :: u in Adj(a, vx) ==> u in st.saturated) ==> r == st
    ensures r != st ==> vx !in st.saturated && vx in r.saturated
    ensures forall k :: k in r.edges && k !in st.edges ==>
      && k == vx && vx !in st.saturated
      && r.edges[k] in Adj(a, vx) && r.edges[k] !in st.saturated
      && r.saturated == st.saturated + {vx, r.edges[k]}
    ensures rule == Heaviest && vx in r.edges && vx !in st.edges ==>
      forall u :: u in Adj(a, vx) && u !in st.saturated ==> weight(u) <= weight(r.edges[vx])
  {
    if vx in st.saturated then st
    else
      var vas := Unmarked(Adj(a, vx), st.saturated);
      if |vas| == 0 then st
      else
        var m := Choose(rule, vas, weight);
        State(st.saturated + {m, vx}, if vx in st.edges then st.edges else st.edges[vx := m])
  }

  /** The loop: visit the vertices of `order` from the front. */
  function Sweep(a: Adjacency, weight: int -> int, rule: Rule, order: seq<int>, st: State): (r: State)
    ensures st.saturated <= r.saturated
    ensures forall k :: k in st.edges ==> k in r.edges && r.edges[k] == st.edges[k]
    decreases |order|
  {
    if |order| == 0 then st
    else Sweep(a, weight, rule, order[1..], Visit(a, weight, rule, order[0], st))
  }

  /** What the loop keeps: exactly the ends of the recorded pairs are saturated, and no two pairs meet. */
  ghost predicate Good(st: State) {
    && (forall k :: k in st.edges ==> k in st.saturated && st.edges[k] in st.saturated)
    && (forall x :: x in st.saturated ==> x in st.edges || exists k :: k in st.edges && st.edges[k] == x)
    && PairsDisjoint(st.edges)
  }

  /** In a good state the saturated vertices are the ends of the pairs. */
  lemma EndsOfGood(st: State, x: int)
    requires Good(st)
    ensures x in st.saturated ==> x in Ends(st.edges)
  {
    if x in st.saturated && x !in st.edges {
      var k :| k in st.edges && st.edges[k] == x;
      assert x in st.edges.Values;
    }
  }

  lemma VisitGood(a: Adjacency, weight: int -> int, rule: Rule, vx: int, st: State)
    requires Good(st)
    ensures Good(Visit(a, weight, rule, vx, st))
  {
    var r := Visit(a, weight, rule, vx, st);
    if r != st {
      var vas := Unmarked(Adj(a, vx), st.saturated);
      var m := Choose(rule, vas, weight);
      assert vx !in st.edges;
      assert r.edges == st.edges[vx := m];
      assert m !in st.saturated;
      forall x | x in r.saturated
        ensures x in r.edges || exists k :: k in r.edges && r.edges[k] == x
      {
        if x in st.edges {
          assert x in r.edges;
        } else if x in st.saturated {
          var k :| k in st.edges && st.edges[k] == x;
          assert k in r.edges && r.edges[k] == x;
          assert x in r.edges.Values;
        } else {
          assert vx in r.edges && r.edges[vx] == m;
          assert m in r.edges.Values;
        }
      }
      forall k, j | k in r.edges && j in r.edges && k != j
        ensures r.edges[k] != r.edges[j] && k != r.edges[j]
      {
        if k == vx {
          assert r.edges[j] == st.edges[j];
        } else if j == vx {
          assert r.edges[k] == st.edges[k];
        }
      }
    }
  }

  lemma {:induction false} SweepGood(a: Adjacency, weight: int -> int, rule: Rule, order: seq<int>, st: State)
    requires Good(st)
    ensures Good(Sweep(a, weight, rule, order, st))
    decreases |order|
  {
    if |order| > 0 {
      VisitGood(a, weight, rule, order[0], st);
      SweepGood(a, weight, rule, order[1..], Visit(a, weight, rule, order[0], st));
    }
  }

  lemma {:induction false} SweepAdjacent(a: Adjacency, weight: int -> int, rule: Rule, order: seq<int>, st: State)
    requires Adjacent(a, st.edges)
    ensures Adjacent(a, Sweep(a, weight, rule, order, st).edges)
    decreases |order|
  {
    if |order| > 0 {
      var next := Visit(a, weight, rule, order[0], st);
      assert Adjacent(a, next.edges);
      SweepAdjacent(a, weight, rule, order[1..], next);
    }
  }

  /** Every pair is recorded against a vertex of `order`. */
  lemma {:induction false} SweepKeys(a: Adjacency, weight: int -> int, rule: Rule, order: seq<int>, st: State)
    ensures forall k :: k in Sweep(a, weight, rule, order, st).edges ==> k in st.edges || k in order
    decreases |order|
  {
    if |order| > 0 {
      var next := Visit(a, weight, rule, order[0], st);
      SweepKeys(a, weight, rule, order[1..], next);
      assert forall k :: k in next.edges ==> k in st.edges || k == order[0];
    }
  }

  /** A visited vertex ends saturated, or every neighbour of it does. */
  ghost predicate Settled(a: Adjacency, saturated: set<int>, v: int) {
    v in saturated || forall u :: u in Adj(a, v) ==> u in saturated
  }

  lemma {:induction false} SweepSettles(a: Adjacency, weight: int -> int, rule: Rule, order: seq<int>, st: State)
    ensures forall i :: 0 <= i < |order| ==> Settled(a, Sweep(a, weight, rule, order, st).saturated, order[i])
    decreases |order|
  {
    if |order| > 0 {
      var next := Visit(a, weight, rule, order[0], st);
      var r := Sweep(a, weight, rule, order, st);
      SweepSettles(a, weight, rule, order[1..], next);
      assert r == Sweep(a, weight, rule, order[1..], next);
      assert Settled(a, next.saturated, order[0]);
      forall i | 0 <= i < |order|
        ensures Settled(a, r.saturated, order[i])
      {
        if i > 0 {
          assert order[i] == order[1..][i - 1];
        }
      }
    }
  }

  /** `hem` with the scan as written or as intended. */
  function Match(size: nat, order: seq<int>, a: Adjacency, weight: int -> int, rule: Rule): (r: map<int, int>)
    requires IsPermutation(order, size)
    ensures PairsDisjoint(r)
    ensures Adjacent(a, r)
    ensures forall k :: k in r ==> 0 <= k < size
    ensures forall v :: 0 <= v < size ==> v in Ends(r) || forall u :: u in Adj(a, v) ==> u in Ends(r)
    ensures rule == Heaviest ==> HeavyChoices(a, weight, order, r)
  {
    var st := State({}, map[]);
    var fin := Sweep(a, weight, rule, order, st);
    SweepGood(a, weight, rule, order, st);
    SweepAdjacent(a, weight, rule, order, st);
    SweepKeys(a, weight, rule, order, st);
    SweepSettles(a, weight, rule, order, st);
    EveryVertexVisited(order, size);
    forall v | 0 <= v < size
      ensures Settled(a, fin.saturated, v)
    {
      assert v in order;
      var i :| 0 <= i < |order| && order[i] == v;
    }
    forall v | 0 <= v < size
      ensures v in Ends(fin.edges) || forall u :: u in Adj(a, v) ==> u in Ends(fin.edges)
    {
      EndsOfGood(fin, v);
      assert Settled(a, fin.saturated, v);
      forall u | u in Adj(a, v) && v !in fin.saturated
        ensures u in Ends(fin.edges)
      {
        EndsOfGood(fin, u);
      }
    }
    assert rule == Heaviest ==> HeavyChoices(a, weight, order, fin.edges) by {
      if rule == Heaviest {
        SweepHeavy(a, weight, order);
      }
    }
    fin.edges
  }

  /** `u` is an end of a pair recorded against one of the first `i` vertices of `order`. */
  ghost predicate MatchedBefore(r: map<int, int>, order: seq<int>, i: int, u: int) {
    exists j :: 0 <= j < i && j < |order| && order[j] in r && (u == order[j] || u == r[order[j]])
  }

  /**
   * The heavy-edge rule over the whole run: a vertex matched on its turn is matched with a
   * neighbour at least as heavy as every neighbour still free at that turn, that is, every
   * neighbour not an end of a pair recorded against an earlier vertex of `order`.
   */
  ghost predicate HeavyChoices(a: Adjacency, weight: int -> int, order: seq<int>, r: map<int, int>) {
    forall i, u :: 0 <= i < |order| && order[i] in r && u in Adj(a, order[i]) && !MatchedBefore(r, order, i, u) ==>
      weight(u) <= weight(r[order[i]])
  }

  /** Sweeping `p + q` is sweeping `p`, then `q` from where `p` left off. */
  lemma {:induction false} SweepSplit(a: Adjacency, weight: int -> int, rule: Rule, p: seq<int>, q: seq<int>, st: State)
    ensures Sweep(a, weight, rule, p + q, st) == Sweep(a, weight, rule, q, Sweep(a, weight, rule, p, st))
    decreases |p|
  {
    if |p| > 0 {
      assert (p + q)[0] == p[0] && (p + q)[1..] == p[1..] + q;
      SweepSplit(a, weight, rule, p[1..], q, Visit(a, weight, rule, p[0], st));
    } else {
      assert p + q == q;
    }
  }

  /** The state before the turn of `order[i]`, and the final state reached from it. */
  lemma SweepAt(a: Adjacency, weight: int -> int, rule: Rule, order: seq<int>, i: nat)
    requires i < |order|
    ensures var st0 := State({}, map[]);
      var before := Sweep(a, weight, rule, order[..i], st0);
      Sweep(a, weight, rule, order, st0) ==
        Sweep(a, weight, rule, order[i + 1..], Visit(a, weight, rule, order[i], before))
  {
    var st0 := State({}, map[]);
    var before := Sweep(a, weight, rule, order[..i], st0);
    assert order == order[..i] + order[i..];
    SweepSplit(a, weight, rule, order[..i], order[i..], st0);
    assert order[i..][0] == order[i] && order[i..][1..] == order[i + 1..];
  }

  /** A vertex already saturated before the turn of `order[i]` is an end of an earlier pair of the result. */
  lemma SaturatedBefore(a: Adjacency, weight: int -> int, rule: Rule, order: seq<int>, i: nat, u: int)
    requires i < |order|
    requires u in Sweep(a, weight, rule, order[..i], State({}, map[])).saturated
    ensures MatchedBefore(Sweep(a, weight, rule, order, State({}, map[])).edges, order, i, u)
  {
    var st0 := State({}, map[]);
    var before := Sweep(a, weight, rule, order[..i], st0);
    var fin := Sweep(a, weight, rule, order, st0);
    SweepGood(a, weight, rule, order[..i], st0);
    SweepKeys(a, weight, rule, order[..i], st0);
    SweepAt(a, weight, rule, order, i);
    var k: int;
    if u in before.edges {
      k := u;
    } else {
      assert u in before.edges.Values;
      k :| k in before.edges && before.edges[k] == u;
    }
    assert k in fin.edges && fin.edges[k] == before.edges[k];
    assert k in order[..i];
    var j :| 0 <= j < i && order[..i][j] == k;
    assert order[j] == k;
  }

  /** The turn of `order[i]`: if it records a pair, the partner outweighs every neighbour then free. */
  lemma HeavyAt(a: Adjacency, weight: int -> int, order: seq<int>, i: nat, u: int)
    requires NoDup(order) && i < |order|
    requires order[i] in Sweep(a, weight, Heaviest, order, State({}, map[])).edges
    requires u in Adj(a, order[i])
    requires !MatchedBefore(Sweep(a, weight, Heaviest, order, State({}, map[])).edges, order, i, u)
    ensures weight(u) <= weight(Sweep(a, weight, Heaviest, order, State({}, map[])).edges[order[i]])
  {
    var st0 := State({}, map[]);
    var vx := order[i];
    var before := Sweep(a, weight, Heaviest, order[..i], st0);
    var turn := Visit(a, weight, Heaviest, vx, before);
    var fin := Sweep(a, weight, Heaviest, order, st0);
    SweepAt(a, weight, Heaviest, order, i);
    assert fin == Sweep(a, weight, Heaviest, order[i + 1..], turn);
    SweepKeys(a, weight, Heaviest, order[..i], st0);
    SweepKeys(a, weight, Heaviest, order[i + 1..], turn);
    NotLater(order, i);
    assert vx !in before.edges;
    assert vx in turn.edges && fin.edges[vx] == turn.edges[vx];
    if u in before.saturated {
      SaturatedBefore(a, weight, Heaviest, order, i, u);
    }
    assert u !in before.saturated;
  }

  /** In a list without repeats, `order[i]` is neither among the earlier entries nor among the later ones. */
  lemma NotLater(order: seq<int>, i: nat)
    requires NoDup(order) && i < |order|
    ensures order[i] !in order[..i] && order[i] !in order[i + 1..]
  {
    forall j | 0 <= j < i
      ensures order[..i][j] != order[i]
    {
      assert order[..i][j] == order[j];
    }
    var later := order[i + 1..];
    forall k | 0 <= k < |later|
      ensures later[k] != order[i]
    {
      assert later[k] == order[i + 1 + k];
    }
  }

  /** The corrected scan makes the whole run follow the heavy-edge rule. */
  lemma SweepHeavy(a: Adjacency, weight: int -> int, order: seq<int>)
    requires NoDup(order)
    ensures HeavyChoices(a, weight, order, Sweep(a, weight, Heaviest, order, State({}, map[])).edges)
  {
    var r := Sweep(a, weight, Heaviest, order, State({}, map[])).edges;
    forall i, u | 0 <= i < |order| && order[i] in r && u in Adj(a, order[i]) && !MatchedBefore(r, order, i, u)
      ensures weight(u) <= weight(r[order[i]])
    {
      HeavyAt(a, weight, order, i, u);
    }
  }

  /** The ids 0 .. n-1. */
  function Range(n: nat): (r: set<int>)
    ensures forall x :: x in r <==> 0 <= x < n
    ensures |r| == n
  {
    if n == 0 then {} else Range(n - 1) + {n - 1}
  }

  /** A permutation of 0 .. size-1 lists every vertex below `size`. */
  lemma EveryVertexVisited(order: seq<int>, size: nat)
    requires IsPermutation(order, size)
    ensures forall v :: 0 <= v < size ==> v in order
  {
    var present := Elems(order);
    NoDupCard(order);
    var all := Range(size);
    assert present <= all;
    if present != all {
      ProperSubsetCard(present, all);
    }
    forall v | 0 <= v < size
      ensures v in order
    {
      assert v in all;
    }
  }

  /** `hem` as written: a maximal matching, though not necessarily a heavy one. */
  function HemAsWritten(size: nat, order: seq<int>, a: Adjacency, weight: int -> int): (r: map<int, int>)
    requires IsPermutation(order, size)
    ensures PairsDisjoint(r) && Adjacent(a, r)
    ensures forall k :: k in r ==> 0 <= k < size
    ensures forall v :: 0 <= v < size ==> v in Ends(r) || forall u :: u in Adj(a, v) ==> u in Ends(r)
  {
    Match(size, order, a, weight, AsWritten)
  }

  /**
   * `hem` with the scan comparing weights: a maximal matching in which each vertex, when its
   * turn comes, takes a heaviest neighbour that no earlier-visited vertex's pair holds.
   */
  function Hem(size: nat, order: seq<int>, a: Adjacency, weight: int -> int): (r: map<int, int>)
    requires IsPermutation(order, size)
    ensures PairsDisjoint(r) && Adjacent(a, r)
    ensures forall k :: k in r ==> 0 <= k < size
    ensures forall v :: 0 <= v < size ==> v in Ends(r) || forall u :: u in Adj(a, v) ==> u in Ends(r)
    ensures HeavyChoices(a, weight, order, r)
  {
    Match(size, order, a, weight, Heaviest)
  }

  /** The weights of the counterexample: vertex 1 weighs 10, vertex 2 weighs 5, the rest 0. */
  function Weighed(v: int): int {
    if v == 1 then 10 else if v == 2 then 5 else 0
  }

  /** Vertex 0 joined to 1 and to 2. */
  const Fork: Adjacency := map[0 := [1, 2], 1 := [0], 2 := [0]]

  /**
   * Visiting 0 first, the scan as written starts from 1, then takes 2 because its weight 5
   * exceeds the id 1: the lighter neighbour.
   */
  lemma LighterPartner()
    ensures HemAsWritten(3, [0, 1, 2], Fork, Weighed) == map[0 := 2]
  {
    assert Unmarked([1, 2], {}) == [1, 2];
    assert ScanAsWritten([1, 2], Weighed) == 2;
    ForkSweep(AsWritten, 2);
  }

  /** The intended scan keeps 1, the heavier neighbour. */
  lemma HeavierPartner()
    ensures Hem(3, [0, 1, 2], Fork, Weighed) == map[0 := 1]
  {
    assert Unmarked([1, 2], {}) == [1, 2];
    assert HeaviestAt([1, 2], Weighed) == 0;
    ForkSweep(Heaviest, 1);
  }

  /** On `Fork`, once 0 is matched with `m` the visits of 1 and 2 change nothing. */
  lemma ForkSweep(rule: Rule, m: int)
    requires m == 1 || m == 2
    requires Choose(rule, [1, 2], Weighed) == m
    ensures Sweep(Fork, Weighed, rule, [0, 1, 2], State({}, map[])) == State({0, m}, map[0 := m])
  {
    var a := Fork;
    assert Adj(a, 0) == [1, 2] && Adj(a, 1) == [0] && Adj(a, 2) == [0];
    ForkFirst(a, rule, m);
    ForkRest(a, rule, State({0, m}, map[0 := m]));
  }

  /** Visiting 0 first matches it with the scan's choice. */
  lemma ForkFirst(a: Adjacency, rule: Rule, m: int)
    requires Adj(a, 0) == [1, 2]
    requires Choose(rule, [1, 2], Weighed) == m
    ensures Visit(a, Weighed, rule, 0, State({}, map[])) == State({0, m}, map[0 := m])
  {
    assert Unmarked([1, 2], {}) == [1, 2];
  }

  /** With 0 saturated, 1 and 2 have no unsaturated neighbour left. */
  lemma ForkRest(a: Adjacency, rule: Rule, w: State)
    requires Adj(a, 1) == [0] && Adj(a, 2) == [0] && 0 in w.saturated
    ensures Sweep(a, Weighed, rule, [0, 1, 2], State({}, map[])) ==
      Sweep(a, Weighed, rule, [1, 2], Visit(a, Weighed, rule, 0, State({}, map[])))
    ensures Sweep(a, Weighed, rule, [1, 2], w) == w
  {
    assert [0, 1, 2][1..] == [1, 2] && [1, 2][1..] == [2] && [2][1..] == [];
    assert Visit(a, Weighed, rule, 1, w) == w;
    assert Visit(a, Weighed, rule, 2, w) == w;
  }
}

=== FILE: hook.dfy ===
/**
 * The cardinality-reduction fixpoint of hook.hpp (`celaeno::graph::red_card::red_card`, the
 * looping overload): repeat the pairing pass of `RedCard` until a breadth-first search from
 * vertex 0 finds no vertex with more than four neighbours. The pass only ever lowers
 * out-degrees, so a vertex with too many parents keeps the loop going for ever; `fuel`
 * bounds the number of passes and `None` stands for "not finished within `fuel` passes".
 * As in the source, the `root` argument is not read: every search starts from vertex 0.
 */
module Hook {
  import opened Seqs
  import opened Graphs
  import Bfs
  import RedCard

  /** The bound the exit check of hook.hpp tests against. */
  const MaxNeighbours := 4

  /** The exit check's callback: a vertex with more than four neighbours stops the search. */
  predicate Crowded(g: Graph, v: int) {
    |Adj(Neighbours(g), v)| > MaxNeighbours
  }

  /**
   * Runs at most `fuel` passes. On success every vertex reachable from 0 has at most four
   * neighbours and every original vertex kept its parents; a root with more than four
   * parents, or with four parents and a child, can never pass the check.
   */
  method Hook(g: Graph, start: int, fuel: nat) returns (res: Option<Graph>)
    requires Valid(g) && Below(g.edges, start)
    ensures res.Some? ==> Valid(res.value)
    ensures res.Some? ==> forall v :: Reachable(Neighbours(res.value), 0, v) ==> !Crowded(res.value, v)
    ensures res.Some? ==> forall x :: x > start ==> |Pred(res.value, x)| == |Pred(g, x)|
    ensures |Pred(g, 0)| + (if |Succ(g, 0)| > 0 then 1 else 0) > MaxNeighbours ==> res.None?
  {
    RootBeforePass(g, start);
    var cur, next := g, start;
    var f := fuel;
    while true
      invariant Valid(cur) && Below(cur.edges, next) && next <= start
      invariant forall x :: x > start ==> |Pred(cur, x)| == |Pred(g, x)|
      invariant 0 > start ==> |Succ(g, 0)| > 0 ==> |Succ(cur, 0)| > 0
      decreases f
    {
      if f == 0 {
        return None;
      }
      ReachableRefl(Neighbours(cur), 0);
      cur, next := RedCard.RedCard(cur, next);
      var visits, last := Bfs.Bfs(Neighbours(cur), 0, v => Crowded(cur, v));
      if !Crowded(cur, last) {
        Quiet(cur, visits, last);
        ReachableRefl(Neighbours(cur), 0);
        return Some(cur);
      }
      f := f - 1;
    }
  }

  /** When 0 is a fresh id it has no neighbours at all. */
  lemma RootBeforePass(g: Graph, start: int)
    requires Valid(g) && Below(g.edges, start)
    ensures 0 <= start ==> Pred(g, 0) == [] && Succ(g, 0) == []
  {
    if 0 <= start {
      RedCard.FreshIsolated(g, 0);
    }
  }

  /** A search that ends on a quiet vertex met no crowded vertex and reached everything. */
  lemma Quiet(g: Graph, visits: seq<int>, last: int)
    requires |visits| >= 1 && last == visits[|visits| - 1] && !Crowded(g, last)
    requires forall i :: 0 <= i < |visits| - 1 ==> !Crowded(g, visits[i])
    requires forall v :: Reachable(Neighbours(g), 0, v) ==> v in visits
    ensures forall v :: Reachable(Neighbours(g), 0, v) ==> !Crowded(g, v)
  {
    forall v | Reachable(Neighbours(g), 0, v)
      ensures !Crowded(g, v)
    {
      var i :| 0 <= i < |visits| && visits[i] == v;
    }
  }
}

=== FILE: hvm.dfy ===
/**
 * Heavy-vertex matching (`celaeno::graph::hvm::hvm`). Starting from the root, each round puts
 * the unsaturated neighbours of the current vertex `v1` into `usat`, matches `v1` with the
 * first of them of greatest cardinality (number of neighbours), moves that partner's own
 * unsaturated neighbours into `usat`, and continues from the vertex of `usat` with the greatest
 * cardinality (the smallest such id, as `std::set` iterates in ascending order). The loop stops
 * when `usat` is empty.
 *
 * The source starts with an empty saturated set, so a root with a self-loop enters `usat` in the
 * first round and, if it is not its own partner, stays there while already saturated: a later
 * vertex can then take it as a second partner. `HvmAsWritten` models that; `Hvm` saturates the
 * root before the first round, as every later `v1` is, and returns a matching.
 */
module Hvm {
  import opened Seqs
  import opened Graphs

  /** The `card` helper: how many neighbours the callback lists for `v`. */
  function Card(a: Adjacency, v: int): nat {
    |Adj(a, v)|
  }

  /**
   * `ranges::max_element` over a list under `card(x) < card(y)`: the position of the first
   * element of greatest cardinality.
   */
  function FirstMaxAt(a: Adjacency, s: seq<int>): (i: nat)
    requires |s| > 0
    ensures i < |s|
    ensures forall j :: 0 <= j < |s| ==> Card(a, s[j]) <= Card(a, s[i])
    ensures forall j :: 0 <= j < i ==> Card(a, s[j]) < Card(a, s[i])
  {
    if |s| == 1 then 0
    else
      var i := FirstMaxAt(a, s[..|s| - 1]);
      if Card(a, s[i]) < Card(a, s[|s| - 1]) then |s| - 1 else i
  }

  /** `x` is what `ranges::max_element` yields on the ascending set `s`: greatest card, least id. */
  predicate IsBest(a: Adjacency, s: set<int>, x: int) {
    && x in s
    && (forall y :: y in s ==> Card(a, y) <= Card(a, x))
    && (forall y :: y in s && Card(a, y) == Card(a, x) ==> x <= y)
  }

  lemma {:induction false} BestExists(a: Adjacency, s: set<int>)
    requires exists v :: v in s
    ensures exists x :: IsBest(a, s, x)
    decreases |s|
  {
    var y :| y in s;
    var rest := s - {y};
    if exists z :: z in rest {
      BestExists(a, rest);
      var b :| IsBest(a, rest, b);
      if Card(a, y) > Card(a, b) || (Card(a, y) == Card(a, b) && y < b) {
        assert IsBest(a, s, y);
      } else {
        assert IsBest(a, s, b);
      }
    } else {
      forall z | z in s
        ensures z == y
      {
        assert z !in rest;
      }
      assert IsBest(a, s, y);
    }
  }

  /** The vertex step 5 continues from: of greatest cardinality in `s`, the least id among ties. */
  function Best(a: Adjacency, s: set<int>): (x: int)
    requires exists v :: v in s
    ensures x in s
    ensures forall y :: y in s ==> Card(a, y) <= Card(a, x)
    ensures forall y :: y in s && Card(a, y) == Card(a, x) ==> x <= y
  {
    BestExists(a, s);
    var x :| IsBest(a, s, x);
    x
  }

  /** The saturated set, the unsaturated set and the pairs recorded so far. */
  datatype Sweep = Sweep(sat: set<int>, usat: set<int>, edg: map<int, int>)

  /**
   * Steps 1 to 4 of one round from `v1`: the neighbours of `v1` outside `sat` join `usat`; if
   * some neighbour is in `usat`, the first of greatest cardinality becomes the partner `v2`,
   * leaves `usat`, is saturated with `v1`, is recorded against `v1` unless `v1` already has a
   * partner (`unordered_map::insert` does not overwrite), and its neighbours outside `sat` join
   * `usat`; otherwise only `v1` is saturated.
   */
  function Unsaturated(adj: seq<int>, sat: set<int>): (r: set<int>)
    ensures forall x :: x in r <==> x in adj && x !in sat
  {
    set x | x in adj && x !in sat
  }

  /** The elements of `s` that are in `u`, in order: `adj | views::filter(usat.contains)`. */
  function Among(s: seq<int>, u: set<int>): (r: seq<int>)
    ensures forall x :: x in r <==> x in s && x in u
  {
    if |s| == 0 then []
    else if s[0] in u then [s[0]] + Among(s[1..], u)
    else Among(s[1..], u)
  }

  function Pair(a: Adjacency, v1: int, s: Sweep): (t: Sweep)
    ensures s.sat + {v1} <= t.sat
    ensures s.sat - s.usat <= t.sat - t.usat
    ensures forall k :: k in s.edg ==> k in t.edg && t.edg[k] == s.edg[k]
    ensures forall k :: k in t.edg && k !in s.edg ==> k == v1 && t.edg[k] in Adj(a, v1) && t.edg[k] in t.sat
    ensures v1 in t.edg && v1 !in s.edg ==>
      forall y :: y in Adj(a, v1) && (y !in s.sat || y in s.usat) ==> Card(a, y) <= Card(a, t.edg[v1])
  {
    var adj := Adj(a, v1);
    var usat1 := s.usat + Unsaturated(adj, s.sat);
    var cand := Among(adj, usat1);
    if |cand| > 0 then
      var v2 := cand[FirstMaxAt(a, cand)];
      var sat2 := s.sat + {v1, v2};
      var usat2 := (usat1 - {v2}) + Unsaturated(Adj(a, v2), sat2);
      Sweep(sat2, usat2, if v1 in s.edg then s.edg else s.edg[v1 := v2])
    else
      Sweep(s.sat + {v1}, usat1, s.edg)
  }

  /** Whatever joins `usat` is listed by some neighbour callback, so a cover of the lists bounds it. */
  lemma PairCovered(a: Adjacency, U: set<int>, v1: int, s: Sweep)
    requires Covers(a, U) && s.usat <= U
    ensures Pair(a, v1, s).usat <= U
  {
    var adj := Adj(a, v1);
    var usat1 := s.usat + Unsaturated(adj, s.sat);
    forall x | x in usat1
      ensures x in U
    {
      if x !in s.usat {
        assert x in adj;
      }
    }
    var cand := Among(adj, usat1);
    if |cand| > 0 {
      var v2 := cand[FirstMaxAt(a, cand)];
      assert forall x :: x in Adj(a, v2) ==> x in U;
    }
  }

  /** Moving one vertex of `usat` into `sat` enlarges `sat - usat`, which stays inside `U`. */
  lemma Shrinks(U: set<int>, s: Sweep, t: Sweep, v: int)
    requires s.sat - s.usat <= t.sat - t.usat && v in t.usat && t.usat <= U
    ensures |U - ((t.sat + {v}) - (t.usat - {v}))| < |U - (s.sat - s.usat)|
  {
    var before := U - (s.sat - s.usat);
    var after := U - ((t.sat + {v}) - (t.usat - {v}));
    assert v in before && v !in after;
    assert after <= before;
    ProperSubsetCard(after, before);
  }

  /** Step 5 when `usat` is not empty: the chosen vertex leaves `usat` and is saturated. */
  function Next(a: Adjacency, t: Sweep): (n: Sweep)
    requires exists v :: v in t.usat
    ensures Best(a, t.usat) in n.sat && Best(a, t.usat) !in n.usat && n.edg == t.edg
    ensures n.sat - n.usat == (t.sat - t.usat) + {Best(a, t.usat)}
  {
    var v := Best(a, t.usat);
    Sweep(t.sat + {v}, t.usat - {v}, t.edg)
  }

  /** The do-while loop from `v1`: a round, then step 5 picks the next vertex or stops. */
  function Run(a: Adjacency, U: set<int>, v1: int, s: Sweep): (r: map<int, int>)
    requires Covers(a, U) && s.usat <= U
    ensures forall k :: k in Pair(a, v1, s).edg ==> k in r && r[k] == Pair(a, v1, s).edg[k]
    decreases |U - (s.sat - s.usat)|
  {
    var t := Pair(a, v1, s);
    PairCovered(a, U, v1, s);
    if exists v :: v in t.usat then
      Shrinks(U, s, t, Best(a, t.usat));
      Run(a, U, Best(a, t.usat), Next(a, t))
    else
      t.edg
  }

  /** Unfolding `Run` when the loop goes on. */
  lemma RunGo(a: Adjacency, U: set<int>, v1: int, s: Sweep)
    requires Covers(a, U) && s.usat <= U
    requires exists v :: v in Pair(a, v1, s).usat
    ensures Pair(a, v1, s).usat <= U
    ensures Run(a, U, v1, s) == Run(a, U, Best(a, Pair(a, v1, s).usat), Next(a, Pair(a, v1, s)))
  {
    PairCovered(a, U, v1, s);
  }

  /** Unfolding `Run` when `usat` is empty after the round. */
  lemma RunStop(a: Adjacency, U: set<int>, v1: int, s: Sweep)
    requires Covers(a, U) && s.usat <= U
    requires !exists v :: v in Pair(a, v1, s).usat
    ensures Run(a, U, v1, s) == Pair(a, v1, s).edg
  {
  }

  /** The termination measure drops from one round to the next. */
  lemma NextShrinks(a: Adjacency, U: set<int>, v1: int, s: Sweep)
    requires Covers(a, U) && s.usat <= U
    requires exists v :: v in Pair(a, v1, s).usat
    ensures Next(a, Pair(a, v1, s)).usat <= U
    ensures |U - (Next(a, Pair(a, v1, s)).sat - Next(a, Pair(a, v1, s)).usat)| < |U - (s.sat - s.usat)|
  {
    var t := Pair(a, v1, s);
    PairCovered(a, U, v1, s);
    Shrinks(U, s, t, Best(a, t.usat));
  }

  lemma UniverseCovers(a: Adjacency)
    ensures Covers(a, Universe(a))
  {
    forall v ensures forall x :: x in Adj(a, v) ==> x in Universe(a) {
      AdjInUniverse(a, v);
    }
  }

  /** No vertex is in two recorded pairs, and no vertex is paired with itself. */
  predicate Matching(edg: map<int, int>) {
    && (forall k :: k in edg ==> edg[k] != k)
    && PairsDisjoint(edg)
  }

  /** `hvm` as written: nothing is saturated before the first round. */
  function HvmAsWritten(a: Adjacency, root: int): (r: map<int, int>)
    ensures Adjacent(a, r)
    ensures forall k :: k in r ==> Reachable(a, root, k) && Reachable(a, root, r[k])
  {
    UniverseCovers(a);
    var s := Sweep({}, {}, map[]);
    RunAdjacent(a, Universe(a), root, s);
    ReachableRefl(a, root);
    RunReach(a, Universe(a), root, root, s);
    Run(a, Universe(a), root, s)
  }

  /** `hvm` with the root saturated before the first round, as every later `v1` is. */
  function Hvm(a: Adjacency, root: int): (r: map<int, int>)
    ensures Matching(r)
    ensures Adjacent(a, r)
    ensures forall k :: k in r ==> Reachable(a, root, k) && Reachable(a, root, r[k])
    ensures HeavyFrom(a, HvmRounds(a, root), r, 0)
  {
    UniverseCovers(a);
    var s := Sweep({root}, {}, map[]);
    RunAdjacent(a, Universe(a), root, s);
    ReachableRefl(a, root);
    RunReach(a, Universe(a), root, root, s);
    RunMatching(a, Universe(a), root, s);
    RunHeavy(a, Universe(a), [], root, s);
    assert [] + Rounds(a, Universe(a), root, s) == HvmRounds(a, root);
    Run(a, Universe(a), root, s)
  }

  /** The vertices `Hvm` starts its rounds from, the root first. */
  ghost function HvmRounds(a: Adjacency, root: int): (o: seq<int>)
    ensures |o| > 0 && o[0] == root
  {
    UniverseCovers(a);
    Rounds(a, Universe(a), root, Sweep({root}, {}, map[]))
  }

  /** Every pair the loop records joins a vertex to one of its neighbours. */
  lemma {:induction false} RunAdjacent(a: Adjacency, U: set<int>, v1: int, s: Sweep)
    requires Covers(a, U) && s.usat <= U
    requires Adjacent(a, s.edg)
    ensures Adjacent(a, Run(a, U, v1, s))
    decreases |U - (s.sat - s.usat)|
  {
    var t := Pair(a, v1, s);
    PairAdjacent(a, v1, s);
    if exists v :: v in t.usat {
      RunGo(a, U, v1, s);
      NextShrinks(a, U, v1, s);
      RunAdjacent(a, U, Best(a, t.usat), Next(a, t));
    } else {
      RunStop(a, U, v1, s);
    }
  }

  lemma PairAdjacent(a: Adjacency, v1: int, s: Sweep)
    requires Adjacent(a, s.edg)
    ensures Adjacent(a, Pair(a, v1, s).edg)
  {
  }

  /** Everything the round from `v1` saturates or queues is reachable from the root. */
  ghost predicate Found(a: Adjacency, root: int, v1: int, s: Sweep) {
    && Reachable(a, root, v1)
    && (forall x :: x in s.sat ==> Reachable(a, root, x))
    && (forall x :: x in s.usat ==> Reachable(a, root, x))
    && (forall k :: k in s.edg ==> k in s.sat && s.edg[k] in s.sat)
  }

  lemma PairFound(a: Adjacency, root: int, v1: int, s: Sweep)
    requires Found(a, root, v1, s)
    ensures var t := Pair(a, v1, s);
      && (forall x :: x in t.sat ==> Reachable(a, root, x))
      && (forall x :: x in t.usat ==> Reachable(a, root, x))
      && (forall k :: k in t.edg ==> k in t.sat && t.edg[k] in t.sat)
  {
    var adj := Adj(a, v1);
    forall x | x in adj
      ensures Reachable(a, root, x)
    {
      ReachableStep(a, root, v1, x);
    }
    var usat1 := s.usat + Unsaturated(adj, s.sat);
    var cand := Among(adj, usat1);
    if |cand| > 0 {
      var v2 := cand[FirstMaxAt(a, cand)];
      assert Reachable(a, root, v2);
      forall x | x in Adj(a, v2)
        ensures Reachable(a, root, x)
      {
        ReachableStep(a, root, v2, x);
      }
    }
  }

  /** Both ends of every recorded pair are reachable from the root. */
  lemma {:induction false} RunReach(a: Adjacency, U: set<int>, root: int, v1: int, s: Sweep)
    requires Covers(a, U) && s.usat <= U
    requires Found(a, root, v1, s)
    ensures forall k :: k in Run(a, U, v1, s) ==> Reachable(a, root, k) && Reachable(a, root, Run(a, U, v1, s)[k])
    decreases |U - (s.sat - s.usat)|
  {
    var t := Pair(a, v1, s);
    PairFound(a, root, v1, s);
    if exists v :: v in t.usat {
      RunGo(a, U, v1, s);
      NextShrinks(a, U, v1, s);
      NextFound(a, root, t);
      RunReach(a, U, root, Best(a, t.usat), Next(a, t));
    } else {
      RunStop(a, U, v1, s);
    }
  }

  lemma NextFound(a: Adjacency, root: int, t: Sweep)
    requires exists v :: v in t.usat
    requires forall x :: x in t.sat ==> Reachable(a, root, x)
    requires forall x :: x in t.usat ==> Reachable(a, root, x)
    requires forall k :: k in t.edg ==> k in t.sat && t.edg[k] in t.sat
    ensures Found(a, root, Best(a, t.usat), Next(a, t))
  {
  }

  /** The bookkeeping the corrected loop keeps at the start of each round. */
  ghost predicate Sound(v1: int, s: Sweep) {
    && v1 in s.sat
    && (forall x :: x in s.usat ==> x !in s.sat)
    && (forall k :: k in s.edg ==> k in s.sat && s.edg[k] in s.sat)
    && (forall k :: k in s.edg ==> k != v1 && s.edg[k] != v1)
    && Matching(s.edg)
  }

  /** A round started from sound bookkeeping keeps `sat` and `usat` apart and the pairs disjoint. */
  lemma PairSound(a: Adjacency, v1: int, s: Sweep)
    requires Sound(v1, s)
    ensures var t := Pair(a, v1, s);
      && (forall x :: x in t.usat ==> x !in t.sat)
      && (forall k :: k in t.edg ==> k in t.sat && t.edg[k] in t.sat)
      && Matching(t.edg)
  {
    var adj := Adj(a, v1);
    var usat1 := s.usat + Unsaturated(adj, s.sat);
    assert forall x :: x in usat1 ==> x !in s.sat;
    var cand := Among(adj, usat1);
    if |cand| > 0 {
      var v2 := cand[FirstMaxAt(a, cand)];
      assert v2 in cand;
      assert v2 in usat1 && v2 !in s.sat;
      assert v1 !in s.edg;
      var e := s.edg[v1 := v2];
      forall k, j | k in e && j in e && k != j
        ensures e[k] != e[j] && k != e[j]
      {
        if k == v1 {
          assert e[j] == s.edg[j];
        } else if j == v1 {
          assert e[k] == s.edg[k];
        }
      }
    }
  }

  /** The corrected loop records a matching. */
  lemma {:induction false} RunMatching(a: Adjacency, U: set<int>, v1: int, s: Sweep)
    requires Covers(a, U) && s.usat <= U
    requires Sound(v1, s)
    ensures Matching(Run(a, U, v1, s))
    decreases |U - (s.sat - s.usat)|
  {
    var t := Pair(a, v1, s);
    PairSound(a, v1, s);
    if exists v :: v in t.usat {
      RunGo(a, U, v1, s);
      NextShrinks(a, U, v1, s);
      NextSound(a, t);
      RunMatching(a, U, Best(a, t.usat), Next(a, t));
    } else {
      RunStop(a, U, v1, s);
    }
  }

  lemma NextSound(a: Adjacency, t: Sweep)
    requires exists v :: v in t.usat
    requires forall x :: x in t.usat ==> x !in t.sat
    requires forall k :: k in t.edg ==> k in t.sat && t.edg[k] in t.sat
    requires Matching(t.edg)
    ensures Sound(Best(a, t.usat), Next(a, t))
  {
    var v := Best(a, t.usat);
    assert v in t.usat;
  }

  /** The vertices the loop starts its rounds from, in order: `v1` first, then each step 5 choice. */
  ghost function Rounds(a: Adjacency, U: set<int>, v1: int, s: Sweep): (o: seq<int>)
    requires Covers(a, U) && s.usat <= U
    ensures |o| > 0 && o[0] == v1
    decreases |U - (s.sat - s.usat)|
  {
    var t := Pair(a, v1, s);
    PairCovered(a, U, v1, s);
    if exists v :: v in t.usat then
      Shrinks(U, s, t, Best(a, t.usat));
      [v1] + Rounds(a, U, Best(a, t.usat), Next(a, t))
    else
      [v1]
  }

  /**
   * `u` is already saturated when the round from `order[i]` looks for a partner: it started
   * this or an earlier round, or it is the partner recorded against an earlier round's vertex.
   */
  ghost predicate Taken(r: map<int, int>, order: seq<int>, i: int, u: int) {
    || (exists j :: 0 <= j <= i && j < |order| && order[j] == u)
    || (exists j :: 0 <= j < i && j < |order| && order[j] in r && r[order[j]] == u)
  }

  /** The heavy-vertex rule in the round from `order[i]`: no free neighbour has more neighbours than its partner. */
  ghost predicate HeavyTurn(a: Adjacency, order: seq<int>, r: map<int, int>, i: int)
    requires 0 <= i < |order|
  {
    order[i] in r ==>
      forall y :: y in Adj(a, order[i]) && !Taken(r, order, i, y) ==> Card(a, y) <= Card(a, r[order[i]])
  }

  /** Everything saturated before a round is a round vertex so far or a recorded partner. */
  ghost predicate Accounted(p: seq<int>, v1: int, s: Sweep) {
    && (forall x :: x in s.sat ==> x in p || x == v1 || exists k :: k in s.edg && s.edg[k] == x)
    && (forall k :: k in s.edg ==> k in p)
  }

  /** A round that records nothing found every neighbour of `v1` already saturated. */
  lemma PairIdle(a: Adjacency, v1: int, s: Sweep)
    requires v1 !in s.edg && v1 !in Pair(a, v1, s).edg
    ensures forall y :: y in Adj(a, v1) ==> y in s.sat && y !in s.usat
  {
    var adj := Adj(a, v1);
    var usat1 := s.usat + Unsaturated(adj, s.sat);
    var cand := Among(adj, usat1);
    assert |cand| == 0;
    assert forall y :: y in adj && y in usat1 ==> y in cand;
  }

  /** The round from `v1`, the `|p|`-th, keeps the heavy-vertex rule in the final result. */
  lemma HeavyHere(a: Adjacency, p: seq<int>, v1: int, s: Sweep, order: seq<int>, r: map<int, int>)
    requires Sound(v1, s) && Accounted(p, v1, s)
    requires |order| > |p| && order[..|p|] == p && order[|p|] == v1
    requires forall k :: k in Pair(a, v1, s).edg ==> k in r && r[k] == Pair(a, v1, s).edg[k]
    requires v1 in r ==> v1 in Pair(a, v1, s).edg
    ensures HeavyTurn(a, order, r, |p|)
  {
    var t := Pair(a, v1, s);
    var i := |p|;
    forall y | y in s.sat
      ensures Taken(r, order, i, y)
    {
      if y in p {
        var j :| 0 <= j < |p| && p[j] == y;
        assert order[j] == y;
      } else if y == v1 {
      } else {
        var k :| k in s.edg && s.edg[k] == y;
        var j :| 0 <= j < |p| && p[j] == k;
        assert order[j] == k && r[k] == y;
      }
    }
    if v1 in r {
      if v1 !in t.edg {
        PairIdle(a, v1, s);
      }
    }
  }

  /** Unfolding `Rounds` when the loop goes on. */
  lemma RoundsGo(a: Adjacency, U: set<int>, v1: int, s: Sweep)
    requires Covers(a, U) && s.usat <= U
    requires exists v :: v in Pair(a, v1, s).usat
    ensures Pair(a, v1, s).usat <= U
    ensures Rounds(a, U, v1, s) == [v1] + Rounds(a, U, Best(a, Pair(a, v1, s).usat), Next(a, Pair(a, v1, s)))
  {
    PairCovered(a, U, v1, s);
  }

  /** Unfolding `Rounds` when `usat` is empty after the round. */
  lemma RoundsStop(a: Adjacency, U: set<int>, v1: int, s: Sweep)
    requires Covers(a, U) && s.usat <= U
    requires !exists v :: v in Pair(a, v1, s).usat
    ensures Rounds(a, U, v1, s) == [v1]
  {
  }

  lemma PrefixOf(p: seq<int>, q: seq<int>)
    ensures (p + q)[..|p|] == p
  {
  }

  /** A round saturates only `v1` and the partner it records. */
  lemma PairSaturates(a: Adjacency, v1: int, s: Sweep)
    requires v1 !in s.edg
    ensures var t := Pair(a, v1, s);
      forall x :: x in t.sat ==> x in s.sat || x == v1 || (v1 in t.edg && t.edg[v1] == x)
  {
  }

  /** The bookkeeping of `Accounted` carries over to the next round. */
  lemma NextAccounted(a: Adjacency, p: seq<int>, v1: int, s: Sweep)
    requires Sound(v1, s) && Accounted(p, v1, s)
    requires exists v :: v in Pair(a, v1, s).usat
    ensures Accounted(p + [v1], Best(a, Pair(a, v1, s).usat), Next(a, Pair(a, v1, s)))
  {
    var t := Pair(a, v1, s);
    var q := p + [v1];
    PairSaturates(a, v1, s);
    forall x | x in t.sat
      ensures x in q || exists k :: k in t.edg && t.edg[k] == x
    {
      if x in s.sat && x !in p && x != v1 {
        var k :| k in s.edg && s.edg[k] == x;
        assert k in t.edg && t.edg[k] == x;
      }
    }
  }

  /** The loop from `v1` records a new key only for `v1` or a vertex not yet saturated. */
  lemma {:induction false} RunFresh(a: Adjacency, U: set<int>, v1: int, s: Sweep)
    requires Covers(a, U) && s.usat <= U
    requires Sound(v1, s)
    ensures forall k :: k in Run(a, U, v1, s) && k !in s.edg ==> k == v1 || k !in s.sat
    decreases |U - (s.sat - s.usat)|
  {
    var t := Pair(a, v1, s);
    PairSound(a, v1, s);
    if exists v :: v in t.usat {
      RunGo(a, U, v1, s);
      NextShrinks(a, U, v1, s);
      NextSound(a, t);
      var w := Best(a, t.usat);
      RunFresh(a, U, w, Next(a, t));
      assert w !in t.sat;
    } else {
      RunStop(a, U, v1, s);
    }
  }

  /**
   * The heavy-vertex rule in every round from the `lo`-th on; from round 0 it says that a vertex
   * matched in its round is matched with a neighbour of greatest cardinality among those still
   * unsaturated then.
   */
  ghost predicate HeavyFrom(a: Adjacency, order: seq<int>, r: map<int, int>, lo: nat) {
    forall i :: lo <= i < |order| ==> HeavyTurn(a, order, r, i)
  }

  /** The rule in round `lo` and in every later round is the rule from round `lo` on. */
  lemma HeavyJoin(a: Adjacency, order: seq<int>, r: map<int, int>, lo: nat)
    requires 0 <= lo < |order| && HeavyTurn(a, order, r, lo) && HeavyFrom(a, order, r, lo + 1)
    ensures HeavyFrom(a, order, r, lo)
  {
  }

  /** Every round from `v1` on keeps the heavy-vertex rule, the earlier rounds being `p`. */
  lemma {:induction false} RunHeavy(a: Adjacency, U: set<int>, p: seq<int>, v1: int, s: Sweep)
    requires Covers(a, U) && s.usat <= U
    requires Sound(v1, s) && Accounted(p, v1, s)
    ensures HeavyFrom(a, p + Rounds(a, U, v1, s), Run(a, U, v1, s), |p|)
    decreases |U - (s.sat - s.usat)|
  {
    var t := Pair(a, v1, s);
    if exists v :: v in t.usat {
      var w := Best(a, t.usat);
      var n := Next(a, t);
      NextShrinks(a, U, v1, s);
      var r := Run(a, U, w, n);
      var rest := Rounds(a, U, w, n);
      var order := p + Rounds(a, U, v1, s);
      assert order == (p + [v1]) + rest && r == Run(a, U, v1, s) by {
        RunGo(a, U, v1, s);
        RoundsGo(a, U, v1, s);
        Regroup(p, v1, rest);
      }
      PairSound(a, v1, s);
      assert HeavyFrom(a, order, r, |p| + 1) by {
        NextSound(a, t);
        NextAccounted(a, p, v1, s);
        RunHeavy(a, U, p + [v1], w, n);
      }
      assert v1 in r ==> v1 in t.edg by {
        NextSound(a, t);
        RunFresh(a, U, w, n);
        assert v1 in n.sat && v1 != w;
      }
      assert forall k :: k in t.edg ==> k in r && r[k] == t.edg[k];
      PrefixOf(p, Rounds(a, U, v1, s));
      HeavyHere(a, p, v1, s, order, r);
      HeavyJoin(a, order, r, |p|);
    } else {
      HeavyLast(a, U, p, v1, s);
    }
  }

  lemma Regroup(p: seq<int>, v: int, q: seq<int>)
    ensures p + ([v] + q) == (p + [v]) + q
  {
  }


  /** The last round keeps the heavy-vertex rule. */
  lemma HeavyLast(a: Adjacency, U: set<int>, p: seq<int>, v1: int, s: Sweep)
    requires Covers(a, U) && s.usat <= U
    requires Sound(v1, s) && Accounted(p, v1, s)
    requires !exists v :: v in Pair(a, v1, s).usat
    ensures HeavyFrom(a, p + Rounds(a, U, v1, s), Run(a, U, v1, s), |p|)
  {
    RunStop(a, U, v1, s);
    RoundsStop(a, U, v1, s);
    var order := p + [v1];
    PrefixOf(p, [v1]);
    HeavyHere(a, p, v1, s, order, Pair(a, v1, s).edg);
  }


  /** When every element is in `u`, the filter keeps the whole list. */
  lemma {:induction false} AmongAll(s: seq<int>, u: set<int>)
    requires forall i :: 0 <= i < |s| ==> s[i] in u
    ensures Among(s, u) == s
  {
    if |s| > 0 {
      AmongAll(s[1..], u);
    }
  }

  /**
   * The lists of a symmetric graph whose root 0 has a self-loop: 0 - 0, 0 - 1, 0 - 2, 1 - 3,
   * 1 - 4, 1 - 5, 2 - 6, 2 - 7, 2 - 8.
   */
  function SpreadList(v: int): seq<int> {
    if v == 0 then [0, 1, 2]
    else if v == 1 then [0, 3, 4, 5]
    else if v == 2 then [0, 6, 7, 8]
    else if 3 <= v <= 5 then [1]
    else if 6 <= v <= 8 then [2]
    else []
  }

  const Spread: Adjacency := map v | 0 <= v <= 8 :: SpreadList(v)

  lemma SpreadCards()
    ensures Adj(Spread, 0) == [0, 1, 2] && Adj(Spread, 1) == [0, 3, 4, 5] && Adj(Spread, 2) == [0, 6, 7, 8]
    ensures Card(Spread, 0) == 3 && Card(Spread, 1) == 4 && Card(Spread, 2) == 4
    ensures forall v :: 3 <= v <= 8 ==> Card(Spread, v) == 1
  {
  }

  /** `Pair` once the partner `v2` is known. */
  lemma PairTakes(a: Adjacency, v1: int, s: Sweep, usat1: set<int>, v2: int)
    requires usat1 == s.usat + Unsaturated(Adj(a, v1), s.sat)
    requires |Among(Adj(a, v1), usat1)| > 0
    requires v2 == Among(Adj(a, v1), usat1)[FirstMaxAt(a, Among(Adj(a, v1), usat1))]
    ensures Pair(a, v1, s).sat == s.sat + {v1, v2}
    ensures Pair(a, v1, s).usat == (usat1 - {v2}) + Unsaturated(Adj(a, v2), s.sat + {v1, v2})
    ensures Pair(a, v1, s).edg == if v1 in s.edg then s.edg else s.edg[v1 := v2]
  {
  }

  /**
   * On `Spread` the source matches 0 with 1, continues from 2, finds 0 still in `usat`, and
   * records 0 as the partner of 2 as well.
   */
  lemma RootMatchedTwice()
    ensures var r := HvmAsWritten(Spread, 0); 0 in r && 2 in r && r[0] == 1 && r[2] == 0 && !Matching(r)
  {
    var a := Spread;
    var U := Universe(a);
    UniverseCovers(a);
    SpreadCards();
    var s1 := FirstHalf(a, U);
    SecondHalf(a, U, s1);
  }

  /** The first round on `Spread`, after which the source continues from 2. */
  lemma FirstHalf(a: Adjacency, U: set<int>) returns (s1: Sweep)
    requires Covers(a, U)
    requires Adj(a, 0) == [0, 1, 2] && Adj(a, 1) == [0, 3, 4, 5]
    requires Card(a, 0) == 3 && Card(a, 1) == 4 && Card(a, 2) == 4
    requires forall v :: 3 <= v <= 8 ==> Card(a, v) == 1
    ensures s1.usat <= U && Run(a, U, 0, Sweep({}, {}, map[])) == Run(a, U, 2, s1)
    ensures s1.edg == map[0 := 1] && 0 in s1.usat
    ensures 6 !in s1.sat && 7 !in s1.sat && 8 !in s1.sat
  {
    var s0 := Sweep({}, {}, map[]);
    FirstPick(a, s0);
    FirstRound(a, s0);
    FirstQueue(a, s0);
    var t0 := Pair(a, 0, s0);
    SecondStart(a, t0);
    RunGo(a, U, 0, s0);
    NextShrinks(a, U, 0, s0);
    s1 := Next(a, t0);
    SecondState(a, t0);
  }

  /** The second round on `Spread`: 2 takes 0, already the partner of 1. */
  lemma SecondHalf(a: Adjacency, U: set<int>, s1: Sweep)
    requires Covers(a, U) && s1.usat <= U
    requires Adj(a, 2) == [0, 6, 7, 8]
    requires Card(a, 0) == 3 && forall v :: 3 <= v <= 8 ==> Card(a, v) == 1
    requires s1.edg == map[0 := 1] && 0 in s1.usat
    requires 6 !in s1.sat && 7 !in s1.sat && 8 !in s1.sat
    ensures var r := Run(a, U, 2, s1); 0 in r && 2 in r && r[0] == 1 && r[2] == 0
  {
    SecondPick(a, s1);
    SecondRound(a, s1);
  }

  /** In the first round on `Spread` every neighbour of 0 is a candidate and 1 wins. */
  lemma FirstPick(a: Adjacency, s0: Sweep)
    requires Adj(a, 0) == [0, 1, 2]
    requires Card(a, 0) == 3 && Card(a, 1) == 4 && Card(a, 2) == 4
    requires s0 == Sweep({}, {}, map[])
    ensures Among(Adj(a, 0), s0.usat + Unsaturated(Adj(a, 0), s0.sat)) == Adj(a, 0)
    ensures FirstMaxAt(a, Adj(a, 0)) == 1
  {
    var u0 := s0.usat + Unsaturated(Adj(a, 0), s0.sat);
    assert 0 in u0 && 1 in u0 && 2 in u0;
    AmongAll(Adj(a, 0), u0);
    var c0 := Adj(a, 0);
    var i := FirstMaxAt(a, c0);
    assert Card(a, c0[0]) == 3 && Card(a, c0[1]) == 4 && Card(a, c0[2]) == 4;
    assert Card(a, c0[i]) == 4;
  }

  /** The first round on `Spread`: 0 takes 1, the first of its neighbours with four neighbours. */
  lemma FirstRound(a: Adjacency, s0: Sweep)
    requires Adj(a, 0) == [0, 1, 2] && Adj(a, 1) == [0, 3, 4, 5]
    requires s0 == Sweep({}, {}, map[])
    requires Among(Adj(a, 0), s0.usat + Unsaturated(Adj(a, 0), s0.sat)) == Adj(a, 0)
    requires FirstMaxAt(a, Adj(a, 0)) == 1
    ensures Pair(a, 0, s0).edg == map[0 := 1]
    ensures forall x :: x in Pair(a, 0, s0).sat ==> x == 0 || x == 1
  {
    PairTakes(a, 0, s0, s0.usat + Unsaturated(Adj(a, 0), s0.sat), 1);
  }

  /** After the first round on `Spread`, `usat` holds 0 and 2 and otherwise only leaves of 1. */
  lemma FirstQueue(a: Adjacency, s0: Sweep)
    requires Adj(a, 0) == [0, 1, 2] && Adj(a, 1) == [0, 3, 4, 5]
    requires s0 == Sweep({}, {}, map[])
    requires Among(Adj(a, 0), s0.usat + Unsaturated(Adj(a, 0), s0.sat)) == Adj(a, 0)
    requires FirstMaxAt(a, Adj(a, 0)) == 1
    ensures 0 in Pair(a, 0, s0).usat && 2 in Pair(a, 0, s0).usat
    ensures forall x :: x in Pair(a, 0, s0).usat ==> x == 0 || x == 2 || x == 3 || x == 4 || x == 5
  {
    var usat1 := s0.usat + Unsaturated(Adj(a, 0), s0.sat);
    PairTakes(a, 0, s0, usat1, 1);
    QueueLeaves(Pair(a, 0, s0).usat, Adj(a, 0), Adj(a, 1), usat1, Unsaturated(Adj(a, 1), s0.sat + {0, 1}));
  }

  /** The membership bookkeeping of `FirstQueue`, apart from the sweep itself. */
  lemma QueueLeaves(u: set<int>, adj0: seq<int>, adj1: seq<int>, usat1: set<int>, u2: set<int>)
    requires adj0 == [0, 1, 2] && adj1 == [0, 3, 4, 5]
    requires u == (usat1 - {1}) + u2
    requires forall x :: x in usat1 ==> x in adj0
    requires forall x :: x in u2 ==> x in adj1
    ensures forall x :: x in u ==> x == 0 || x == 2 || x == 3 || x == 4 || x == 5
  {
  }

  /** Step 5 after the first round continues from 2, the only vertex of `usat` with four neighbours. */
  lemma SecondStart(a: Adjacency, t0: Sweep)
    requires Card(a, 2) == 4 && Card(a, 0) == 3 && forall v :: 3 <= v <= 8 ==> Card(a, v) == 1
    requires 2 in t0.usat
    requires forall x :: x in t0.usat ==> x == 0 || x == 2 || x == 3 || x == 4 || x == 5
    ensures exists v :: v in t0.usat
    ensures Best(a, t0.usat) == 2
  {
    var v := Best(a, t0.usat);
    assert Card(a, v) >= 4;
  }

  /** What the second round starts from: 0 still unsaturated, 6, 7 and 8 untouched. */
  lemma SecondState(a: Adjacency, t0: Sweep)
    requires exists v :: v in t0.usat
    requires Best(a, t0.usat) == 2 && t0.edg == map[0 := 1] && 0 in t0.usat
    requires forall x :: x in t0.sat ==> x == 0 || x == 1
    ensures Next(a, t0).edg == map[0 := 1] && 0 in Next(a, t0).usat
    ensures 6 !in Next(a, t0).sat && 7 !in Next(a, t0).sat && 8 !in Next(a, t0).sat
  {
  }

  /** In the second round on `Spread` every neighbour of 2 is a candidate and 0 wins. */
  lemma SecondPick(a: Adjacency, s1: Sweep)
    requires Adj(a, 2) == [0, 6, 7, 8]
    requires Card(a, 0) == 3 && forall v :: 3 <= v <= 8 ==> Card(a, v) == 1
    requires 0 in s1.usat && 6 !in s1.sat && 7 !in s1.sat && 8 !in s1.sat
    ensures Among(Adj(a, 2), s1.usat + Unsaturated(Adj(a, 2), s1.sat)) == Adj(a, 2)
    ensures FirstMaxAt(a, Adj(a, 2)) == 0
  {
    var u1 := s1.usat + Unsaturated(Adj(a, 2), s1.sat);
    assert 0 in u1 && 6 in u1 && 7 in u1 && 8 in u1;
    AmongAll(Adj(a, 2), u1);
    var c1 := Adj(a, 2);
    var i := FirstMaxAt(a, c1);
    assert Card(a, c1[0]) == 3 && Card(a, c1[1]) == 1 && Card(a, c1[2]) == 1 && Card(a, c1[3]) == 1;
    assert Card(a, c1[i]) == 3;
  }

  /** The second round on `Spread`: 2 takes 0, which is still in `usat`. */
  lemma SecondRound(a: Adjacency, s1: Sweep)
    requires Adj(a, 2) == [0, 6, 7, 8] && s1.edg == map[0 := 1]
    requires Among(Adj(a, 2), s1.usat + Unsaturated(Adj(a, 2), s1.sat)) == Adj(a, 2)
    requires FirstMaxAt(a, Adj(a, 2)) == 0
    ensures Pair(a, 2, s1).edg == map[0 := 1, 2 := 0]
  {
    PairTakes(a, 2, s1, s1.usat + Unsaturated(Adj(a, 2), s1.sat), 0);
  }
}

=== FILE: kahn.dfy ===
/**
 * Kahn's topological sort (`celaeno::graph::kahn::kahn`). The sources are the vertices
 * without predecessors, collected by a breadth-first search over predecessors-then-successors
 * from `root`. They are queued in the order the search meets them. A vertex is appended to
 * the result when it leaves the queue. Its out-edges then go into a set of removed edges, and
 * each successor whose in-edges are now all removed is queued. The callback may stop the sort.
 * The graph itself is never changed.
 */
module Kahn {
  import opened Seqs
  import opened Graphs
  import Bfs

  /** Every predecessor of an element occurs before it. */
  ghost predicate PredsEarlier(g: Graph, s: seq<int>) {
    forall j, p :: 0 <= j < |s| && p in Pred(g, s[j]) ==> p in s[..j]
  }

  /** Vertices without predecessors come before every vertex that has one. */
  ghost predicate SourcesFirst(g: Graph, s: seq<int>) {
    forall i, j :: 0 <= i < j < |s| && Pred(g, s[j]) == [] ==> Pred(g, s[i]) == []
  }

  /**
   * The result is closed: a vertex reachable from `root` (over predecessors and successors)
   * all of whose predecessors are in the result is in the result too.
   */
  ghost predicate Closed(g: Graph, root: int, result: seq<int>) {
    forall v :: Reachable(Neighbours(g), root, v) && (forall p :: p in Pred(g, v) ==> p in result) ==>
      v in result
  }

  /** A vertex of `within` all of whose predecessors are in `done` is in `seen`. */
  ghost predicate QueuedWhenReady(g: Graph, within: seq<int>, done: seq<int>, seen: seq<int>) {
    forall v :: v in within && (forall p :: p in Pred(g, v) ==> p in done) ==> v in seen
  }

  /** The test applied to a successor `s` of `c`: every in-edge of `s` is removed or comes from `c`. */
  function Releasable(g: Graph, re: set<(int, int)>, c: int): int -> bool {
    s => forall p :: p in Pred(g, s) ==> (p, s) in re || p == c
  }

  /**
   * The inner loop over the successors `ss` of `c`: each edge c -> s is added to the removed
   * set, then `s` is queued when no predecessor of `s` is left with an edge not removed.
   */
  function Release(g: Graph, re: set<(int, int)>, c: int, ss: seq<int>): (out: (set<(int, int)>, seq<int>))
    ensures out.0 == re + set s | s in ss :: (c, s)
    ensures out.1 == Filter(ss, Releasable(g, re, c))
    decreases |ss|
  {
    if ss == [] then (re, [])
    else
      var s := ss[0];
      var re1 := re + {(c, s)};
      var rest := Release(g, re1, c, ss[1..]);
      var ready := forall p :: p in Pred(g, s) ==> (p, s) in re1;
      FilterExt(ss[1..], Releasable(g, re1, c), Releasable(g, re, c));
      (rest.0, (if ready then [s] else []) + rest.1)
  }

  /**
   * Sorts the part of `g` around `root`; `cb` is the callback, called on each vertex appended.
   * The ghost `order` is the order in which the search for sources met the vertices, which the
   * source keeps local: the result starts with the sources in that order.
   */
  method Kahn(g: Graph, root: int, cb: int -> bool) returns (result: seq<int>, ghost order: seq<int>)
    requires Valid(g)
    ensures NoDup(result)
    ensures PredsEarlier(g, result)
    ensures SourcesFirst(g, result)
    ensures AllReachable(g, root, result)
    ensures forall i :: 0 <= i < |result| - 1 ==> !cb(result[i])
    ensures result == [] || !cb(result[|result| - 1]) ==> Closed(g, root, result)
    ensures SearchLeads(g, root, order, result)
  {
    var visits, dq := Sources(g, root);
    order := visits;
    ghost var sources := dq;
    var re: set<(int, int)> := {};
    result := [];
    InitInv(g, root, visits, dq);
    // The invariant is compared with `true` so that it is checked as one obligation
    // rather than conjunct by conjunct.
    while dq != []
      invariant Inv(g, visits, result, dq, re) == true
      invariant NoneStops(cb, result)
      invariant sources <= result + dq
      decreases |visits| - |result|
    {
      var c := dq[0];
      var out := Release(g, re, c, Succ(g, c));
      StepKeepsInv(g, visits, result, dq, re, c, out);
      StopsOnlyLast(cb, result, c);
      PrefixKept(sources, result, dq, c, out.1);
      var stop := cb(c);
      if !stop {
        NoneStopsAppend(cb, result, c);
      }
      result, re, dq := result + [c], out.0, dq[1..] + out.1;
      if stop {
        break;
      }
    }
    Finish(g, root, visits, result, dq, re);
    LeadsFromPrefix(g, root, visits, result, dq, sources);
  }

  /**
   * `visits` is the whole order in which a breadth-first search from `root` over
   * predecessors-then-successors meets vertices, and `result` starts with its vertices without
   * predecessors, in that order.
   */
  ghost predicate SearchLeads(g: Graph, root: int, visits: seq<int>, result: seq<int>) {
    Bfs.FifoPrefix(Neighbours(g), root, visits, true) && Leads(result, Filter(visits, v => Pred(g, v) == []))
  }

  /** Popping the head into the result and pushing at the back keeps whatever prefix the two had. */
  lemma PrefixKept(sources: seq<int>, result: seq<int>, dq: seq<int>, c: int, rel: seq<int>)
    requires sources <= result + dq && dq != [] && c == dq[0]
    ensures sources <= (result + [c]) + (dq[1..] + rel)
  {
    AppendShift(result, dq, c, rel);
  }

  /** `result` starts with `sources`, in order, as far as either goes. */
  ghost predicate Leads(result: seq<int>, sources: seq<int>) {
    forall i :: 0 <= i < |result| && i < |sources| ==> result[i] == sources[i]
  }

  /** The queue starts as the sources and only ever grows at the back, so the result pops them first. */
  lemma LeadsFromPrefix(g: Graph, root: int, visits: seq<int>, result: seq<int>, dq: seq<int>, sources: seq<int>)
    requires Bfs.FifoPrefix(Neighbours(g), root, visits, true) && sources == Filter(visits, v => Pred(g, v) == [])
    requires sources <= result + dq
    ensures SearchLeads(g, root, visits, result)
  {
    forall i | 0 <= i < |result| && i < |sources|
      ensures result[i] == sources[i]
    {
      assert (result + dq)[i] == result[i];
    }
  }

  /**
   * The vertices without predecessors, in the order a breadth-first search from `root` over
   * predecessors-then-successors meets them; `visits` is everything the search meets.
   */
  method Sources(g: Graph, root: int) returns (visits: seq<int>, sources: seq<int>)
    ensures NoDup(visits)
    ensures forall v :: v in visits <==> Reachable(Neighbours(g), root, v)
    ensures sources == Filter(visits, v => Pred(g, v) == [])
    ensures Bfs.FifoPrefix(Neighbours(g), root, visits, true)
  {
    var last;
    visits, last := Bfs.Bfs(Neighbours(g), root, v => false);
    sources := Filter(visits, v => Pred(g, v) == []);
  }

  /**
   * The loop invariant over the result, the queue `dq` and the removed edges `re`, relative to
   * the vertices `visits` the search met: result and queue together never repeat a vertex,
   * each queued vertex has all its predecessors in the result, `re` holds exactly the
   * out-edges of the result, and every met vertex whose predecessors are all in the result
   * has been queued.
   */
  ghost predicate Inv(g: Graph, visits: seq<int>, result: seq<int>, dq: seq<int>, re: set<(int, int)>) {
    && Valid(g)
    && NoDup(visits)
    && SuccClosed(g, visits)
    && NoDup(result + dq)
    && PredsEarlier(g, result)
    && Ready(g, result, dq)
    && SourcesFirst(g, result + dq)
    && RemovedAre(g, re, result)
    && Elems(result + dq) <= Elems(visits)
    && |result + dq| <= |visits|
    && QueuedWhenReady(g, visits, result, result + dq)
  }

  /** Every successor of a vertex of `s` is in `s`. */
  ghost predicate SuccClosed(g: Graph, s: seq<int>) {
    forall x, y :: x in s && y in Succ(g, x) ==> y in s
  }

  /** Every predecessor of a queued vertex is in the result. */
  ghost predicate Ready(g: Graph, result: seq<int>, dq: seq<int>) {
    forall v, p :: v in dq && p in Pred(g, v) ==> p in result
  }

  /** The removed edges are exactly the out-edges of the result. */
  ghost predicate RemovedAre(g: Graph, re: set<(int, int)>, result: seq<int>) {
    forall p, s :: (p, s) in re <==> p in result && s in Succ(g, p)
  }

  ghost predicate AllReachable(g: Graph, root: int, s: seq<int>) {
    forall v :: v in s ==> Reachable(Neighbours(g), root, v)
  }

  lemma InitInv(g: Graph, root: int, visits: seq<int>, dq: seq<int>)
    requires Valid(g) && NoDup(visits)
    requires forall v :: v in visits <==> Reachable(Neighbours(g), root, v)
    requires dq == Filter(visits, v => Pred(g, v) == [])
    ensures Inv(g, visits, [], dq, {})
  {
    assert [] + dq == dq;
    assert forall v :: v in dq ==> v in visits && Pred(g, v) == [];
    assert NoDup(dq);
    assert Ready(g, [], dq);
    assert SourcesFirst(g, dq);
    assert RemovedAre(g, {}, []);
    assert Elems(dq) <= Elems(visits);
    SizeBound(dq, Elems(visits));
    NoDupCard(visits);
    VisitsClosed(g, root, visits);
    InitQueued(g, visits, dq);
  }

  /** What a search meets from `root` is closed under successors. */
  lemma VisitsClosed(g: Graph, root: int, visits: seq<int>)
    requires forall v :: v in visits <==> Reachable(Neighbours(g), root, v)
    ensures SuccClosed(g, visits)
  {
    forall x, y | x in visits && y in Succ(g, x)
      ensures y in visits
    {
      assert y in Adj(Neighbours(g), x);
      ReachableStep(Neighbours(g), root, x, y);
    }
  }

  /** Every met vertex without predecessors is a source the search queued. */
  lemma InitQueued(g: Graph, visits: seq<int>, dq: seq<int>)
    requires dq == Filter(visits, v => Pred(g, v) == [])
    ensures QueuedWhenReady(g, visits, [], dq)
  {
    forall v | v in visits && (forall p :: p in Pred(g, v) ==> p in [])
      ensures v in dq
    {
      NothingOutside(Pred(g, v));
    }
  }

  lemma NothingOutside(s: seq<int>)
    requires forall p :: p in s ==> p in []
    ensures s == []
  {
    var x := if |s| > 0 then s[0] else 0;
    assert x in s ==> x in [];
  }

  /** A duplicate-free sequence inside `U` is no longer than `U` has elements. */
  lemma SizeBound(s: seq<int>, U: set<int>)
    requires NoDup(s) && Elems(s) <= U
    ensures |s| <= |U|
  {
    NoDupCard(s);
    if Elems(s) != U {
      ProperSubsetCard(Elems(s), U);
    }
  }

  lemma StepKeepsInv(g: Graph, visits: seq<int>, result: seq<int>, dq: seq<int>, re: set<(int, int)>,
                     c: int, out: (set<(int, int)>, seq<int>))
    requires Inv(g, visits, result, dq, re) && dq != [] && c == dq[0]
    requires out == Release(g, re, c, Succ(g, c))
    ensures Inv(g, visits, result + [c], dq[1..] + out.1, out.0)
    ensures |result + [c]| <= |visits|
  {
    var seen := result + dq;
    AppendShift(result, dq, c, out.1);
    PredsInResult(g, result);
    NoDupPrefix(result, dq);
    assert c in seen && c !in result;
    assert forall v :: v in out.1 ==> v in Succ(g, c);
    ReleasedFresh(g, result, seen, c, out.1);
    ReleasedInside(g, visits, seen, c, out.1);
    SizeBound(seen + out.1, Elems(visits));
    NoDupCard(visits);
    ReleasedSorted(g, seen, c, out.1);
    ReadyAfter(g, result, dq, re, c, out.1);
    PredsEarlierAppend(g, result, c);
    RemovedAfter(g, re, result, c);
    ReleasedCloses(g, visits, result, seen, re, c, out.1);
  }

  lemma AppendShift(result: seq<int>, dq: seq<int>, c: int, rel: seq<int>)
    requires dq != [] && c == dq[0]
    ensures (result + [c]) + (dq[1..] + rel) == (result + dq) + rel
  {
    assert dq == [c] + dq[1..];
  }

  /** In a result whose predecessors come first, every predecessor of an element is in it. */
  lemma PredsInResult(g: Graph, result: seq<int>)
    requires PredsEarlier(g, result)
    ensures forall v, p :: v in result && p in Pred(g, v) ==> p in result
  {
    forall v, p | v in result && p in Pred(g, v)
      ensures p in result
    {
      var j :| 0 <= j < |result| && result[j] == v;
      assert p in result[..j];
    }
  }

  /** Released vertices are not yet seen, and are released once each. */
  lemma ReleasedFresh(g: Graph, result: seq<int>, seen: seq<int>, c: int, rel: seq<int>)
    requires Valid(g) && NoDup(seen) && c !in result
    requires forall v, p :: v in result && p in Pred(g, v) ==> p in result
    requires forall v, p :: v in seen && p in Pred(g, v) ==> p in result
    requires NoDup(Succ(g, c)) ==> NoDup(rel)
    requires forall v :: v in rel ==> v in Succ(g, c)
    ensures NoDup(seen + rel)
  {
    forall s | s in rel
      ensures s !in seen
    {
      assert (c, s) in g.edges;
      assert c in Pred(g, s);
    }
    NoDupConcat(seen, rel);
  }

  /** Released vertices were met by the search. */
  lemma ReleasedInside(g: Graph, visits: seq<int>, seen: seq<int>, c: int, rel: seq<int>)
    requires SuccClosed(g, visits) && Elems(seen) <= Elems(visits) && c in seen
    requires forall v :: v in rel ==> v in Succ(g, c)
    ensures Elems(seen + rel) <= Elems(visits)
  {
    assert c in Elems(seen);
    assert c in visits;
    forall v | v in Elems(seen + rel)
      ensures v in Elems(visits)
    {
      if v !in seen {
        assert v in rel;
        assert v in visits;
      } else {
        assert v in Elems(seen);
      }
    }
  }

  /** Released vertices all have a predecessor, so appending them keeps sources first. */
  lemma ReleasedSorted(g: Graph, seen: seq<int>, c: int, rel: seq<int>)
    requires Valid(g) && SourcesFirst(g, seen)
    requires forall v :: v in rel ==> v in Succ(g, c)
    ensures SourcesFirst(g, seen + rel)
  {
    forall k | |seen| <= k < |seen + rel|
      ensures Pred(g, (seen + rel)[k]) != []
    {
      var v := (seen + rel)[k];
      assert v in rel;
      assert c in Pred(g, v);
    }
    forall i, j | 0 <= i < j < |seen + rel| && Pred(g, (seen + rel)[j]) == []
      ensures Pred(g, (seen + rel)[i]) == []
    {
      assert (seen + rel)[i] == seen[i] && (seen + rel)[j] == seen[j];
    }
  }

  /** After `c` is appended, the rest of the queue and the released vertices are ready. */
  lemma ReadyAfter(g: Graph, result: seq<int>, dq: seq<int>, re: set<(int, int)>, c: int, rel: seq<int>)
    requires Ready(g, result, dq) && dq != [] && c == dq[0]
    requires RemovedAre(g, re, result)
    requires rel == Filter(Succ(g, c), Releasable(g, re, c))
    ensures Ready(g, result + [c], dq[1..] + rel)
  {
    forall v, p | v in dq[1..] + rel && p in Pred(g, v)
      ensures p in result + [c]
    {
      if v in dq[1..] {
        assert v in dq;
      }
    }
  }

  lemma PredsEarlierAppend(g: Graph, result: seq<int>, c: int)
    requires PredsEarlier(g, result) && forall p :: p in Pred(g, c) ==> p in result
    ensures PredsEarlier(g, result + [c])
  {
    var r := result + [c];
    forall j, p | 0 <= j < |r| && p in Pred(g, r[j])
      ensures p in r[..j]
    {
      if j < |result| {
        assert r[..j] == result[..j];
      } else {
        assert r[..j] == result;
      }
    }
  }

  lemma RemovedAfter(g: Graph, re: set<(int, int)>, result: seq<int>, c: int)
    requires RemovedAre(g, re, result)
    ensures RemovedAre(g, re + set s | s in Succ(g, c) :: (c, s), result + [c])
  {
  }

  /** A met vertex whose predecessors are now all in the result is seen. */
  lemma ReleasedCloses(g: Graph, visits: seq<int>, result: seq<int>, seen: seq<int>, re: set<(int, int)>,
                       c: int, rel: seq<int>)
    requires Valid(g) && QueuedWhenReady(g, visits, result, seen)
    requires RemovedAre(g, re, result)
    requires rel == Filter(Succ(g, c), Releasable(g, re, c))
    ensures QueuedWhenReady(g, visits, result + [c], seen + rel)
  {
    forall v | v in visits && (forall p :: p in Pred(g, v) ==> p in result + [c])
      ensures v in seen + rel
    {
      if c in Pred(g, v) {
        ReleasableHolds(g, re, result, c, v);
      } else {
        assert forall p :: p in Pred(g, v) ==> p in result;
        assert v in seen;
      }
    }
  }

  lemma ReleasableHolds(g: Graph, re: set<(int, int)>, result: seq<int>, c: int, v: int)
    requires Valid(g) && RemovedAre(g, re, result) && c in Pred(g, v)
    requires forall p :: p in Pred(g, v) ==> p in result + [c]
    ensures v in Succ(g, c) && Releasable(g, re, c)(v)
  {
    assert (c, v) in g.edges;
    forall p | p in Pred(g, v) && p != c
      ensures (p, v) in re
    {
      assert (p, v) in g.edges;
    }
  }

  lemma StopsOnlyLast(cb: int -> bool, s: seq<int>, c: int)
    requires NoneStops(cb, s)
    ensures forall i :: 0 <= i < |s + [c]| - 1 ==> !cb((s + [c])[i])
  {
  }

  /** The final result keeps everything the invariant says about result and queue. */
  lemma Finish(g: Graph, root: int, visits: seq<int>, result: seq<int>, dq: seq<int>, re: set<(int, int)>)
    requires Inv(g, visits, result, dq, re)
    requires forall v :: v in visits <==> Reachable(Neighbours(g), root, v)
    ensures NoDup(result) && SourcesFirst(g, result) && AllReachable(g, root, result)
    ensures dq == [] ==> Closed(g, root, result)
  {
    NoDupPrefix(result, dq);
    forall i, j | 0 <= i < j < |result| && Pred(g, result[j]) == []
      ensures Pred(g, result[i]) == []
    {
      assert (result + dq)[i] == result[i] && (result + dq)[j] == result[j];
    }
    assert forall v :: v in result ==> v in Elems(result + dq);
    if dq == [] {
      assert result + dq == result;
    }
  }

  /** Consecutive vertices of `p` are joined by edges of `g`. */
  ghost predicate EdgePath(g: Graph, p: seq<int>) {
    |p| >= 1 && forall i :: 0 <= i < |p| - 1 ==> (p[i], p[i + 1]) in g.edges
  }

  /**
   * In a result whose predecessors come first, the start of an edge path ending among the
   * first `n` entries is among the first `n - (|p| - 1)`: each edge back moves one place earlier.
   */
  lemma {:induction false} UpstreamEarlier(g: Graph, result: seq<int>, p: seq<int>, n: nat)
    requires Valid(g) && PredsEarlier(g, result) && EdgePath(g, p)
    requires n <= |result| && p[|p| - 1] in result[..n]
    ensures |p| <= n && p[0] in result[..n - (|p| - 1)]
  {
    if |p| > 1 {
      var last := p[|p| - 1];
      var q := p[|p| - 2];
      var j :| 0 <= j < n && result[j] == last;
      assert (q, last) in g.edges;
      assert q in result[..j];
      assert q in result[..n - 1];
      UpstreamEarlier(g, result, p[..|p| - 1], n - 1);
    }
  }

  /** A vertex on a cycle is never sorted. */
  lemma OnCycleNeverSorted(g: Graph, result: seq<int>, cycle: seq<int>)
    requires Valid(g) && PredsEarlier(g, result) && NoDup(result)
    requires EdgePath(g, cycle) && |cycle| >= 2 && cycle[0] == cycle[|cycle| - 1]
    ensures cycle[0] !in result
  {
    if cycle[0] in result {
      var j :| 0 <= j < |result| && result[j] == cycle[0];
      UpstreamEarlier(g, result, cycle, j + 1);
      assert false;
    }
  }

  /** Nor is any vertex an edge path leads to from a cycle. */
  lemma DownstreamOfCycleNeverSorted(g: Graph, result: seq<int>, cycle: seq<int>, p: seq<int>)
    requires Valid(g) && PredsEarlier(g, result) && NoDup(result)
    requires EdgePath(g, cycle) && |cycle| >= 2 && cycle[0] == cycle[|cycle| - 1]
    requires EdgePath(g, p) && p[0] == cycle[0]
    ensures p[|p| - 1] !in result
  {
    OnCycleNeverSorted(g, result, cycle);
    if p[|p| - 1] in result {
      var j :| 0 <= j < |result| && result[j] == p[|p| - 1];
      UpstreamEarlier(g, result, p, j + 1);
      assert false;
    }
  }

  /**
   * On a graph ranked so that every edge climbs in rank (a graph without cycles), a closed
   * result holds every vertex reachable from the root.
   */
  lemma {:induction false} RankedAllSorted(g: Graph, root: int, result: seq<int>, rank: int -> nat, v: int)
    requires Valid(g) && Closed(g, root, result)
    requires forall u, w :: (u, w) in g.edges ==> rank(u) < rank(w)
    requires Reachable(Neighbours(g), root, v)
    ensures v in result
    decreases rank(v)
  {
    forall p | p in Pred(g, v)
      ensures p in result
    {
      assert (p, v) in g.edges;
      assert p in Adj(Neighbours(g), v);
      ReachableStep(Neighbours(g), root, v, p);
      RankedAllSorted(g, root, result, rank, p);
    }
  }
}

=== FILE: matrix.dfy ===
/**
 * Incidence matrices between adjacent layers (`celaeno::graph::matrix_realization`). For each
 * i below `height - 1` the source takes layers i and i + 1 from the `get_layer` callback, starts
 * from a |layer i| x |layer i+1| matrix of zeros and writes 1 at [r][c] whenever `has_edge`
 * holds between the r-th vertex of layer i and the c-th vertex of layer i + 1. `height` is an
 * unsigned 64-bit value, so `height - 1` wraps round when `height` is 0.
 */
module MatrixRealization {
  import Graphs
  import Depth

  /** 2^64: the modulus of the source's `uint64_t` arithmetic. */
  const Word: int := 0x1_0000_0000_0000_0000

  /** `height - 1` as a `uint64_t`: the number of layer pairs the loop visits. */
  function PairCount(height: nat): (n: nat)
    requires height < Word
    ensures height >= 1 ==> n == height - 1
    ensures height == 0 ==> n == Word - 1
  {
    (height + Word - 1) % Word
  }

  /** `m` is the incidence matrix of `l1` against `l2` under `hasEdge`: 1 exactly where an edge exists. */
  ghost predicate Realizes(m: seq<seq<int>>, l1: seq<int>, l2: seq<int>, hasEdge: (int, int) -> bool) {
    && |m| == |l1|
    && (forall r :: 0 <= r < |m| ==> |m[r]| == |l2|)
    && (forall r, c :: 0 <= r < |m| && 0 <= c < |l2| && c < |m[r]| ==> (m[r][c] == 1 <==> hasEdge(l1[r], l2[c])))
    && (forall r, c :: 0 <= r < |m| && 0 <= c < |l2| && c < |m[r]| ==> (m[r][c] == 0 <==> !hasEdge(l1[r], l2[c])))
  }

  /** The matrix of zeros the source starts from. */
  function Zeros(rows: nat, cols: nat): (m: seq<seq<int>>)
    ensures |m| == rows && forall r :: 0 <= r < rows ==> m[r] == seq(cols, _ => 0)
  {
    seq(rows, _ => seq(cols, _ => 0))
  }

  /** The two nested loops over the enumerated layers for one pair of layers. */
  method Incidence(l1: seq<int>, l2: seq<int>, hasEdge: (int, int) -> bool) returns (m: seq<seq<int>>)
    ensures Realizes(m, l1, l2, hasEdge)
  {
    m := Zeros(|l1|, |l2|);
    var r := 0;
    while r < |l1|
      invariant 0 <= r <= |l1| && |m| == |l1|
      invariant forall i :: 0 <= i < |m| ==> |m[i]| == |l2|
      invariant forall i, c :: 0 <= i < r && 0 <= c < |l2| ==> m[i][c] == if hasEdge(l1[i], l2[c]) then 1 else 0
      invariant forall i, c :: r <= i < |l1| && 0 <= c < |l2| ==> m[i][c] == 0
    {
      var c := 0;
      while c < |l2|
        invariant 0 <= c <= |l2| && |m| == |l1|
        invariant forall i :: 0 <= i < |m| ==> |m[i]| == |l2|
        invariant forall i, k :: 0 <= i < r && 0 <= k < |l2| ==> m[i][k] == if hasEdge(l1[i], l2[k]) then 1 else 0
        invariant forall k :: 0 <= k < c ==> m[r][k] == if hasEdge(l1[r], l2[k]) then 1 else 0
        invariant forall k :: c <= k < |l2| ==> m[r][k] == 0
        invariant forall i, k :: r < i < |l1| && 0 <= k < |l2| ==> m[i][k] == 0
      {
        if hasEdge(l1[r], l2[c]) {
          m := m[r := m[r][c := 1]];
        }
        c := c + 1;
      }
      r := r + 1;
    }
  }

  /**
   * `matrix_realization(get_layer, has_edge, height)`: one matrix per adjacent pair of layers,
   * matrix i between layer i and layer i + 1; `height - 1` matrices, or 2^64 - 1 when `height` is 0.
   */
  method Realize(layer: nat -> seq<int>, hasEdge: (int, int) -> bool, height: nat) returns (result: seq<seq<seq<int>>>)
    requires height < Word
    ensures |result| == PairCount(height)
    ensures forall i :: 0 <= i < |result| ==> Realizes(result[i], layer(i), layer(i + 1), hasEdge)
  {
    result := [];
    var i := 0;
    while i < PairCount(height)
      invariant 0 <= i <= PairCount(height) && |result| == i
      invariant forall j :: 0 <= j < i ==> Realizes(result[j], layer(j), layer(j + 1), hasEdge)
    {
      var m := Incidence(layer(i), layer(i + 1), hasEdge);
      result := result + [m];
      i := i + 1;
    }
  }

  /**
   * The layers of the matrix-realization test graph, sorted, as `get_layer` returns them from
   * the levels of `depth(1, succ, pred)` (`TestLevels`). The test itself calls
   * `depth(1, pred, succ)`, whose levels are those of the reversed graph (`SwappedLevels`).
   */
  function TestLayer(i: nat): seq<int> {
    if i == 0 then [1, 2]
    else if i == 1 then [3, 4, 5, 6]
    else if i == 2 then [7, 8, 9, 10]
    else if i == 3 then [11, 12, 13]
    else []
  }

  /** The edges of the four-layer test graph. */
  const TestEdges: set<(int, int)> := {
    (1, 3), (1, 4), (1, 5), (1, 6), (2, 3), (2, 6),
    (3, 7), (5, 7), (5, 10), (4, 8), (4, 9), (4, 10),
    (7, 11), (9, 11), (9, 13), (10, 11), (10, 12)
  }

  /** The edges of the three-layer test graph: the first twelve, without those into layer 3. */
  const TestEdgesOdd: set<(int, int)> := {
    (1, 3), (1, 4), (1, 5), (1, 6), (2, 3), (2, 6),
    (3, 7), (5, 7), (5, 10), (4, 8), (4, 9), (4, 10)
  }

  /** The successor lists of the test graph, in insertion order; `odd` leaves out the edges into layer 3. */
  function TestSuccList(odd: bool, v: int): seq<int> {
    if v == 1 then [3, 4, 5, 6]
    else if v == 2 then [3, 6]
    else if v == 3 then [7]
    else if v == 4 then [8, 9, 10]
    else if v == 5 then [7, 10]
    else if odd then []
    else if v == 7 then [11]
    else if v == 9 then [11, 13]
    else if v == 10 then [11, 12]
    else []
  }

  /** The predecessor lists of the test graph, in insertion order. */
  function TestPredList(odd: bool, v: int): seq<int> {
    if v == 3 || v == 6 then [1, 2]
    else if v == 4 || v == 5 then [1]
    else if v == 7 then [3, 5]
    else if v == 8 || v == 9 then [4]
    else if v == 10 then [5, 4]
    else if odd then []
    else if v == 11 then [7, 9, 10]
    else if v == 12 then [10]
    else if v == 13 then [9]
    else []
  }

  /** The test graph as the graph library holds it. */
  function TestGraph(odd: bool): Graphs.Graph {
    Graphs.Graph(if odd then TestEdgesOdd else TestEdges,
                 map v | 1 <= v <= 13 :: TestSuccList(odd, v),
                 map v | 1 <= v <= 13 :: TestPredList(odd, v))
  }

  /** Its vertices: 1 to 13, or 1 to 10 without layer 3. */
  function TestVertices(odd: bool): set<int> {
    if odd then {1, 2, 3, 4, 5, 6, 7, 8, 9, 10} else {1, 2, 3, 4, 5, 6, 7, 8, 9, 10, 11, 12, 13}
  }

  /** How many layers the test graph has. */
  function TestHeight(odd: bool): nat {
    if odd then 3 else 4
  }

  /** The longest-path level of each vertex of the test graph: the index of its `TestLayer`. */
  function TestLevel(odd: bool): map<int, int> {
    map v | v in TestVertices(odd) :: if v <= 2 then 0 else if v <= 6 then 1 else if v <= 10 then 2 else 3
  }

  /**
   * The longest-path level of each vertex once every edge is turned round: sinks at 0. With
   * all four layers 6, 8, 11, 12, 13 are at 0; 7, 9, 10 at 1; 3, 4, 5 at 2; 1, 2 at 3. Without
   * layer 3, 6 to 10 are at 0; 3, 4, 5 at 1; 1, 2 at 2.
   */
  function SwappedLevel(odd: bool): map<int, int> {
    if odd then
      map v | v in TestVertices(odd) :: if v <= 2 then 2 else if v <= 5 then 1 else 0
    else
      map v | v in TestVertices(odd) ::
        if v <= 2 then 3 else if v <= 5 then 2 else if v == 7 || v == 9 || v == 10 then 1 else 0
  }

  lemma TestLists(odd: bool, v: int)
    ensures Graphs.Pred(TestGraph(odd), v) == TestPredList(odd, v)
    ensures Graphs.Succ(TestGraph(odd), v) == TestSuccList(odd, v)
  {
  }

  /** The test graph's predecessor lists. */
  lemma ForwardLists(odd: bool)
    ensures forall x :: Graphs.Pred(TestGraph(odd), x) == TestPredList(odd, x)
  {
    forall x
      ensures Graphs.Pred(TestGraph(odd), x) == TestPredList(odd, x)
    {
      TestLists(odd, x);
    }
  }

  /** The reversed test graph lists as predecessors the test graph's successors. */
  lemma ReversedLists(odd: bool)
    ensures forall x :: Graphs.Pred(Graphs.Reverse(TestGraph(odd)), x) == TestSuccList(odd, x)
  {
    forall x
      ensures Graphs.Pred(Graphs.Reverse(TestGraph(odd)), x) == TestSuccList(odd, x)
    {
      TestLists(odd, x);
    }
  }

  /** The levels of `TestLayer` are the longest-path levels of a graph with the test graph's predecessor lists. */
  lemma TestLayered(odd: bool, g: Graphs.Graph)
    requires forall x :: Graphs.Pred(g, x) == TestPredList(odd, x)
    ensures Depth.Layered(g, TestLevel(odd)) && TestLevel(odd).Keys == TestVertices(odd)
  {
    var level := TestLevel(odd);
    forall v | v in level
      ensures level[v] >= 0 && (level[v] == 0 <==> Graphs.Pred(g, v) == [])
      ensures forall p :: p in Graphs.Pred(g, v) ==> p in level && level[p] < level[v]
      ensures Depth.TightAt(g, level, v)
    {
      TestAt(odd, g, v);
    }
  }

  /** One vertex of the test graph: its level against its predecessors'. */
  lemma TestAt(odd: bool, g: Graphs.Graph, v: int)
    requires forall x :: Graphs.Pred(g, x) == TestPredList(odd, x)
    requires v in TestLevel(odd)
    ensures var level := TestLevel(odd);
      && level[v] >= 0 && (level[v] == 0 <==> Graphs.Pred(g, v) == [])
      && (forall p :: p in Graphs.Pred(g, v) ==> p in level && level[p] < level[v])
      && Depth.TightAt(g, level, v)
  {
    var level := TestLevel(odd);
    assert Graphs.Pred(g, v) == TestPredList(odd, v);
    if level[v] > 0 {
      var p := Graphs.Pred(g, v)[0];
      assert p in Graphs.Pred(g, v) && p in level && level[p] == level[v] - 1;
    }
  }

  /** `SwappedLevel` is the longest-path layering of a graph whose predecessor lists are the test graph's successor lists. */
  lemma SwappedLayered(odd: bool, g: Graphs.Graph)
    requires forall x :: Graphs.Pred(g, x) == TestSuccList(odd, x)
    ensures Depth.Layered(g, SwappedLevel(odd)) && SwappedLevel(odd).Keys == TestVertices(odd)
  {
    var level := SwappedLevel(odd);
    forall v | v in level
      ensures level[v] >= 0 && (level[v] == 0 <==> Graphs.Pred(g, v) == [])
      ensures forall p :: p in Graphs.Pred(g, v) ==> p in level && level[p] < level[v]
      ensures Depth.TightAt(g, level, v)
    {
      SwappedAt(odd, g, v);
    }
  }

  /** One vertex of the reversed test graph: its level against its predecessors', that is its successors'. */
  lemma SwappedAt(odd: bool, g: Graphs.Graph, v: int)
    requires forall x :: Graphs.Pred(g, x) == TestSuccList(odd, x)
    requires v in SwappedLevel(odd)
    ensures var level := SwappedLevel(odd);
      && level[v] >= 0 && (level[v] == 0 <==> Graphs.Pred(g, v) == [])
      && (forall p :: p in Graphs.Pred(g, v) ==> p in level && level[p] < level[v])
      && Depth.TightAt(g, level, v)
  {
    var level := SwappedLevel(odd);
    assert Graphs.Pred(g, v) == TestSuccList(odd, v);
    if level[v] > 0 {
      var p := if v == 4 then 9 else Graphs.Pred(g, v)[0];
      assert p in Graphs.Pred(g, v) && p in level && level[p] == level[v] - 1;
    }
  }

  /** `layer(i)` holds exactly the vertices at level `i`, for each of the `height` levels. */
  ghost predicate ListedBy(level: map<int, int>, layer: nat -> seq<int>, height: nat) {
    && (forall v :: v in level ==> 0 <= level[v] < height)
    && (forall i: nat, v :: i < height ==> (v in layer(i) <==> v in level && level[v] == i))
  }

  /**
   * What `depth(1, succ, pred)` yields on the test graph: every longest-path layering of its
   * vertices puts each vertex on the level of the `TestLayer` list that holds it.
   */
  lemma TestLevels(odd: bool, level: map<int, int>)
    requires Depth.Layered(TestGraph(odd), level) && level.Keys == TestVertices(odd)
    ensures ListedBy(level, TestLayer, TestHeight(odd))
  {
    ForwardLists(odd);
    TestLevelsOf(odd, TestGraph(odd), level);
  }

  /** `TestLevels` for any graph with the test graph's predecessor lists. */
  lemma TestLevelsOf(odd: bool, g: Graphs.Graph, level: map<int, int>)
    requires forall x :: Graphs.Pred(g, x) == TestPredList(odd, x)
    requires Depth.Layered(g, level) && level.Keys == TestVertices(odd)
    ensures ListedBy(level, TestLayer, TestHeight(odd))
  {
    TestLayered(odd, g);
    SameLevels(g, level, TestLevel(odd), TestVertices(odd));
    TestLevelLists(odd, level);
  }

  /** Two layerings of the same vertex set are equal. */
  lemma SameLevels(g: Graphs.Graph, level: map<int, int>, ref: map<int, int>, vs: set<int>)
    requires Depth.Layered(g, level) && level.Keys == vs
    requires Depth.Layered(g, ref) && ref.Keys == vs
    ensures level == ref
  {
    Depth.LayeredUnique(g, level, ref);
  }

  lemma TestLevelLists(odd: bool, level: map<int, int>)
    requires level == TestLevel(odd)
    ensures ListedBy(level, TestLayer, TestHeight(odd))
  {
    forall i: nat, v | i < TestHeight(odd)
      ensures v in TestLayer(i) <==> v in level && level[v] == i
    {
      if v in TestLayer(i) {
        assert v in TestVertices(odd);
      }
    }
  }

  /** `SwappedLayer` as a `get_layer` callback. */
  function SwappedLayers(odd: bool): nat -> seq<int> {
    (i: nat) => SwappedLayer(odd, i)
  }

  /** The layer lists `get_layer` would return from `SwappedLevel`, sorted. */
  function SwappedLayer(odd: bool, i: nat): seq<int> {
    if odd then
      if i == 0 then [6, 7, 8, 9, 10] else if i == 1 then [3, 4, 5] else if i == 2 then [1, 2] else []
    else
      if i == 0 then [6, 8, 11, 12, 13] else if i == 1 then [7, 9, 10] else if i == 2 then [3, 4, 5]
      else if i == 3 then [1, 2] else []
  }

  /**
   * What the test's `depth(1, pred, succ)` yields: `depth` takes its callbacks as successors,
   * then predecessors, so it levels the reversed graph, and every longest-path layering of that
   * puts each vertex on the level of the `SwappedLayer` list that holds it: the sink 6 at level
   * 0 and the source 1 on the top level.
   */
  lemma SwappedLevels(odd: bool, level: map<int, int>)
    requires Depth.Layered(Graphs.Reverse(TestGraph(odd)), level) && level.Keys == TestVertices(odd)
    ensures 6 in level && level[6] == 0 && 1 in level && level[1] == TestHeight(odd) - 1
    ensures ListedBy(level, SwappedLayers(odd), TestHeight(odd))
  {
    ReversedLists(odd);
    SwappedLevelsOf(odd, Graphs.Reverse(TestGraph(odd)), level);
  }

  /** `SwappedLevels` for any graph whose predecessor lists are the test graph's successor lists. */
  lemma SwappedLevelsOf(odd: bool, g: Graphs.Graph, level: map<int, int>)
    requires forall x :: Graphs.Pred(g, x) == TestSuccList(odd, x)
    requires Depth.Layered(g, level) && level.Keys == TestVertices(odd)
    ensures 6 in level && level[6] == 0 && 1 in level && level[1] == TestHeight(odd) - 1
    ensures ListedBy(level, SwappedLayers(odd), TestHeight(odd))
  {
    SwappedLayered(odd, g);
    SameLevels(g, level, SwappedLevel(odd), TestVertices(odd));
    SwappedLevelLists(odd, level);
  }

  lemma SwappedLevelLists(odd: bool, level: map<int, int>)
    requires level == SwappedLevel(odd)
    ensures 6 in level && level[6] == 0 && 1 in level && level[1] == TestHeight(odd) - 1
    ensures ListedBy(level, SwappedLayers(odd), TestHeight(odd))
  {
    forall i: nat, v | i < TestHeight(odd)
      ensures v in SwappedLayers(odd)(i) <==> v in level && level[v] == i
    {
      if v in SwappedLayer(odd, i) {
        assert v in TestVertices(odd);
      }
    }
  }

  const M1: seq<seq<int>> := [[1, 1, 1, 1], [1, 0, 0, 1]]
  const M2: seq<seq<int>> := [[1, 0, 0, 0], [0, 1, 1, 1], [1, 0, 0, 1], [0, 0, 0, 0]]
  const M3: seq<seq<int>> := [[1, 0, 0], [0, 0, 0], [1, 0, 1], [1, 1, 0]]

  /** Two matrices that both realize the same layers under the same edges are equal. */
  lemma {:induction false} RealizedUnique(m: seq<seq<int>>, n: seq<seq<int>>, l1: seq<int>, l2: seq<int>,
                                          hasEdge: (int, int) -> bool)
    requires Realizes(m, l1, l2, hasEdge) && Realizes(n, l1, l2, hasEdge)
    ensures m == n
  {
    forall r | 0 <= r < |m|
      ensures m[r] == n[r]
    {
      forall c | 0 <= c < |l2|
        ensures m[r][c] == n[r][c]
      {
        if hasEdge(l1[r], l2[c]) {
          assert m[r][c] == 1 && n[r][c] == 1;
        } else {
          assert m[r][c] == 0 && n[r][c] == 0;
        }
      }
    }
  }

  /** Whether the test graph has the edge v -> u. */
  predicate TestEdge(v: int, u: int) {
    (v, u) in TestEdges
  }

  /** Whether the three-layer test graph has the edge v -> u. */
  predicate TestEdgeOdd(v: int, u: int) {
    (v, u) in TestEdgesOdd
  }

  /** The `has_edge` callback of each test graph. */
  function TestEdgeFn(odd: bool): (int, int) -> bool {
    if odd then TestEdgeOdd else TestEdge
  }

  /** The first expected matrix realizes layers 0 and 1 of either test graph. */
  lemma TestM1(odd: bool)
    ensures Realizes(M1, TestLayer(0), TestLayer(1), TestEdgeFn(odd))
  {
    var l1, l2, e := TestLayer(0), TestLayer(1), TestEdgeFn(odd);
    assert l1 == [1, 2] && l2 == [3, 4, 5, 6];
    forall r, c | 0 <= r < 2 && 0 <= c < 4
      ensures M1[r][c] == if e(l1[r], l2[c]) then 1 else 0
    {
    }
  }

  /** The second expected matrix realizes layers 1 and 2 of either test graph. */
  lemma TestM2(odd: bool)
    ensures Realizes(M2, TestLayer(1), TestLayer(2), TestEdgeFn(odd))
  {
    var l1, l2, e := TestLayer(1), TestLayer(2), TestEdgeFn(odd);
    assert l1 == [3, 4, 5, 6] && l2 == [7, 8, 9, 10];
    forall r, c | 0 <= r < 4 && 0 <= c < 4
      ensures M2[r][c] == if e(l1[r], l2[c]) then 1 else 0
    {
    }
  }

  /** The third expected matrix realizes layers 2 and 3 of the four-layer test graph. */
  lemma TestM3()
    ensures Realizes(M3, TestLayer(2), TestLayer(3), TestEdge)
  {
    var l1, l2 := TestLayer(2), TestLayer(3);
    assert l1 == [7, 8, 9, 10] && l2 == [11, 12, 13];
    forall r, c | 0 <= r < 4 && 0 <= c < 3
      ensures M3[r][c] == if TestEdge(l1[r], l2[c]) then 1 else 0
    {
    }
  }

  /**
   * The four-layer subcase with the layers of `depth(1, succ, pred)` (`TestLevels`): the result
   * is exactly the three expected matrices.
   */
  method TestRealization() returns (result: seq<seq<seq<int>>>)
    ensures result == [M1, M2, M3]
  {
    var e := TestEdge;
    result := Realize(TestLayer, e, 4);
    TestM1(false);
    TestM2(false);
    TestM3();
    RealizedUnique(result[0], M1, TestLayer(0), TestLayer(1), e);
    RealizedUnique(result[1], M2, TestLayer(1), TestLayer(2), e);
    RealizedUnique(result[2], M3, TestLayer(2), TestLayer(3), e);
  }

  /**
   * The three-layer subcase, on its own twelve edges, with the layers of `depth(1, succ, pred)`
   * (height 3): the first two expected matrices.
   */
  method TestRealizationOdd() returns (result: seq<seq<seq<int>>>)
    ensures result == [M1, M2]
  {
    var e := TestEdgeOdd;
    result := Realize(TestLayer, e, 3);
    TestM1(true);
    TestM2(true);
    RealizedUnique(result[0], M1, TestLayer(0), TestLayer(1), e);
    RealizedUnique(result[1], M2, TestLayer(1), TestLayer(2), e);
  }

  /** Between the sinks and the next swapped layer there is no edge: the 5 x 3 matrix of zeros. */
  lemma SwappedM0(odd: bool)
    ensures Realizes(Zeros(5, 3), SwappedLayer(odd, 0), SwappedLayer(odd, 1), TestEdgeFn(odd))
  {
    var l1, l2, e, m := SwappedLayer(odd, 0), SwappedLayer(odd, 1), TestEdgeFn(odd), Zeros(5, 3);
    assert |l1| == 5 && |l2| == 3;
    forall r, c | 0 <= r < 5 && 0 <= c < 3
      ensures !e(l1[r], l2[c]) && m[r][c] == 0
    {
    }
  }

  /**
   * Either subcase as the test writes it, with the layers of `depth(1, pred, succ)`
   * (`SwappedLevels`): as many matrices as expected, but the first is the 5 x 3 matrix of
   * zeros between the sinks and the next layer, not the 2 x 4 matrix `M1`.
   */
  method TestRealizationSwapped(odd: bool) returns (result: seq<seq<seq<int>>>)
    ensures |result| == TestHeight(odd) - 1
    ensures result[0] == Zeros(5, 3) && result[0] != M1
  {
    var e := TestEdgeFn(odd);
    var layer := SwappedLayers(odd);
    result := Realize(layer, e, TestHeight(odd));
    assert layer(0) == SwappedLayer(odd, 0) && layer(1) == SwappedLayer(odd, 1);
    SwappedM0(odd);
    RealizedUnique(result[0], Zeros(5, 3), SwappedLayer(odd, 0), SwappedLayer(odd, 1), e);
    assert |M1| == 2;
  }
}

=== FILE: redcard.dfy ===
/**
 * Cardinality reduction (`celaeno::graph::red_card::red_card`, one pass in `red-card.hpp`,
 * repeated in `hook.hpp`): every vertex met by a breadth-first search from vertex 0 has its
 * successor list cut into consecutive pairs (a, b); each pair is moved under a fresh pseudo
 * vertex s, so v -> a and v -> b become v -> s, s -> a and s -> b. Pseudo ids count down from
 * `start`. The `root` argument is not read: both files search from the literal 0.
 */
module RedCard {
  import opened Seqs
  import opened Graphs
  import Bfs

  /** `split_every(2, s)` with the short last group dropped: the consecutive pairs of `s`. */
  function Pairs(s: seq<int>): (t: seq<(int, int)>)
    ensures |t| == |s| / 2
    decreases |s|
  {
    if |s| < 2 then [] else [(s[0], s[1])] + Pairs(s[2..])
  }

  /** The pairs laid out again, first then second. */
  function Flat(t: seq<(int, int)>): (s: seq<int>)
    ensures |s| == 2 * |t|
    decreases |t|
  {
    if |t| == 0 then [] else [t[0].0, t[0].1] + Flat(t[1..])
  }

  /** Pairing loses only the odd trailing element: laid out again, the pairs are the even-length prefix. */
  lemma {:induction false} PairsFlat(s: seq<int>)
    ensures Flat(Pairs(s)) == s[..2 * (|s| / 2)]
    decreases |s|
  {
    if |s| >= 2 {
      PairsFlat(s[2..]);
      assert s[2..][..2 * (|s[2..]| / 2)] == s[2..2 * (|s| / 2)];
    }
  }

  /** The `i`-th pair holds the elements at 2i and 2i+1. */
  lemma {:induction false} PairsAt(s: seq<int>, i: nat)
    requires i < |s| / 2
    ensures Pairs(s)[i] == (s[2 * i], s[2 * i + 1])
    decreases i
  {
    if i > 0 {
      PairsAt(s[2..], i - 1);
    }
  }

  /** The ids handed to `n` pseudo vertices: start, start-1, ..., start-n+1. */
  function Ids(start: int, n: nat): (ids: seq<int>)
    ensures |ids| == n
    decreases n
  {
    if n == 0 then [] else [start] + Ids(start - 1, n - 1)
  }

  /** The first loop over the pairs: unlink v -> a and v -> b for each pair (a, b). */
  function Detach(g: Graph, v: int, t: seq<(int, int)>): (r: Graph)
    requires Valid(g)
    ensures Valid(r)
    decreases |t|
  {
    if |t| == 0 then g else Detach(Unlink(Unlink(g, v, t[0].0), v, t[0].1), v, t[1..])
  }

  /** The second loop: for each pair hang it under a fresh s (see `Hang`), then count down. */
  function Attach(g: Graph, v: int, t: seq<(int, int)>, start: int): (r: (Graph, int))
    ensures r.1 == start - |t|
    decreases |t|
  {
    if |t| == 0 then (g, start)
    else Attach(Hang(g, v, t[0].0, t[0].1, start), v, t[1..], start - 1)
  }

  /** One iteration of the pass for the vertex `v`; ids from `start` down must be unused. */
  function PairVertex(g: Graph, v: int, start: int): (r: (Graph, int))
    requires Valid(g) && Below(g.edges, start)
    ensures Valid(r.0) && Below(r.0.edges, r.1) && r.1 == start - |Succ(g, v)| / 2
  {
    var t := Pairs(Succ(g, v));
    VertexReady(g, v, start);
    AttachValid(Detach(g, v, t), v, t, start);
    AttachBelow(Detach(g, v, t), v, t, start);
    Attach(Detach(g, v, t), v, t, start)
  }

  /** The pass: every vertex of `order` in turn, with the ids continuing from one to the next. */
  function PairPass(g: Graph, order: seq<int>, start: int): (r: (Graph, int))
    requires Valid(g) && Below(g.edges, start)
    ensures Valid(r.0) && Below(r.0.edges, r.1) && r.1 <= start
    decreases |order|
  {
    if |order| == 0 then (g, start)
    else
      var s := PairVertex(g, order[0], start);
      PairPass(s.0, order[1..], s.1)
  }

  /** Unlinking one pair at the head of v's list: the tail is left and the pair loses v as a parent. */
  lemma DetachStep(g: Graph, v: int, a: int, b: int, rest: seq<int>)
    requires Valid(g) && Succ(g, v) == [a, b] + rest
    ensures var r := Unlink(Unlink(g, v, a), v, b);
      && Succ(r, v) == rest
      && (forall x :: x != v ==> Succ(r, x) == Succ(g, x))
      && (forall x :: x != a && x != b ==> Pred(r, x) == Pred(g, x))
      && |Pred(r, a)| == |Pred(g, a)| - 1 && |Pred(r, b)| == |Pred(g, b)| - 1
      && r.edges == g.edges - {(v, a), (v, b)}
      && a != b && a !in rest && b !in rest
  {
    var s := Succ(g, v);
    assert NoDup(s);
    assert s[0] == a && s[1] == b && s[2..] == rest;
    var g1 := Unlink(g, v, a);
    assert (v, a) in g.edges;
    RemoveHead(s);
    assert Succ(g1, v) == s[1..];
    assert (v, b) in g1.edges;
    RemoveHead(s[1..]);
    assert s[1..][1..] == rest;
  }

  /** Unlinking the pairs at the head of v's list leaves the rest of the list. */
  lemma {:induction false} DetachSucc(g: Graph, v: int, t: seq<(int, int)>, rest: seq<int>)
    requires Valid(g) && Succ(g, v) == Flat(t) + rest
    ensures Succ(Detach(g, v, t), v) == rest
    ensures forall x :: x != v ==> Succ(Detach(g, v, t), x) == Succ(g, x)
    decreases |t|
  {
    if |t| > 0 {
      var g2 := Unlink(Unlink(g, v, t[0].0), v, t[0].1);
      assert Succ(g, v) == [t[0].0, t[0].1] + (Flat(t[1..]) + rest);
      DetachStep(g, v, t[0].0, t[0].1, Flat(t[1..]) + rest);
      DetachSucc(g2, v, t[1..], rest);
    }
  }

  /** The predecessor list of a vertex outside the pairs is untouched. */
  lemma {:induction false} DetachPredKeep(g: Graph, v: int, t: seq<(int, int)>, rest: seq<int>)
    requires Valid(g) && Succ(g, v) == Flat(t) + rest
    ensures forall x :: x !in Flat(t) ==> Pred(Detach(g, v, t), x) == Pred(g, x)
    decreases |t|
  {
    if |t| > 0 {
      var a, b := t[0].0, t[0].1;
      var g2 := Unlink(Unlink(g, v, a), v, b);
      assert Succ(g, v) == [a, b] + (Flat(t[1..]) + rest);
      DetachStep(g, v, a, b, Flat(t[1..]) + rest);
      DetachPredKeep(g2, v, t[1..], rest);
      assert Flat(t) == [a, b] + Flat(t[1..]);
    }
  }

  /** Each paired child loses exactly one parent, v. */
  lemma {:induction false} DetachPredCount(g: Graph, v: int, t: seq<(int, int)>, rest: seq<int>)
    requires Valid(g) && Succ(g, v) == Flat(t) + rest
    ensures forall x :: x in Flat(t) ==> |Pred(Detach(g, v, t), x)| == |Pred(g, x)| - 1
    decreases |t|
  {
    if |t| > 0 {
      var a, b := t[0].0, t[0].1;
      var tail := Flat(t[1..]);
      var g2 := Unlink(Unlink(g, v, a), v, b);
      assert Succ(g, v) == [a, b] + (tail + rest);
      DetachStep(g, v, a, b, tail + rest);
      DetachPredCount(g2, v, t[1..], rest);
      DetachPredKeep(g2, v, t[1..], rest);
      assert Detach(g, v, t) == Detach(g2, v, t[1..]);
      assert Flat(t) == [a, b] + tail;
      forall x | x in Flat(t)
        ensures |Pred(Detach(g, v, t), x)| == |Pred(g, x)| - 1
      {
        if x == a || x == b {
          assert x !in tail;
        } else {
          assert x in tail;
        }
      }
    }
  }

  /** Exactly the edges from v to the paired children go. */
  lemma {:induction false} DetachEdges(g: Graph, v: int, t: seq<(int, int)>)
    requires Valid(g)
    ensures forall e :: e in Detach(g, v, t).edges <==> e in g.edges && !(e.0 == v && e.1 in Flat(t))
    decreases |t|
  {
    if |t| > 0 {
      var a, b := t[0].0, t[0].1;
      var g2 := Unlink(Unlink(g, v, a), v, b);
      assert g2.edges == g.edges - {(v, a), (v, b)};
      DetachEdges(g2, v, t[1..]);
      assert Flat(t) == [a, b] + Flat(t[1..]);
      assert Detach(g, v, t) == Detach(g2, v, t[1..]);
    }
  }

  /** `x` is one of the children in `t`. */
  predicate Mentions(t: seq<(int, int)>, x: int)
    decreases |t|
  {
    |t| > 0 && (t[0].0 == x || t[0].1 == x || Mentions(t[1..], x))
  }

  /** No child occurs twice in `t`. */
  predicate Distinct(t: seq<(int, int)>)
    decreases |t|
  {
    |t| == 0 ||
    (t[0].0 != t[0].1 && !Mentions(t[1..], t[0].0) && !Mentions(t[1..], t[0].1) && Distinct(t[1..]))
  }

  /** Every child in `t` is above `c`. */
  predicate Above(t: seq<(int, int)>, c: int)
    decreases |t|
  {
    |t| == 0 || (t[0].0 > c && t[0].1 > c && Above(t[1..], c))
  }

  /** The side conditions of the second loop: v and the children lie above `start`, the children are distinct. */
  predicate Pairable(v: int, t: seq<(int, int)>, start: int) {
    (|t| > 0 ==> v > start) && Distinct(t) && Above(t, start)
  }

  lemma {:induction false} AboveMentions(t: seq<(int, int)>, c: int, x: int)
    requires Above(t, c) && Mentions(t, x)
    ensures x > c
    decreases |t|
  {
    if t[0].0 != x && t[0].1 != x {
      AboveMentions(t[1..], c, x);
    }
  }

  lemma {:induction false} AboveLower(t: seq<(int, int)>, c: int, d: int)
    requires Above(t, c) && d <= c
    ensures Above(t, d)
    decreases |t|
  {
    if |t| > 0 {
      AboveLower(t[1..], c, d);
    }
  }

  /** `Mentions` is membership in the laid-out pairs. */
  lemma {:induction false} MentionsFlat(t: seq<(int, int)>, x: int)
    ensures Mentions(t, x) <==> x in Flat(t)
    decreases |t|
  {
    if |t| > 0 {
      MentionsFlat(t[1..], x);
      assert Flat(t) == [t[0].0, t[0].1] + Flat(t[1..]);
    }
  }

  /** An id at or below a fresh bound has no neighbours. */
  lemma FreshIsolated(g: Graph, s: int)
    requires Valid(g) && exists c :: Below(g.edges, c) && s <= c
    ensures Succ(g, s) == [] && Pred(g, s) == []
  {
    assert SuccAgrees(g) && PredAgrees(g);
    assert forall x :: x !in Succ(g, s) && x !in Pred(g, s);
    assert Elems(Succ(g, s)) == {} && Elems(Pred(g, s)) == {};
    NoDupCard(Succ(g, s));
    NoDupCard(Pred(g, s));
  }

  /**
   * `link(s, a)`, `link(s, b)`, `link(v, s)` for a fresh s, written as the list updates they
   * amount to (`HangIsLinks` shows the two agree): s gets the children a, b and the parent v,
   * v gets s appended to its successors, and each of a, b gets s appended to its predecessors.
   */
  function Hang(g: Graph, v: int, a: int, b: int, s: int): (r: Graph)
    ensures r.edges == g.edges + {(s, a), (s, b), (v, s)}
  {
    Graph(g.edges + {(s, a), (s, b), (v, s)},
      g.succ[s := [a, b]][v := Succ(g, v) + [s]],
      g.pred[a := Pred(g, a) + [s]][b := Pred(g, b) + [s]][s := [v]])
  }

  /** For a fresh s and distinct a, b above it, `Hang` is exactly the three links of the source. */
  lemma HangIsLinks(g: Graph, v: int, a: int, b: int, s: int)
    requires Valid(g) && Below(g.edges, s) && v > s && a > s && b > s && a != b
    ensures Hang(g, v, a, b, s) == Link(Link(Link(g, s, a), s, b), v, s)
  {
    FreshIsolated(g, s);
    LinkFresh(g, s, a);
    var g1 := Link(g, s, a);
    assert Succ(g1, s) == [a] && Pred(g1, b) == Pred(g, b);
    LinkFresh(g1, s, b);
    var g2 := Link(g1, s, b);
    assert Succ(g2, v) == Succ(g, v) && Pred(g2, s) == [];
    LinkFresh(g2, v, s);
    Overrides(g.edges, g.succ, g.pred, v, a, b, s, Succ(g, v), Pred(g, a), Pred(g, b));
  }

  lemma Overrides(edges: set<(int, int)>, succ: Adjacency, pred: Adjacency, v: int, a: int, b: int, s: int,
                  sv: seq<int>, pa: seq<int>, pb: seq<int>)
    requires v != s && a != b
    ensures edges + {(s, a)} + {(s, b)} + {(v, s)} == edges + {(s, a), (s, b), (v, s)}
    ensures succ[s := [a]][s := [a] + [b]][v := sv + [s]] == succ[s := [a, b]][v := sv + [s]]
    ensures pred[a := pa + [s]][b := pb + [s]][s := [] + [v]] == pred[a := pa + [s]][b := pb + [s]][s := [v]]
  {
    assert [a] + [b] == [a, b] && [] + [v] == [v];
  }

  /** `Hang` keeps the lists and the edge set in agreement. */
  lemma HangValid(g: Graph, v: int, a: int, b: int, s: int)
    requires Valid(g) && Below(g.edges, s) && v > s && a > s && b > s && a != b
    ensures Valid(Hang(g, v, a, b, s))
  {
    HangIsLinks(g, v, a, b, s);
  }

  lemma BelowGrow(edges: set<(int, int)>, v: int, a: int, b: int, s: int)
    requires Below(edges, s) && v > s && a > s && b > s
    ensures Below(edges + {(s, a), (s, b), (v, s)}, s - 1)
  {
  }

  /** The side conditions carry over from one pair to the next. */
  lemma PairableTail(v: int, t: seq<(int, int)>, start: int)
    requires Pairable(v, t, start) && |t| > 0
    ensures t[0].0 > start && t[0].1 > start && t[0].0 != t[0].1 && v > start
    ensures !Mentions(t[1..], t[0].0) && !Mentions(t[1..], t[0].1) && !Mentions(t[1..], start)
    ensures forall x :: Mentions(t, x) <==> x == t[0].0 || x == t[0].1 || Mentions(t[1..], x)
    ensures Pairable(v, t[1..], start - 1)
  {
    AboveLower(t[1..], start, start - 1);
    if Mentions(t[1..], start) {
      AboveMentions(t[1..], start, start);
    }
  }

  lemma IdsCons(start: int, n: nat)
    requires n > 0
    ensures Ids(start, n) == [start] + Ids(start - 1, n - 1)
  {
  }

  /** The second loop appends the pseudo ids to v's list and touches no other original successor list. */
  lemma {:induction false} AttachSucc(g: Graph, v: int, t: seq<(int, int)>, start: int)
    requires Pairable(v, t, start)
    ensures Succ(Attach(g, v, t, start).0, v) == Succ(g, v) + Ids(start, |t|)
    ensures forall x :: x > start && x != v ==> Succ(Attach(g, v, t, start).0, x) == Succ(g, x)
    decreases |t|
  {
    if |t| > 0 {
      PairableTail(v, t, start);
      var h := Hang(g, v, t[0].0, t[0].1, start);
      AttachSucc(h, v, t[1..], start - 1);
      IdsCons(start, |t|);
      assert Succ(h, v) == Succ(g, v) + [start];
    }
  }

  /** Each paired child gains exactly one new parent; no other original predecessor list changes. */
  lemma {:induction false} AttachPred(g: Graph, v: int, t: seq<(int, int)>, start: int)
    requires Pairable(v, t, start)
    ensures forall x :: x > start && !Mentions(t, x) ==> Pred(Attach(g, v, t, start).0, x) == Pred(g, x)
    ensures forall x :: Mentions(t, x) ==> |Pred(Attach(g, v, t, start).0, x)| == |Pred(g, x)| + 1
    decreases |t|
  {
    if |t| > 0 {
      var a, b := t[0].0, t[0].1;
      PairableTail(v, t, start);
      var h := Hang(g, v, a, b, start);
      AttachPred(h, v, t[1..], start - 1);
      forall x | Mentions(t, x)
        ensures |Pred(Attach(g, v, t, start).0, x)| == |Pred(g, x)| + 1
      {
        if x != a && x != b {
          assert Mentions(t[1..], x);
        }
      }
    }
  }

  /** The i-th pseudo vertex has v as its one parent and the i-th pair as its children. */
  lemma {:induction false} AttachPseudo(g: Graph, v: int, t: seq<(int, int)>, start: int)
    requires Pairable(v, t, start)
    ensures forall i :: 0 <= i < |t| ==>
      Succ(Attach(g, v, t, start).0, start - i) == [t[i].0, t[i].1] && Pred(Attach(g, v, t, start).0, start - i) == [v]
    decreases |t|
  {
    if |t| > 0 {
      PairableTail(v, t, start);
      var h := Hang(g, v, t[0].0, t[0].1, start);
      AttachPseudo(h, v, t[1..], start - 1);
      AttachSucc(h, v, t[1..], start - 1);
      AttachPred(h, v, t[1..], start - 1);
      var r := Attach(g, v, t, start).0;
      assert r == Attach(h, v, t[1..], start - 1).0;
      assert Succ(r, start) == Succ(h, start) == [t[0].0, t[0].1];
      assert Pred(r, start) == Pred(h, start) == [v];
      forall i | 0 < i < |t|
        ensures Succ(r, start - i) == [t[i].0, t[i].1] && Pred(r, start - i) == [v]
      {
        assert t[1..][i - 1] == t[i];
        assert start - i == (start - 1) - (i - 1);
      }
    }
  }

  /** Each id the second loop hands out has one parent and two children. */
  lemma AttachShape(g: Graph, v: int, t: seq<(int, int)>, start: int)
    requires Pairable(v, t, start)
    ensures forall x :: start - |t| < x <= start ==>
      |Pred(Attach(g, v, t, start).0, x)| == 1 && |Succ(Attach(g, v, t, start).0, x)| == 2
  {
    var r := Attach(g, v, t, start).0;
    AttachPseudo(g, v, t, start);
    forall x | start - |t| < x <= start
      ensures |Pred(r, x)| == 1 && |Succ(r, x)| == 2
    {
      var i := start - x;
      assert Succ(r, start - i) == [t[i].0, t[i].1] && Pred(r, start - i) == [v];
    }
  }

  /** The pseudo ids the second loop takes were fresh, and the ones below them stay fresh. */
  lemma {:induction false} AttachBelow(g: Graph, v: int, t: seq<(int, int)>, start: int)
    requires Below(g.edges, start) && Pairable(v, t, start)
    ensures Below(Attach(g, v, t, start).0.edges, start - |t|)
    decreases |t|
  {
    if |t| > 0 {
      PairableTail(v, t, start);
      BelowGrow(g.edges, v, t[0].0, t[0].1, start);
      AttachBelow(Hang(g, v, t[0].0, t[0].1, start), v, t[1..], start - 1);
    }
  }

  /** The second loop keeps the lists and the edge set in agreement. */
  lemma {:induction false} AttachValid(g: Graph, v: int, t: seq<(int, int)>, start: int)
    requires Valid(g) && Below(g.edges, start) && Pairable(v, t, start)
    ensures Valid(Attach(g, v, t, start).0)
    decreases |t|
  {
    if |t| > 0 {
      PairableTail(v, t, start);
      HangValid(g, v, t[0].0, t[0].1, start);
      BelowGrow(g.edges, v, t[0].0, t[0].1, start);
      AttachValid(Hang(g, v, t[0].0, t[0].1, start), v, t[1..], start - 1);
    }
  }

  /** Splitting two elements off the front of a list without repeats. */
  lemma NoDupPair(a: int, b: int, tail: seq<int>)
    requires NoDup([a, b] + tail)
    ensures a != b && a !in tail && b !in tail && NoDup(tail)
  {
    var s := [a, b] + tail;
    assert s[0] == a && s[1] == b;
    forall i, j | 0 <= i < j < |tail|
      ensures tail[i] != tail[j]
    {
      assert s[i + 2] == tail[i] && s[j + 2] == tail[j];
    }
    forall i | 0 <= i < |tail|
      ensures tail[i] != a && tail[i] != b
    {
      assert s[i + 2] == tail[i];
    }
  }

  /** The pairs of a list without repeats have distinct children. */
  lemma {:induction false} PairsDistinct(s: seq<int>)
    requires NoDup(s)
    ensures Distinct(Pairs(s))
    decreases |s|
  {
    if |s| >= 2 {
      var tail := s[2..];
      assert s == [s[0], s[1]] + tail;
      NoDupPair(s[0], s[1], tail);
      PairsDistinct(tail);
      PairsFlat(tail);
      MentionsFlat(Pairs(tail), s[0]);
      MentionsFlat(Pairs(tail), s[1]);
      assert Pairs(s)[1..] == Pairs(tail);
    }
  }

  /** The pairs of a list above `c` have children above `c`. */
  lemma {:induction false} PairsAbove(s: seq<int>, c: int)
    requires forall i :: 0 <= i < |s| ==> s[i] > c
    ensures Above(Pairs(s), c)
    decreases |s|
  {
    if |s| >= 2 {
      PairsAbove(s[2..], c);
      assert Pairs(s)[1..] == Pairs(s[2..]);
    }
  }

  /** Before the second loop: the pairs meet its side conditions and the ids from `start` down are still unused. */
  lemma VertexReady(g: Graph, v: int, start: int)
    requires Valid(g) && Below(g.edges, start)
    ensures Pairable(v, Pairs(Succ(g, v)), start)
    ensures Valid(Detach(g, v, Pairs(Succ(g, v)))) && Below(Detach(g, v, Pairs(Succ(g, v))).edges, start)
  {
    var s := Succ(g, v);
    var t := Pairs(s);
    assert SuccAgrees(g);
    assert NoDup(s);
    PairsDistinct(s);
    forall i | 0 <= i < |s|
      ensures s[i] > start && v > start
    {
      SuccIsEdge(g, v, i);
    }
    PairsAbove(s, start);
    if |t| > 0 {
      assert v > start;
    }
    DetachEdges(g, v, t);
  }

  /**
   * One vertex: with s its successor list and m = |s| / 2, v keeps the odd last child (if any)
   * followed by the m pseudo ids, so its out-degree falls to ceil(|s| / 2).
   */
  lemma VertexSucc(g: Graph, v: int, start: int)
    requires Valid(g) && Below(g.edges, start)
    ensures var s := Succ(g, v);
      Succ(PairVertex(g, v, start).0, v) == s[2 * (|s| / 2)..] + Ids(start, |s| / 2)
    ensures forall x :: x > start && x != v ==> Succ(PairVertex(g, v, start).0, x) == Succ(g, x)
  {
    var s := Succ(g, v);
    var t := Pairs(s);
    PairsFlat(s);
    assert s == Flat(t) + s[2 * |t|..];
    DetachSucc(g, v, t, s[2 * |t|..]);
    VertexReady(g, v, start);
    AttachSucc(Detach(g, v, t), v, t, start);
  }

  /** One vertex: every original vertex keeps its in-degree (a paired child trades v for a pseudo parent). */
  lemma VertexPred(g: Graph, v: int, start: int)
    requires Valid(g) && Below(g.edges, start)
    ensures forall x :: x > start ==> |Pred(PairVertex(g, v, start).0, x)| == |Pred(g, x)|
  {
    var s := Succ(g, v);
    var t := Pairs(s);
    PairsFlat(s);
    assert s == Flat(t) + s[2 * |t|..];
    DetachPredKeep(g, v, t, s[2 * |t|..]);
    DetachPredCount(g, v, t, s[2 * |t|..]);
    VertexReady(g, v, start);
    AttachPred(Detach(g, v, t), v, t, start);
    forall x | x > start
      ensures |Pred(PairVertex(g, v, start).0, x)| == |Pred(g, x)|
    {
      MentionsFlat(t, x);
    }
  }

  /** One vertex: the i-th pseudo id has v as its one parent and s[2i], s[2i+1] as its children. */
  lemma VertexPseudo(g: Graph, v: int, start: int)
    requires Valid(g) && Below(g.edges, start)
    ensures forall i :: 0 <= i < |Succ(g, v)| / 2 ==>
      Succ(PairVertex(g, v, start).0, start - i) == [Succ(g, v)[2 * i], Succ(g, v)[2 * i + 1]] &&
      Pred(PairVertex(g, v, start).0, start - i) == [v]
  {
    var s := Succ(g, v);
    var t := Pairs(s);
    var d := Detach(g, v, t);
    var r := PairVertex(g, v, start).0;
    PairsPairable(g, v, start);
    assert r == Attach(d, v, t, start).0;
    forall i | 0 <= i < |s| / 2
      ensures Succ(r, start - i) == [s[2 * i], s[2 * i + 1]] && Pred(r, start - i) == [v]
    {
      PseudoAt(d, v, s, start, r, i);
    }
  }

  /** Hanging the pairs of `s` under `start`, `start - 1`, ... gives the i-th id the children s[2i], s[2i+1]. */
  lemma PseudoAt(d: Graph, v: int, s: seq<int>, start: int, r: Graph, i: int)
    requires Pairable(v, Pairs(s), start) && r == Attach(d, v, Pairs(s), start).0
    requires 0 <= i < |s| / 2
    ensures Succ(r, start - i) == [s[2 * i], s[2 * i + 1]] && Pred(r, start - i) == [v]
  {
    var t := Pairs(s);
    AttachPseudo(d, v, t, start);
    PairsAt(s, i);
    assert Succ(r, start - i) == [t[i].0, t[i].1] && Pred(r, start - i) == [v];
  }

  /** The pairs of a vertex's children can be hung under the ids from `start` down. */
  lemma PairsPairable(g: Graph, v: int, start: int)
    requires Valid(g) && Below(g.edges, start)
    ensures Pairable(v, Pairs(Succ(g, v)), start)
  {
    VertexReady(g, v, start);
  }

  /** Each of the new ids `start`, `start - 1`, ... has one parent and two children. */
  lemma VertexShape(g: Graph, v: int, start: int)
    requires Valid(g) && Below(g.edges, start)
    ensures var r := PairVertex(g, v, start);
      forall x :: r.1 < x <= start ==> |Pred(r.0, x)| == 1 && |Succ(r.0, x)| == 2
  {
    var t := Pairs(Succ(g, v));
    VertexReady(g, v, start);
    AttachShape(Detach(g, v, t), v, t, start);
  }

  /** The vertices a pass visits: no repeats, all above the first pseudo id. */
  ghost predicate Visitable(order: seq<int>, start: int) {
    NoDup(order) && forall i :: 0 <= i < |order| ==> order[i] > start
  }

  lemma VisitableTail(order: seq<int>, start: int, next: int)
    requires Visitable(order, start) && |order| > 0 && next <= start
    ensures Visitable(order[1..], next) && order[0] !in order[1..]
  {
    assert order == [order[0]] + order[1..];
    NoDupPrefix([order[0]], order[1..]);
    forall i | 0 <= i < |order[1..]|
      ensures order[1..][i] > next
    {
      assert order[1..][i] == order[i + 1];
    }
  }

  /** One vertex: its out-degree falls from k to ceil(k / 2). */
  lemma VertexDegree(g: Graph, v: int, start: int)
    requires Valid(g) && Below(g.edges, start)
    ensures |Succ(PairVertex(g, v, start).0, v)| == (|Succ(g, v)| + 1) / 2
    ensures forall x :: x > start && x != v ==> Succ(PairVertex(g, v, start).0, x) == Succ(g, x)
  {
    VertexSucc(g, v, start);
  }

  /** The pass leaves every original vertex it does not visit as it was. */
  lemma {:induction false} PassKeeps(g: Graph, order: seq<int>, start: int)
    requires Valid(g) && Below(g.edges, start)
    ensures forall x :: x > start && x !in order ==> Succ(PairPass(g, order, start).0, x) == Succ(g, x)
    decreases |order|
  {
    if |order| > 0 {
      var p := PairVertex(g, order[0], start);
      VertexDegree(g, order[0], start);
      PassKeeps(p.0, order[1..], p.1);
      forall x | x > start && x !in order
        ensures Succ(PairPass(g, order, start).0, x) == Succ(g, x)
      {
        assert x != order[0];
        assert x !in order[1..];
      }
    }
  }

  /** The pass leaves each visited vertex with ceil(k / 2) children out of k. */
  lemma {:induction false} PassSucc(g: Graph, order: seq<int>, start: int)
    requires Valid(g) && Below(g.edges, start) && Visitable(order, start)
    ensures forall i :: 0 <= i < |order| ==>
      |Succ(PairPass(g, order, start).0, order[i])| == (|Succ(g, order[i])| + 1) / 2
    decreases |order|
  {
    if |order| > 0 {
      var p := PairVertex(g, order[0], start);
      VertexDegree(g, order[0], start);
      VisitableTail(order, start, p.1);
      PassSucc(p.0, order[1..], p.1);
      PassKeeps(p.0, order[1..], p.1);
      PassSuccStep(g, p, PairPass(p.0, order[1..], p.1).0, order, start);
    }
  }

  /** The inductive step of `PassSucc`, on the three graphs before, between and after. */
  lemma PassSuccStep(g: Graph, p: (Graph, int), r: Graph, order: seq<int>, start: int)
    requires |order| > 0 && order[0] > start && order[0] !in order[1..] && p.1 <= start
    requires forall i :: 0 <= i < |order| ==> order[i] > start
    requires |Succ(p.0, order[0])| == (|Succ(g, order[0])| + 1) / 2
    requires forall x :: x > start && x != order[0] ==> Succ(p.0, x) == Succ(g, x)
    requires forall x :: x > p.1 && x !in order[1..] ==> Succ(r, x) == Succ(p.0, x)
    requires forall i :: 0 <= i < |order[1..]| ==> |Succ(r, order[1..][i])| == (|Succ(p.0, order[1..][i])| + 1) / 2
    ensures forall i :: 0 <= i < |order| ==> |Succ(r, order[i])| == (|Succ(g, order[i])| + 1) / 2
  {
    forall i | 0 <= i < |order|
      ensures |Succ(r, order[i])| == (|Succ(g, order[i])| + 1) / 2
    {
      if i > 0 {
        assert order[i] == order[1..][i - 1];
      }
    }
  }

  /** The pass keeps the in-degree of every original vertex. */
  lemma {:induction false} PassPred(g: Graph, order: seq<int>, start: int)
    requires Valid(g) && Below(g.edges, start)
    ensures forall x :: x > start ==> |Pred(PairPass(g, order, start).0, x)| == |Pred(g, x)|
    decreases |order|
  {
    if |order| > 0 {
      var p := PairVertex(g, order[0], start);
      VertexPred(g, order[0], start);
      PassPred(p.0, order[1..], p.1);
    }
  }

  /** Every pseudo vertex the pass creates has exactly one parent and two children. */
  lemma {:induction false} PassPseudo(g: Graph, order: seq<int>, start: int)
    requires Valid(g) && Below(g.edges, start) && Visitable(order, start)
    ensures forall x :: PairPass(g, order, start).1 < x <= start ==>
      |Pred(PairPass(g, order, start).0, x)| == 1 && |Succ(PairPass(g, order, start).0, x)| == 2
    decreases |order|
  {
    if |order| > 0 {
      var v := order[0];
      var p := PairVertex(g, v, start);
      VertexShape(g, v, start);
      VisitableTail(order, start, p.1);
      PassPseudo(p.0, order[1..], p.1);
      PassKeeps(p.0, order[1..], p.1);
      PassPred(p.0, order[1..], p.1);
      PassPseudoStep(p, PairPass(p.0, order[1..], p.1), order, start);
    }
  }

  /** The inductive step of `PassPseudo`: the ids of the first vertex, then those of the rest. */
  lemma PassPseudoStep(p: (Graph, int), r: (Graph, int), order: seq<int>, start: int)
    requires |order| > 0 && forall i :: 0 <= i < |order| ==> order[i] > start
    requires p.1 <= start
    requires forall x :: p.1 < x <= start ==> |Pred(p.0, x)| == 1 && |Succ(p.0, x)| == 2
    requires forall x :: r.1 < x <= p.1 ==> |Pred(r.0, x)| == 1 && |Succ(r.0, x)| == 2
    requires forall x :: x > p.1 && x !in order[1..] ==> Succ(r.0, x) == Succ(p.0, x)
    requires forall x :: x > p.1 ==> |Pred(r.0, x)| == |Pred(p.0, x)|
    ensures forall x :: r.1 < x <= start ==> |Pred(r.0, x)| == 1 && |Succ(r.0, x)| == 2
  {
    forall i | 0 <= i < |order[1..]|
      ensures order[1..][i] > start
    {
      assert order[1..][i] == order[i + 1];
    }
  }

  /**
   * After a pass `r`, the vertex v (with children s in `g`) keeps its odd last child followed by
   * the ids b, b-1, ..., and the i-th of those ids has v as its only parent and s[2i], s[2i+1]
   * as its children.
   */
  ghost predicate Hung(g: Graph, r: Graph, v: int, b: int) {
    var s := Succ(g, v);
    Succ(r, v) == s[2 * (|s| / 2)..] + Ids(b, |s| / 2) &&
    forall i :: 0 <= i < |s| / 2 ==> Succ(r, b - i) == [s[2 * i], s[2 * i + 1]] && Pred(r, b - i) == [v]
  }

  /** The ids the pass hands to the first `i` vertices of `order`, at |s| / 2 for a vertex with children s. */
  ghost function Used(g: Graph, order: seq<int>, i: nat): (n: nat)
    requires i <= |order|
    decreases i
  {
    if i == 0 then 0 else Used(g, order, i - 1) + |Succ(g, order[i - 1])| / 2
  }

  /** The ids used before a vertex and by it are among those the whole pass uses. */
  lemma {:induction false} UsedGrows(g: Graph, order: seq<int>, i: nat, j: nat)
    requires i <= j <= |order|
    ensures Used(g, order, i) <= Used(g, order, j)
    decreases j - i
  {
    if i < j {
      UsedGrows(g, order, i, j - 1);
    }
  }

  /** Counting from the second vertex, after the first vertex's pairing, gives the same ids. */
  lemma {:induction false} UsedShift(g: Graph, h: Graph, order: seq<int>, i: nat)
    requires 1 <= i <= |order|
    requires forall j :: 1 <= j < |order| ==> Succ(h, order[j]) == Succ(g, order[j])
    ensures Used(g, order, i) == |Succ(g, order[0])| / 2 + Used(h, order[1..], i - 1)
    decreases i
  {
    if i > 1 {
      UsedShift(g, h, order, i - 1);
      assert order[1..][i - 2] == order[i - 1];
    }
  }

  /** One vertex: the successor lists of the other original vertices are unchanged. */
  lemma VertexOthers(g: Graph, v: int, start: int)
    requires Valid(g) && Below(g.edges, start)
    ensures forall x :: x > start && x != v ==> Succ(PairVertex(g, v, start).0, x) == Succ(g, x)
  {
    VertexSucc(g, v, start);
  }

  /** The first vertex's pairing leaves the children of the later vertices of `order` alone. */
  lemma SuccBeyond(g: Graph, h: Graph, order: seq<int>, start: int)
    requires Visitable(order, start) && |order| > 0
    requires forall x :: x > start && x != order[0] ==> Succ(h, x) == Succ(g, x)
    ensures forall j :: 1 <= j < |order| ==> Succ(h, order[j]) == Succ(g, order[j])
  {
    forall j | 1 <= j < |order|
      ensures Succ(h, order[j]) == Succ(g, order[j])
    {
      assert order[j] > start && order[j] != order[0];
    }
  }

  /** The ids of the first `i` vertices: those of the first, then those of the rest after its pairing. */
  lemma UsedAfterFirst(g: Graph, order: seq<int>, start: int, i: nat)
    requires Valid(g) && Below(g.edges, start) && Visitable(order, start) && 1 <= i <= |order|
    ensures Used(g, order, i) == |Succ(g, order[0])| / 2 + Used(PairVertex(g, order[0], start).0, order[1..], i - 1)
  {
    var h := PairVertex(g, order[0], start).0;
    VertexOthers(g, order[0], start);
    SuccBeyond(g, h, order, start);
    UsedShift(g, h, order, i);
  }

  /** The pass ends its count exactly `Used` ids below `start`. */
  lemma {:induction false} PassNext(g: Graph, order: seq<int>, start: int)
    requires Valid(g) && Below(g.edges, start) && Visitable(order, start)
    ensures PairPass(g, order, start).1 == start - Used(g, order, |order|)
    decreases |order|, 1
  {
    if |order| > 0 {
      PassNextTail(g, order, start);
      UsedAfterFirst(g, order, start, |order|);
    }
  }

  /** After the first vertex, the rest of the pass ends `Used` ids below where the first left off. */
  lemma {:induction false} PassNextTail(g: Graph, order: seq<int>, start: int)
    requires Valid(g) && Below(g.edges, start) && Visitable(order, start) && |order| > 0
    ensures var p := PairVertex(g, order[0], start);
      PairPass(g, order, start).1 == p.1 - Used(p.0, order[1..], |order| - 1)
    decreases |order|, 0
  {
    var p, rest := PairVertex(g, order[0], start), order[1..];
    assert Visitable(rest, p.1) by {
      VisitableTail(order, start, p.1);
    }
    PassNext(p.0, rest, p.1);
    PassUnfold(g, order, start);
    assert |rest| == |order| - 1;
  }

  /** A non-empty pass pairs its first vertex, then passes over the rest. */
  lemma PassUnfold(g: Graph, order: seq<int>, start: int)
    requires Valid(g) && Below(g.edges, start) && |order| > 0
    ensures var p := PairVertex(g, order[0], start);
      PairPass(g, order, start).1 == PairPass(p.0, order[1..], p.1).1
  {
  }

  /** One vertex: the pairing leaves it hung under the ids from `start` down. */
  lemma VertexHung(g: Graph, v: int, start: int)
    requires Valid(g) && Below(g.edges, start)
    ensures Hung(g, PairVertex(g, v, start).0, v, start)
  {
    VertexSucc(g, v, start);
    VertexPseudo(g, v, start);
  }

  /** One vertex: an original vertex that is not one of its children keeps its parents. */
  lemma VertexPredKeep(g: Graph, v: int, start: int)
    requires Valid(g) && Below(g.edges, start)
    ensures forall x :: x > start && x !in Succ(g, v) ==> Pred(PairVertex(g, v, start).0, x) == Pred(g, x)
  {
    var s := Succ(g, v);
    var t := Pairs(s);
    PairsFlat(s);
    assert s == Flat(t) + s[2 * |t|..];
    DetachPredKeep(g, v, t, s[2 * |t|..]);
    VertexReady(g, v, start);
    AttachPred(Detach(g, v, t), v, t, start);
    forall x | x > start && x !in s
      ensures Pred(PairVertex(g, v, start).0, x) == Pred(g, x)
    {
      MentionsFlat(t, x);
    }
  }

  /** The pass keeps the parents of a vertex that no vertex it visits has as a child. */
  lemma {:induction false} PassPredKeep(g: Graph, order: seq<int>, start: int, x: int)
    requires Valid(g) && Below(g.edges, start) && Visitable(order, start) && x > start
    requires forall j :: 0 <= j < |order| ==> x !in Succ(g, order[j])
    ensures Pred(PairPass(g, order, start).0, x) == Pred(g, x)
    decreases |order|
  {
    if |order| > 0 {
      var p := PairVertex(g, order[0], start);
      VertexPredKeep(g, order[0], start);
      VertexSucc(g, order[0], start);
      VisitableTail(order, start, p.1);
      forall j | 0 <= j < |order[1..]|
        ensures x !in Succ(p.0, order[1..][j])
      {
        assert order[1..][j] == order[j + 1];
      }
      PassPredKeep(p.0, order[1..], p.1, x);
    }
  }

  /** Children of an original vertex are original vertices, never ids at or below `start`. */
  lemma ChildrenAbove(g: Graph, w: int, start: int, x: int)
    requires Valid(g) && Below(g.edges, start) && x <= start
    ensures x !in Succ(g, w)
  {
    assert SuccAgrees(g);
  }

  /** What the later vertices of a pass do leaves the first vertex hung as it was. */
  lemma HungKept(g: Graph, p: (Graph, int), r: Graph, order: seq<int>, start: int)
    requires Valid(p.0) && Below(p.0.edges, p.1) && |order| > 0 && p.1 == start - |Succ(g, order[0])| / 2
    requires Visitable(order, start) && Hung(g, p.0, order[0], start)
    requires forall x :: x > p.1 && x !in order[1..] ==> Succ(r, x) == Succ(p.0, x)
    requires forall x :: p.1 < x <= start ==> Pred(r, x) == Pred(p.0, x)
    ensures Hung(g, r, order[0], start)
  {
    var v, s := order[0], Succ(g, order[0]);
    assert v !in order[1..];
    forall i | 0 <= i < |s| / 2
      ensures Succ(r, start - i) == [s[2 * i], s[2 * i + 1]] && Pred(r, start - i) == [v]
    {
      var x := start - i;
      forall j | 0 <= j < |order[1..]|
        ensures order[1..][j] != x
      {
        assert order[1..][j] == order[j + 1];
      }
    }
  }

  /** The i-th vertex of `order` is hung under the ids left after those of the vertices before it. */
  ghost predicate HungAt(g: Graph, r: Graph, order: seq<int>, start: int, i: int)
    requires 0 <= i < |order|
  {
    Hung(g, r, order[i], start - Used(g, order, i))
  }

  /** The pass hangs the i-th vertex of `order` under the ids from `start - Used(g, order, i)` down. */
  lemma {:induction false} PassHung(g: Graph, order: seq<int>, start: int)
    requires Valid(g) && Below(g.edges, start) && Visitable(order, start)
    ensures forall i :: 0 <= i < |order| ==> HungAt(g, PairPass(g, order, start).0, order, start, i)
    decreases |order|
  {
    if |order| > 0 {
      var p := PairVertex(g, order[0], start);
      var rest := order[1..];
      var r := PairPass(p.0, rest, p.1).0;
      assert PairPass(g, order, start).0 == r;
      VisitableTail(order, start, p.1);
      PassHung(p.0, rest, p.1);
      forall i | 0 <= i < |order|
        ensures HungAt(g, r, order, start, i)
      {
        if i == 0 {
          HungFirst(g, order, start);
          HungHead(g, r, order, start);
        } else {
          assert HungAt(p.0, r, rest, p.1, i - 1);
          Later(g, order, start, i);
          HungShift(g, p.0, r, order, rest, start, p.1, i);
        }
      }
    }
  }

  /** The first vertex of `order` has no ids used before it. */
  lemma HungHead(g: Graph, r: Graph, order: seq<int>, start: int)
    requires |order| > 0 && Hung(g, r, order[0], start)
    ensures HungAt(g, r, order, start, 0)
  {
    HungSame(g, g, r, order[0], start - Used(g, order, 0), start);
  }

  /** Hung as the (i-1)-th vertex of `rest` after `h`, hung as the i-th of `order` after `g`. */
  lemma HungShift(g: Graph, h: Graph, r: Graph, order: seq<int>, rest: seq<int>, start: int, next: int, i: int)
    requires 1 <= i < |order| && rest == order[1..]
    requires Succ(h, order[i]) == Succ(g, order[i]) && next - Used(h, rest, i - 1) == start - Used(g, order, i)
    requires HungAt(h, r, rest, next, i - 1)
    ensures HungAt(g, r, order, start, i)
  {
    var v, b := order[i], start - Used(g, order, i);
    assert rest[i - 1] == v;
    HungAtIs(h, r, rest, next, i - 1, v, b);
    HungSame(g, h, r, v, b, b);
    HungAtOf(g, r, order, start, i, b);
  }

  /** `HungAt` read as `Hung` with the vertex and the first id named. */
  lemma HungAtIs(g: Graph, r: Graph, order: seq<int>, start: int, i: int, v: int, b: int)
    requires 0 <= i < |order| && order[i] == v && b == start - Used(g, order, i) && HungAt(g, r, order, start, i)
    ensures Hung(g, r, v, b)
  {
  }

  /** `Hung` with the vertex and first id that `HungAt` names gives `HungAt`. */
  lemma HungAtOf(g: Graph, r: Graph, order: seq<int>, start: int, i: int, b: int)
    requires 0 <= i < |order| && b == start - Used(g, order, i) && Hung(g, r, order[i], b)
    ensures HungAt(g, r, order, start, i)
  {
  }

  /** The first vertex of a pass stays hung under the ids from `start` down. */
  lemma HungFirst(g: Graph, order: seq<int>, start: int)
    requires Valid(g) && Below(g.edges, start) && Visitable(order, start) && |order| > 0
    ensures Hung(g, PairPass(g, order, start).0, order[0], start)
  {
    var p := PairVertex(g, order[0], start);
    var r := PairPass(p.0, order[1..], p.1).0;
    VertexHung(g, order[0], start);
    VisitableTail(order, start, p.1);
    PassKeeps(p.0, order[1..], p.1);
    PassPseudoParents(g, order, start);
    HungKept(g, p, r, order, start);
  }

  /** The later vertices of a pass never take the first vertex's pseudo ids as children. */
  lemma PassPseudoParents(g: Graph, order: seq<int>, start: int)
    requires Valid(g) && Below(g.edges, start) && Visitable(order, start) && |order| > 0
    ensures var p := PairVertex(g, order[0], start);
      forall x :: p.1 < x <= start ==> Pred(PairPass(p.0, order[1..], p.1).0, x) == Pred(p.0, x)
  {
    var p := PairVertex(g, order[0], start);
    VertexOthers(g, order[0], start);
    SuccBeyond(g, p.0, order, start);
    VisitableTail(order, start, p.1);
    forall x | p.1 < x <= start
      ensures Pred(PairPass(p.0, order[1..], p.1).0, x) == Pred(p.0, x)
    {
      forall j | 0 <= j < |order[1..]|
        ensures x !in Succ(p.0, order[1..][j])
      {
        assert order[1..][j] == order[j + 1];
        ChildrenAbove(g, order[j + 1], start, x);
      }
      PassPredKeep(p.0, order[1..], p.1, x);
    }
  }

  /** Being hung depends on the vertex's children and on the base id, not on how they were written. */
  lemma HungSame(g: Graph, h: Graph, r: Graph, v: int, b: int, c: int)
    requires Succ(h, v) == Succ(g, v) && Hung(h, r, v, c) && c == b
    ensures Hung(g, r, v, b)
  {
  }

  /** A later vertex of a pass keeps its children through the first vertex's pairing, and its ids follow on. */
  lemma Later(g: Graph, order: seq<int>, start: int, i: int)
    requires Valid(g) && Below(g.edges, start) && Visitable(order, start) && 1 <= i < |order|
    ensures var p := PairVertex(g, order[0], start);
      Succ(p.0, order[i]) == Succ(g, order[i]) &&
      p.1 - Used(p.0, order[1..], i - 1) == start - Used(g, order, i)
  {
    VertexOthers(g, order[0], start);
    assert order[i] > start && order[i] != order[0];
    UsedAfterFirst(g, order, start, i);
  }

  /** Removing the head of a list without repeats leaves its tail. */
  lemma RemoveHead(s: seq<int>)
    requires |s| > 0 && NoDup(s)
    ensures Remove(s, s[0]) == s[1..]
  {
    assert s[0] !in s[1..];
  }

  /**
   * `red_card`: a breadth-first search from vertex 0 over predecessors-then-successors, then the
   * pairing pass over the visited vertices in that order, handing out ids from `start` downwards.
   * Every reachable vertex ends with ceil(k / 2) children, the others keep theirs, every original
   * vertex keeps its parents, and each new id has one parent and two children.
   */
  method RedCard(g: Graph, start: int) returns (r: Graph, next: int)
    requires Valid(g) && Below(g.edges, start)
    ensures Valid(r) && Below(r.edges, next) && next <= start
    ensures forall v :: Reachable(Neighbours(g), 0, v) ==> |Succ(r, v)| == (|Succ(g, v)| + 1) / 2
    ensures forall x :: x > start && !Reachable(Neighbours(g), 0, x) ==> Succ(r, x) == Succ(g, x)
    ensures forall x :: x > start ==> |Pred(r, x)| == |Pred(g, x)|
    ensures forall x :: next < x <= start ==> |Pred(r, x)| == 1 && |Succ(r, x)| == 2
    ensures forall v :: Reachable(Neighbours(g), 0, v) ==>
      exists b :: next + |Succ(g, v)| / 2 <= b <= start && Hung(g, r, v, b)
  {
    var visits, last := Bfs.Bfs(Neighbours(g), 0, v => false);
    r, next := PairPass(g, visits, start).0, PairPass(g, visits, start).1;
    PassOverSearch(g, start, visits);
    PassCounts(g, start, visits);
    SearchHung(g, start, visits);
  }

  /** Each vertex the search reaches is hung under its own run of the ids the pass hands out. */
  lemma SearchHung(g: Graph, start: int, visits: seq<int>)
    requires Valid(g) && Below(g.edges, start)
    requires |visits| >= 1 && visits[0] == 0 && NoDup(visits)
    requires forall v :: v in visits ==> Reachable(Neighbours(g), 0, v)
    requires forall v :: Reachable(Neighbours(g), 0, v) ==> v in visits
    ensures forall v :: Reachable(Neighbours(g), 0, v) ==>
      exists b :: PairPass(g, visits, start).1 + |Succ(g, v)| / 2 <= b <= start && Hung(g, PairPass(g, visits, start).0, v, b)
  {
    var r := PairPass(g, visits, start);
    if 0 <= start {
      IsolatedRoot(g, start, visits);
      PassOfIsolated(g, start);
      assert Hung(g, g, 0, start);
    } else {
      VisitsAbove(g, start, visits);
      PassHung(g, visits, start);
      PassNext(g, visits, start);
      forall v | Reachable(Neighbours(g), 0, v)
        ensures exists b :: r.1 + |Succ(g, v)| / 2 <= b <= start && Hung(g, r.0, v, b)
      {
        var i :| 0 <= i < |visits| && visits[i] == v;
        HungWitness(g, r.0, visits, start, i, r.1);
      }
    }
  }

  /** The run of ids of the i-th vertex lies between `start` and where the pass stops counting. */
  lemma HungWitness(g: Graph, r: Graph, order: seq<int>, start: int, i: int, next: int)
    requires 0 <= i < |order| && HungAt(g, r, order, start, i) && next == start - Used(g, order, |order|)
    ensures exists b :: next + |Succ(g, order[i])| / 2 <= b <= start && Hung(g, r, order[i], b)
  {
    UsedGrows(g, order, i + 1, |order|);
    var b := start - Used(g, order, i);
    assert Used(g, order, i + 1) == Used(g, order, i) + |Succ(g, order[i])| / 2;
    assert Hung(g, r, order[i], b);
  }

  /** The children of every vertex after the pass over the search order. */
  lemma PassOverSearch(g: Graph, start: int, visits: seq<int>)
    requires Valid(g) && Below(g.edges, start)
    requires |visits| >= 1 && visits[0] == 0 && NoDup(visits)
    requires forall v :: v in visits ==> Reachable(Neighbours(g), 0, v)
    requires forall v :: Reachable(Neighbours(g), 0, v) ==> v in visits
    ensures forall v :: Reachable(Neighbours(g), 0, v) ==>
      |Succ(PairPass(g, visits, start).0, v)| == (|Succ(g, v)| + 1) / 2
    ensures forall x :: x > start && !Reachable(Neighbours(g), 0, x) ==>
      Succ(PairPass(g, visits, start).0, x) == Succ(g, x)
  {
    if 0 <= start {
      IsolatedRoot(g, start, visits);
      PassOfIsolated(g, start);
    } else {
      VisitsAbove(g, start, visits);
      PassOverVisits(g, start, visits);
      PassBesideVisits(g, start, visits);
    }
  }

  /** The parents of the original vertices and of the new ids after the pass over the search order. */
  lemma PassCounts(g: Graph, start: int, visits: seq<int>)
    requires Valid(g) && Below(g.edges, start)
    requires |visits| >= 1 && visits[0] == 0 && NoDup(visits)
    requires forall v :: v in visits ==> Reachable(Neighbours(g), 0, v)
    ensures forall x :: x > start ==> |Pred(PairPass(g, visits, start).0, x)| == |Pred(g, x)|
    ensures forall x :: PairPass(g, visits, start).1 < x <= start ==>
      |Pred(PairPass(g, visits, start).0, x)| == 1 && |Succ(PairPass(g, visits, start).0, x)| == 2
  {
    if 0 <= start {
      IsolatedRoot(g, start, visits);
      PassOfIsolated(g, start);
    } else {
      VisitsAbove(g, start, visits);
      PassPred(g, visits, start);
      PassPseudo(g, visits, start);
    }
  }

  /** The pass over everything the search reaches halves the out-degree of each reached vertex. */
  lemma PassOverVisits(g: Graph, start: int, visits: seq<int>)
    requires Valid(g) && Below(g.edges, start) && Visitable(visits, start)
    requires forall v :: Reachable(Neighbours(g), 0, v) ==> v in visits
    ensures forall v :: Reachable(Neighbours(g), 0, v) ==>
      |Succ(PairPass(g, visits, start).0, v)| == (|Succ(g, v)| + 1) / 2
  {
    PassSucc(g, visits, start);
    HalvedMembers(g, PairPass(g, visits, start).0, visits);
  }

  /** The index form of `PassSucc` restated for the members of the list. */
  lemma HalvedMembers(g: Graph, r: Graph, visits: seq<int>)
    requires forall i :: 0 <= i < |visits| ==> |Succ(r, visits[i])| == (|Succ(g, visits[i])| + 1) / 2
    ensures forall v :: v in visits ==> |Succ(r, v)| == (|Succ(g, v)| + 1) / 2
  {
    forall v | v in visits
      ensures |Succ(r, v)| == (|Succ(g, v)| + 1) / 2
    {
      var i :| 0 <= i < |visits| && visits[i] == v;
    }
  }

  /** ... and leaves every original vertex it does not reach as it was. */
  lemma PassBesideVisits(g: Graph, start: int, visits: seq<int>)
    requires Valid(g) && Below(g.edges, start)
    requires forall v :: v in visits ==> Reachable(Neighbours(g), 0, v)
    ensures forall x :: x > start && !Reachable(Neighbours(g), 0, x) ==>
      Succ(PairPass(g, visits, start).0, x) == Succ(g, x)
  {
    PassKeeps(g, visits, start);
  }

  /** With 0 among the fresh ids, vertex 0 has no neighbours and the search visits only it. */
  lemma IsolatedRoot(g: Graph, start: int, visits: seq<int>)
    requires Valid(g) && Below(g.edges, start) && 0 <= start
    requires |visits| >= 1 && visits[0] == 0 && NoDup(visits)
    requires forall v :: v in visits ==> Reachable(Neighbours(g), 0, v)
    ensures visits == [0] && Succ(g, 0) == []
    ensures forall v :: Reachable(Neighbours(g), 0, v) ==> v == 0
  {
    FreshIsolated(g, 0);
    assert Adj(Neighbours(g), 0) == [];
    forall v | Reachable(Neighbours(g), 0, v)
      ensures v == 0
    {
      ClosedHoldsReachable(Neighbours(g), 0, {0}, v);
    }
    assert Elems(visits) == {0};
    NoDupCard(visits);
  }

  /** A pass over a childless vertex alone changes nothing. */
  lemma PassOfIsolated(g: Graph, start: int)
    requires Valid(g) && Below(g.edges, start) && Succ(g, 0) == []
    ensures PairPass(g, [0], start) == (g, start)
  {
    assert Pairs(Succ(g, 0)) == [];
    assert PairVertex(g, 0, start) == (g, start);
    assert [0][1..] == [];
  }

  /** With 0 above the fresh ids, every vertex the search visits is an original vertex. */
  lemma VisitsAbove(g: Graph, start: int, visits: seq<int>)
    requires Valid(g) && Below(g.edges, start) && 0 > start && NoDup(visits)
    requires forall v :: v in visits ==> Reachable(Neighbours(g), 0, v)
    ensures Visitable(visits, start)
  {
    forall i | 0 <= i < |visits|
      ensures visits[i] > start
    {
      assert visits[i] in visits;
      ReachableBelow(g, 0, visits[i], start);
    }
  }
}

=== FILE: seqs.dfy ===
/** Sequence and set helpers shared by every component of the layout pipeline. */
module Seqs {

  /** The conventional optional value; `None` also stands for "the source never returns". */
  datatype Option<T> = None | Some(value: T)

  /** No element occurs twice. */
  predicate NoDup<T(==)>(s: seq<T>) {
    forall i, j :: 0 <= i < j < |s| ==> s[i] != s[j]
  }

  /** The set of elements of a sequence. */
  function Elems<T>(s: seq<T>): set<T> {
    set x | x in s
  }

  /** `s` without any occurrence of `x`, order otherwise kept (an `erase` on a vector). */
  function Remove<T(==,!new)>(s: seq<T>, x: T): (r: seq<T>)
    ensures forall y :: y in r <==> y in s && y != x
    ensures |r| <= |s|
    ensures x !in s ==> r == s
    ensures NoDup(s) ==> NoDup(r)
    ensures NoDup(s) && x in s ==> |r| == |s| - 1
  {
    if |s| == 0 then []
    else if s[0] == x then Remove(s[1..], x)
    else
      var rest := Remove(s[1..], x);
      assert NoDup(s) ==> s[0] !in s[1..];
      [s[0]] + rest
  }

  /** The elements of `s` for which `keep` holds, in order (`views::filter`, `drop_if`). */
  function Filter<T(!new)>(s: seq<T>, keep: T -> bool): (r: seq<T>)
    ensures |r| <= |s|
    ensures forall y :: y in r <==> y in s && keep(y)
    ensures NoDup(s) ==> NoDup(r)
  {
    if |s| == 0 then []
    else
      var rest := Filter(s[1..], keep);
      assert NoDup(s) ==> s[0] !in s[1..];
      if keep(s[0]) then [s[0]] + rest else rest
  }

  /**
   * The elements of `s` not in `seen`, each at its first occurrence, in order: what a lazy
   * filter against a visited set yields when every element let through is marked at once.
   */
  function Fresh(s: seq<int>, seen: set<int>): (r: seq<int>)
    ensures NoDup(r)
    ensures forall x :: x in r <==> x in s && x !in seen
    ensures |r| <= |s|
  {
    if |s| == 0 then []
    else if s[0] in seen then Fresh(s[1..], seen)
    else [s[0]] + Fresh(s[1..], seen + {s[0]})
  }

  lemma NoDupConcat<T>(s: seq<T>, t: seq<T>)
    requires NoDup(s) && NoDup(t)
    requires forall x :: x in s ==> x !in t
    ensures NoDup(s + t)
  {
    forall i, j | 0 <= i < j < |s + t|
      ensures (s + t)[i] != (s + t)[j]
    {
      if j < |s| {
      } else if i < |s| {
        assert (s + t)[i] in s && (s + t)[j] in t;
      }
    }
  }

  lemma NoDupPrefix<T>(s: seq<T>, t: seq<T>)
    requires NoDup(s + t)
    ensures NoDup(s) && NoDup(t)
    ensures forall x :: x in s ==> x !in t
  {
    forall i, j | 0 <= i < j < |s|
      ensures s[i] != s[j]
    {
      assert (s + t)[i] == s[i] && (s + t)[j] == s[j];
    }
    forall i, j | 0 <= i < j < |t|
      ensures t[i] != t[j]
    {
      assert (s + t)[|s| + i] == t[i] && (s + t)[|s| + j] == t[j];
    }
    forall i, j | 0 <= i < |s| && 0 <= j < |t|
      ensures s[i] != t[j]
    {
      assert (s + t)[i] == s[i] && (s + t)[|s| + j] == t[j];
    }
  }

  lemma ProperSubsetCard<T>(a: set<T>, b: set<T>)
    requires a < b
    ensures |a| < |b|
  {
    var d := b - a;
    assert b == a + d;
    assert a * d == {};
    assert |d| > 0;
  }

  /** Cardinality of the elements of a duplicate-free sequence is its length. */
  lemma {:induction false} NoDupCard<T>(s: seq<T>)
    requires NoDup(s)
    ensures |Elems(s)| == |s|
  {
    if |s| > 0 {
      NoDupCard(s[1..]);
      assert Elems(s) == {s[0]} + Elems(s[1..]);
      assert s[0] !in Elems(s[1..]);
    }
  }

  /** Sum of a sequence of integers. */
  function Sum(s: seq<int>): int {
    if |s| == 0 then 0 else Sum(s[..|s| - 1]) + s[|s| - 1]
  }

  /** The callback `stop` returned false on every element of `s`. */
  ghost predicate NoneStops<T>(stop: T -> bool, s: seq<T>) {
    forall i :: 0 <= i < |s| ==> !stop(s[i])
  }

  lemma NoneStopsAppend<T>(stop: T -> bool, s: seq<T>, x: T)
    requires NoneStops(stop, s) && !stop(x)
    ensures NoneStops(stop, s + [x])
  {
  }

  /** Filtering with two tests that agree on the elements gives the same sequence. */
  lemma {:induction false} FilterExt<T(!new)>(s: seq<T>, f: T -> bool, h: T -> bool)
    requires forall x :: x in s ==> f(x) == h(x)
    ensures Filter(s, f) == Filter(s, h)
  {
    if |s| > 0 {
      FilterExt(s[1..], f, h);
    }
  }
}
